=== FILE: README.md ===
# Task manager: a Dafny model

This project models the core of a small task manager. The server is Express
and Mongoose; the client is React and antd. The model covers:

- the server's task and authentication routes: create, read, update and delete,
  subtasks, batch delete, batch status, register, login, forgot password and
  reset password;
- the Mongoose task schema: defaults, validation, `addSubTask`,
  `removeSubTask`, the pre-save and pre-remove hooks;
- the one-off repair script that adds missing children to a parent's
  `subTasks` list;
- the client views that compute something from the task list:
  - the tree, pagination, selection, batch actions, CSV import and priority
    labels of the list;
  - the task form: parent choices, prefill, recurrence, interval, submitted
    body, local cache effects, focus throttle;
  - the board columns;
  - the statistics;
  - the calendar cells and popup;
  - both Gantt charts;
  - the user search;
  - the sidebar's highlighted entry;
  - the register, forgot-password and reset-password forms.

Everything is pure data and functions:

- The database is a `map` from id to document. The users collection is a
  sequence searched in natural order.
- A client task is the JSON object the client holds. Its `parentTask` and
  `user` may be missing, a raw id, or a populated object.
- Days are integers.
- Clocks, random tokens, hashes, mail delivery and the third-party validators
  (`isEmail`, `isMobilePhone`, antd's e-mail rule) are parameters.

Module layout, one module per source file:

| module | source |
|---|---|
| `TaskModel` | models/Task.js |
| `TaskRoutes` | routes/taskRoutes.js |
| `AuthRoutes` | routes/authRoutes.js |
| `FixSubtasks` | fix-task-subtasks.js |
| `TaskList` | client/src/components/TaskList.js |
| `TaskForm` | client/src/components/TaskForm.js |
| `TaskBoard` | client/src/components/TaskBoard.js |
| `TaskStats` | client/src/components/TaskStats.js |
| `TaskCalendar` | client/src/components/TaskCalendar.js |
| `TaskGantt` | client/src/components/TaskGantt.js |
| `SimpleGantt` | client/src/components/SimpleGantt.js |
| `UserList` | client/src/components/UserList.js |
| `Sidebar` | client/src/components/Sidebar.js |
| `RegisterForm` | client/src/components/Register.js |
| `ForgotPasswordForm` | client/src/components/ForgotPassword.js |
| `ResetPasswordForm` | client/src/components/ResetPassword.js |

Shared helpers:

- `ClientTask`: the client-side task record, deduplication by `_id`, and the
  local delete the list and the board share.
- `FormRules`: the antd rules the three account forms share.
- `Wrappers`, `Seqs` and `Text`: options, sequence filtering and
  deduplication, and the JavaScript string operations the sources use
  (`trim`, `split`, `join`, `includes`, `toLowerCase`, `parseInt`).

## Model

| member | source | states |
|---|---|---|
| TaskModel.NewTask | models/Task.js:3-60 | A new document gets the schema defaults: status 待办, priority 中, daily recurrence every 1, never ending, no parent, no subtasks, no sharing, no tags; the title is stored trimmed, and the document passes validation exactly when the title is not all whitespace |
| TaskModel.Save | models/Task.js:84-87 | Saving stamps `updatedAt` with the current time and changes no other field |
| TaskModel.AddSubTask | models/Task.js:68-74 | The id ends up listed; an id already listed leaves the document untouched (no save); otherwise it is appended and the document saved; a duplicate-free list stays duplicate-free |
| TaskModel.AddSubTaskChecked | models/Task.js:68-74 | The parent's save inside `addSubTask` is refused exactly when the id is new to the list and the parent fails validation; otherwise the result is `addSubTask`'s |
| TaskModel.AddSubTaskIdempotent | models/Task.js:68-74 | Adding the same subtask twice is the same as adding it once |
| TaskModel.AddSubTaskNoDuplicate | models/Task.js:69-70 | After `addSubTask` a new id occurs exactly once and an existing id keeps its multiplicity |
| TaskModel.RemoveSubTask | models/Task.js:77-81 | Every copy of the id is removed, the other ids keep their order and multiplicity, and the document is saved |
| TaskModel.RemoveUndoesAdd | models/Task.js:68-81 | Removing a subtask that was just added restores the original list |
| TaskModel.RemoveHook | models/Task.js:92-103 | The pre-remove hook deletes exactly the direct children and removes the task from its parent's list, touching no other document |
| TaskModel.RemoveDocument | models/Task.js:92-103 | Afterwards exactly the documents other than the task and its direct children remain; all of them are unchanged except the parent, which has the task removed from its list |
| TaskModel.CascadeIsOneLevel | models/Task.js:94 | A child is deleted with its parent but a grandchild survives: the cascade is one level deep |
| TaskModel.RemoveDocumentKeepsChildrenListed | models/Task.js:92-101 | If every child was listed by its parent before a removal, it still is after |
| TaskModel.RemoveDocumentKeepsListsExact | models/Task.js:96-101 | After a removal no surviving document lists the removed id |
| TaskRoutes.ValidateStatus | routes/taskRoutes.js:7-13 | A status passes when it is missing, empty, or one of the three schema statuses |
| TaskRoutes.ValidateBatchOperation | routes/taskRoutes.js:16-22 | A batch request passes exactly when it carries a non-empty id array |
| TaskRoutes.GetTask | routes/taskRoutes.js:55-66 | The corrected handler: 404 when the id is unknown, 403 when the caller neither owns the task nor is shared on it, otherwise the task |
| TaskRoutes.GetTaskAsWritten | routes/taskRoutes.js:57-66 | As written, the handler never returns a task: 404 for an unknown id, 500 when the owner's account is gone, 403 for every caller otherwise |
| TaskRoutes.GetTaskRefusesOwner | routes/taskRoutes.js:57-66 | The owner of an existing task is refused with 403 as written and served by the corrected handler |
| TaskRoutes.GetTaskSameAccessAsOtherRoutes | routes/taskRoutes.js:222-233 | The corrected read gives the same reply code as listing the sub-tasks, and as an update with a valid status and a castable date |
| TaskRoutes.RequestedParent | routes/taskRoutes.js:85 | `parentTask || null`: a parent is requested exactly when a non-empty id is given |
| TaskRoutes.NewTaskFrom | routes/taskRoutes.js:85 | The created document belongs to the caller, has no subtasks, stores title, description and every tag trimmed, has a description exactly when the body has one, holds the due date the cast reads, falls back to priority 中 for a falsy priority, keeps `recurrenceNeverEnd` unless it is exactly `false`, and never gets interval 0 |
| TaskRoutes.CreateTask | routes/taskRoutes.js:81-105 | Creation succeeds exactly when the new id is fresh, the due date casts, the document passes validation and an existing parent accepts the save of its list; success stores exactly the built document under the new id and appends it to the parent's list; a refused parent save is 500 with the child stored but unlisted; any other failure is 500 and stores nothing |
| TaskRoutes.CreateDefaults | routes/taskRoutes.js:85-87 | A body with only a title stores exactly the schema-default document when the title is not all whitespace; an all-whitespace title is 500 and stores nothing |
| TaskRoutes.CreateBlankTitleFails | routes/taskRoutes.js:85-87 | A title of spaces alone is trimmed to nothing and the create is 500 with the store unchanged |
| TaskRoutes.CreateUnderParent | routes/taskRoutes.js:89-95 | Under an unknown parent the task is stored with that parent and no list changes; under an existing parent it succeeds and is listed exactly when the parent already lists it or passes validation, and otherwise the parent is left as it was and the stored child is unlisted |
| TaskRoutes.CreateKeepsChildrenListed | routes/taskRoutes.js:81-95 | After a create the invariant that every child is listed by its parent holds exactly when the create succeeded or changed nothing: a refused parent save leaves an unlisted child |
| TaskRoutes.MergeField | routes/taskRoutes.js:125-133 | A field missing from the body keeps the stored value, an explicit `null` clears it, a given value replaces it |
| TaskRoutes.ApplyUpdate | routes/taskRoutes.js:119-136 | Each field follows its rule: truthy title, description, status and priority replace the stored value (title and description trimmed), a date replaces the due date while a falsy one keeps it, `sharedWith` and the recurrence flags replace when present, tags replace trimmed when given and clear on `null`, parent and end date follow missing/null/given; id, owner, subtask list and timestamps never change |
| TaskRoutes.UpdateTask | routes/taskRoutes.js:111-166 | 400 for an invalid status, 404 for an unknown id, 403 when the caller may not access the task, 500 for a due date the cast refuses, otherwise the stored document becomes exactly the per-field update of the old one; only the addressed document changes, and no owner or subtask list changes |
| TaskRoutes.UpdateKeepsTextTrimmed | routes/taskRoutes.js:119-136 | An update keeps title, description and tags trimmed |
| TaskRoutes.UpdateCanBlankTitle | routes/taskRoutes.js:120 | Since no validator runs on update, a title of spaces alone is stored empty and the task then fails validation |
| TaskRoutes.UpdateIdempotent | routes/taskRoutes.js:119-152 | Sending the same update twice stores the same result as once; for the owner the reply is also the same |
| TaskRoutes.UpdateCanRevokeOwnAccess | routes/taskRoutes.js:125-150 | A shared user may empty `sharedWith` and is then refused on the next request |
| TaskRoutes.UpdateWithFalsyFieldsIsNoOp | routes/taskRoutes.js:120-122 | An empty title or status is ignored rather than stored |
| TaskRoutes.UpdateKeepsStatusValid | routes/taskRoutes.js:7-13 | Because the status is validated, an update never stores an unknown status |
| TaskRoutes.UpdateStoresUnvalidatedPriority | routes/taskRoutes.js:123 | The priority is not validated on update: `urgent` is stored, which no schema enum allows |
| TaskRoutes.UpdateMovesParentWithoutLists | routes/taskRoutes.js:126 | Changing `parentTask` by update does not touch the parents' lists, so the child-listed invariant breaks |
| TaskRoutes.NewSubtaskFrom | routes/taskRoutes.js:189-197 | A subtask belongs to the caller, has the route's parent, no subtasks and no tags, stores title and description trimmed and the due date the cast reads, and falls back to 待办 and 中 for falsy status and priority |
| TaskRoutes.AddSubtaskRoute | routes/taskRoutes.js:173-217 | 404 for an unknown parent, 403 without access; success, exactly when the fresh subtask has a castable date, is valid, and the parent already lists it or passes validation, stores the subtask and appends it to the parent; a refused parent save is 500 with the subtask stored but unlisted; other failures store nothing |
| TaskRoutes.AddSubtaskKeepsChildrenListed | routes/taskRoutes.js:199-202 | After adding a subtask every child is listed by its parent exactly when the route succeeded or changed nothing |
| TaskRoutes.ListSubtasks | routes/taskRoutes.js:222-240 | 404 exactly for an unknown id and 403 exactly when the caller may not access the task; otherwise the reply holds exactly the tasks whose parent is the id |
| TaskRoutes.RemoveSubtaskRoute | routes/taskRoutes.js:253-279 | 404 exactly when the parent is unknown or, with access to it, the subtask is; 403 exactly when the parent exists and the caller may not access it; success exactly when the subtask's parent is the named one; another parent gives 400, no parent gives 500; success removes the subtask document with its hook |
| TaskRoutes.RemoveSubtaskDetaches | routes/taskRoutes.js:277-279 | After a successful removal the subtask is gone, the parent survives, and the parent no longer lists it |
| TaskRoutes.BatchDelete | routes/taskRoutes.js:294-341 | Only 200, 400, 403 and 404 are answered: 400 exactly for an empty or missing array; 404 exactly when some id is unknown, listing those ids; 403 exactly when all exist and some is foreign, listing the foreign ids; otherwise every listed task is deleted and the count is the array's length |
| TaskRoutes.BatchDeleteCountsDuplicates | routes/taskRoutes.js:335-338 | An id sent twice deletes one document but reports a count of two |
| TaskRoutes.BatchDeleteAbsentAborts | routes/taskRoutes.js:303-315 | One unknown id aborts the whole batch with 404 and nothing deleted |
| TaskRoutes.DeleteTask | routes/taskRoutes.js:408-421 | The owner deletes exactly the one document; an unknown id and a foreign task both give 404 and change nothing |
| TaskRoutes.DeleteHidesExistence | routes/taskRoutes.js:411-417 | Deleting an unknown id and deleting someone else's task give the same reply |
| TaskRoutes.DeleteLeavesDanglingReferences | routes/taskRoutes.js:411-421 | The single delete runs no hook: the parent still lists the deleted id and the children still point to it |
| TaskRoutes.OwnedMatches | routes/taskRoutes.js:446-450 | The ids the owner-filtered query finds are among the requested ids |
| TaskRoutes.BatchStatus | routes/taskRoutes.js:434-463 | Only 200, 400 and 403 are answered: 400 exactly for an empty array or an invalid status; 403 exactly when both are valid and the owned matches are fewer than the ids sent; success sets the status of exactly the listed tasks |
| TaskRoutes.BatchStatusAcceptsExactly | routes/taskRoutes.js:442-455 | A batch status update succeeds exactly when the ids are non-empty and distinct, the status is valid, and the caller owns every listed task |
| TaskRoutes.BatchStatusRejectsDuplicates | routes/taskRoutes.js:451-453 | An owned id sent twice is refused with 403 |
| FixSubtasks.QueryChildren | fix-task-subtasks.js:31 | The children query lists each task whose parent is the id, once |
| FixSubtasks.MissingChildren | fix-task-subtasks.js:39 | The missing children are exactly the children the parent does not list |
| FixSubtasks.FixTaskSubtasks | fix-task-subtasks.js:20-57 | A missing task changes nothing; there is nothing to fix exactly when every child is listed; otherwise the missing children are appended in query order and the parent saved, and no other document changes |
| FixSubtasks.FixListsEveryChild | fix-task-subtasks.js:40-48 | After a fix the list keeps its old entries as a prefix and has no duplicates |
| FixSubtasks.FixIdempotent | fix-task-subtasks.js:55-57 | Running the repair again finds nothing to fix |
| FixSubtasks.FixFailsOnInvalidDocument | fix-task-subtasks.js:48-59 | Saving a parent with an off-enum priority fails validation; the error is caught and nothing is stored |
| AuthRoutes.Register | routes/authRoutes.js:13-40 | Registration succeeds exactly when all four field checks pass and no user has the e-mail or the username; a refusal is 400 and stores nothing; success appends the new user |
| AuthRoutes.RegisterTwiceRefused | routes/authRoutes.js:28-31 | Once registered, a username is refused whatever e-mail and phone come with it |
| AuthRoutes.Login | routes/authRoutes.js:75-118 | Login succeeds exactly when both fields are present and the first user with the username has a matching password, and then returns that user's id; otherwise 400 and no user |
| AuthRoutes.LoginHidesWhichFieldFailed | routes/authRoutes.js:88-97 | An unknown username and a wrong password give the same reply |
| AuthRoutes.ForgotLookup | routes/authRoutes.js:146-161 | A non-empty e-mail is looked up by e-mail alone; otherwise a non-empty phone matches the phone as typed or its digits; no match means no user has them |
| AuthRoutes.ForgotPassword | routes/authRoutes.js:131-189 | 400 exactly when validation fails or no user is found; success stores the hashed token with a ten-minute expiry on that user only and mails them; a failed mail clears the token and answers 500 |
| AuthRoutes.EmailTakesPrecedence | routes/authRoutes.js:146-149 | A filled e-mail decides the lookup even when the phone method was chosen |
| AuthRoutes.PhoneMatchesDigitsOnly | routes/authRoutes.js:150-154 | A typed phone with separators still finds the user stored with its digits |
| AuthRoutes.ResetLookup | routes/authRoutes.js:212-220 | The reset finds a user exactly when one holds the hashed token with an expiry later than now |
| AuthRoutes.ResetPassword | routes/authRoutes.js:199-231 | The reset succeeds exactly when the password is long enough, the confirmation matches, and the token is live; it sets the password and clears the token on that user only |
| AuthRoutes.ForgotThenResetInTime | routes/authRoutes.js:168-231 | A reset with the mailed token inside the window succeeds and clears the token |
| AuthRoutes.ForgotThenResetTooLate | routes/authRoutes.js:175-224 | A reset at or after the ten-minute expiry is refused |
| AuthRoutes.ResetTokenSingleUse | routes/authRoutes.js:227-229 | A token that has reset a password cannot be used again |
| AuthRoutes.FailedMailLeavesNoToken | routes/authRoutes.js:180-189 | When the mail fails, the token that was generated cannot reset the password |
| ClientTask.ParentId | client/src/components/TaskList.js:24-26 | A task has a parent id exactly when `parentTask` is set and not empty; a populated parent gives its `_id` |
| ClientTask.Find | client/src/components/TaskList.js:193 | `find` by `_id` succeeds exactly when some task has the id, and returns the first task with it |
| ClientTask.DedupById | client/src/components/TaskCalendar.js:69-75 | Deduplication keeps each id once, in order of first occurrence, and each entry is the last record with that id, so no id is invented |
| ClientTask.LastWith | client/src/components/TaskCalendar.js:69-75 | The record a `Map` keeps for an id is one of the list's records with that id, and no later record carries the id |
| ClientTask.DedupByIdKeepsIds | client/src/components/TaskCalendar.js:69-75 | Deduplication loses no id |
| ClientTask.DedupByIdOfDistinct | client/src/components/TaskGantt.js:46 | A list without repeated ids comes out of deduplication unchanged |
| ClientTask.DeleteLocal | client/src/components/TaskList.js:190-207 | The request is sent exactly when the user is signed in and owns the found task; a task without a user crashes the handler; after sending, the list drops exactly the tasks with that id |
| ClientTask.DeleteLocalRemovesAllCopies | client/src/components/TaskList.js:207 | The local filter removes every copy of the id and only those |
| TaskList.BuildTreeData | client/src/components/TaskList.js:15-43 | The roots are the tasks whose parent is missing or not in the list, in list order; every listed id gets a children entry holding its children in list order |
| TaskList.InFilteredIds | client/src/components/TaskList.js:23-40 | On a list without repeated ids, a task's id survives a filter exactly when the task passes it |
| TaskList.PlacedExactlyOnce | client/src/components/TaskList.js:23-40 | With distinct ids every task is placed once: as a root exactly when it has no parent in the list, under its parent otherwise |
| TaskList.CycleIsHidden | client/src/components/TaskList.js:24-35 | Two tasks that name each other as parent are both left out of the roots and never shown |
| TaskList.PageIds | client/src/components/TaskList.js:69-76 | A page shows at most `pageSize` roots, the slice the page number selects |
| TaskList.PagesCover | client/src/components/TaskList.js:72-74 | The first n pages spell out the first n times `pageSize` roots, none dropped or repeated |
| TaskList.IsPageSelected | client/src/components/TaskList.js:79-81 | A page counts as selected exactly when it is non-empty and all its ids are selected |
| TaskList.SelectPage | client/src/components/TaskList.js:351 | Selecting a page gives the union of the selection and the page, with no duplicates |
| TaskList.DeselectPage | client/src/components/TaskList.js:354 | Deselecting a page keeps exactly the selected ids that are not on it, in order |
| TaskList.ToggleRow | client/src/components/TaskList.js:365-370 | Checking a row adds its id; unchecking removes every copy of it |
| TaskList.SelectPageSelectsIt | client/src/components/TaskList.js:351-354 | After selecting a non-empty page, the page reads as selected |
| TaskList.SelectThenDeselect | client/src/components/TaskList.js:351-354 | Deselecting a page just selected restores a selection that shared no id with it |
| TaskList.SelectionStaysDistinct | client/src/components/TaskList.js:351-370 | Page and row toggles keep the selection free of duplicates |
| TaskList.PlanBatchDelete | client/src/components/TaskList.js:690-739 | An empty selection, a logged-out user, and a selected task without `user` (which throws) each stop the action, exactly in those cases; otherwise the ids sent are exactly the selected ids found in the list and owned by the user, in selection order; the unknown ids are reported; the list then drops exactly the sent ids |
| TaskList.ActionableOwned | client/src/components/TaskList.js:708-713 | While the list mirrors the store, an id the client deems deletable is stored and owned by the user |
| TaskList.ClientBatchDeleteAccepted | client/src/components/TaskList.js:706-739 | While the list mirrors the store, the server accepts the client's batch delete and the list still mirrors the store afterwards |
| TaskList.ClientDeleteAccepted | client/src/components/TaskList.js:190-207 | While the list mirrors the store, a delete the client sends is accepted and leaves the list mirroring the store |
| TaskList.PlanBatchStatus | client/src/components/TaskList.js:766-805 | An empty selection, a logged-out user and a selected task without `user` each stop the action, exactly in those cases; when nothing is sent no selected id is owned; otherwise the ids sent are exactly the selected ids the user owns, and the list changes the status of exactly those tasks |
| TaskList.ClientBatchStatusAccepted | client/src/components/TaskList.js:780-805 | With a duplicate-free selection the server accepts the client's batch status update and stores the status the list shows |
| TaskList.ClientBatchStatusDuplicateRefused | client/src/components/TaskList.js:781-797 | A selection holding one owned id twice is sent as is and refused by the server with 403 |
| TaskList.ParseCsv | client/src/components/TaskList.js:603-615 | Every non-blank data line gives one record |
| TaskList.DataLines | client/src/components/TaskList.js:604-607 | The data lines are exactly the non-blank lines after the header, in order |
| TaskList.ParseCsvRow | client/src/components/TaskList.js:605-613 | A record's keys are the trimmed headers; each maps to the trimmed value in its column, or "" past the line's end |
| TaskList.ParseCsvFieldsClean | client/src/components/TaskList.js:609-612 | Every parsed value is trimmed and holds no comma |
| TaskList.TrailingNewlineIgnored | client/src/components/TaskList.js:604-607 | A trailing newline adds no record |
| TaskList.Pick | client/src/components/TaskList.js:632-635 | The Chinese column wins when filled, then the English one, then the fallback |
| TaskList.ImportedTask | client/src/components/TaskList.js:631-650 | An imported body always has a title, status and priority, and its tags are non-empty, trimmed and free of separators |
| TaskList.ParseDate | client/src/components/TaskList.js:216-284 | A blank cell gives no date; a cell the reader understands gives that date; any other cell gives its own trimmed, nonempty text |
| TaskList.ImportUnreadDateFails | client/src/components/TaskList.js:281-283 | A row whose date cell no reader understands is posted with the raw text, and the server answers 500 and stores nothing |
| TaskList.ImportedTags | client/src/components/TaskList.js:639-649 | Every imported tag is non-empty, trimmed and contains no comma or semicolon |
| TaskList.ImportDefaults | client/src/components/TaskList.js:632-649 | An empty row imports as 未命名任务, 待办, 中, no due date and no tags |
| TaskList.ImportedTagsRoundTrip | client/src/components/TaskList.js:639-649 | Joining clean tags with commas and importing them gives them back |
| TaskList.CreateImportedIff | client/src/components/TaskList.js:653 | The server creates an imported task exactly when its title is not all whitespace, its status and priority are schema values and its due date is absent or was read |
| TaskList.ImportCreateSucceedsIff | client/src/components/TaskList.js:631-653 | An imported row is created exactly when its title is not all whitespace, its status and priority columns hold schema values, and its date cell is blank or readable |
| TaskList.PostBody | client/src/components/TaskList.js:653 | A failed post changes nothing and a successful one adds the new id; with a fresh id it succeeds exactly when the body is acceptable, its date included |
| TaskList.ImportAll | client/src/components/TaskList.js:629-655 | The import creates a prefix of the rows and stops short exactly when a post fails |
| TaskList.ImportCreatedAcceptable | client/src/components/TaskList.js:629-655 | Every row that was created is acceptable to the server |
| TaskList.ImportStopsAtInvalid | client/src/components/TaskList.js:653-654 | When the import stops, the row at the stopping point is one the server refuses, an unreadable date included |
| TaskList.ImportFailsIff | client/src/components/TaskList.js:629-655 | The import fails exactly when some row is unacceptable (a blank title, an off-schema status or priority, or an unreadable date), and it stops at the first one |
| TaskList.ImportKeepsCreated | client/src/components/TaskList.js:653-654 | The rows created before a failure stay in the store |
| TaskList.FormatPriorityAsWritten | client/src/components/TaskList.js:328-339 | The label is one of 高, 中, 低 or 无 |
| TaskList.FormatPriorityHidesStoredValues | client/src/components/TaskList.js:329-337 | Every priority the schema allows is shown as 无 |
| TaskList.FormatPriority | client/src/components/TaskList.js:328-339 | A stored schema priority is shown as itself, and the English keys keep their labels |
| TaskList.FormatPriorityTotal | client/src/components/TaskList.js:328-339 | 无 is shown exactly for a missing or unknown priority |
| TaskForm.WithParent | client/src/components/TaskForm.js:69-77 | The found parent ends up offered; nothing else is added and no base candidate is lost |
| TaskForm.BaseCandidates | client/src/components/TaskForm.js:60-62 | The base choices are exactly the top-level tasks other than the one being edited, in list order |
| TaskForm.FoundParentAsWritten | client/src/components/TaskForm.js:65-67 | The raw `===` lookup finds a parent only for an unpopulated `parentTask`, never for a populated one |
| TaskForm.PopulatedParentIgnored | client/src/components/TaskForm.js:65-77 | With a populated parent the candidate list is only the parentless tasks |
| TaskForm.PopulatedParentNotOffered | client/src/components/TaskForm.js:60-77 | A concrete subtask whose parent itself has a parent is offered a list without its own parent |
| TaskForm.FoundParent | client/src/components/TaskForm.js:65-69 | The parent is found by its id whether raw or populated, and missing only when it is not in the list |
| TaskForm.ParentCandidates | client/src/components/TaskForm.js:60-77 | The candidates are the parentless tasks other than the current one, plus the current parent |
| TaskForm.CurrentParentOffered | client/src/components/TaskForm.js:60-77 | The current parent is offered exactly when it is in the fetched list |
| TaskForm.ParentCandidatesDistinct | client/src/components/TaskForm.js:71-75 | No candidate is offered twice |
| TaskForm.PrefillParent | client/src/components/TaskForm.js:107-114 | The prefilled parent field is the parent's id, or "" when there is none |
| TaskForm.Prefill | client/src/components/TaskForm.js:117-126 | The form keeps the title and status, shows the due date only when it is a day, and falls back to 中 for a missing priority |
| TaskForm.LoadRecurrence | client/src/components/TaskForm.js:128-158 | A new form has the default recurrence; a loaded pattern is never empty and the interval never 0; the task never ends unless `recurrenceNeverEnd` is `false`; it recurs only when stored as recurring |
| TaskForm.LoadStoredRecurrence | client/src/components/TaskForm.js:133-137 | A stored document's recurrence fields load unchanged |
| TaskForm.ClampInterval | client/src/components/TaskForm.js:484 | The interval is at least 1: unparsable input gives 1 and a parsed value below 1 becomes 1 |
| TaskForm.ClampTypedNumber | client/src/components/TaskForm.js:484 | Typing a positive number sets the interval to that number |
| TaskForm.ClampStable | client/src/components/TaskForm.js:484 | Re-entering the clamped value changes nothing |
| TaskForm.SubmittedTags | client/src/components/TaskForm.js:272 | Submitted tags are non-empty, trimmed and comma-free; an empty field gives none |
| TaskForm.PrefillTagsRoundTrip | client/src/components/TaskForm.js:125-272 | Prefilling clean tags and submitting them unchanged gives the same tags back |
| TaskForm.TaskData | client/src/components/TaskForm.js:268-279 | The body asks for the form's parent (none for ""), carries the parsed tags and the picked date (never an unreadable one), clears the end date when the task never ends, and sends the recurrence flags |
| TaskForm.PrefillParentRoundTrip | client/src/components/TaskForm.js:107-271 | Submitting a prefilled form keeps the task's parent |
| TaskForm.NewFormStoresDefaults | client/src/components/TaskForm.js:154-158 | A new form's recurrence fields store the schema defaults |
| TaskForm.Submit | client/src/components/TaskForm.js:282-309 | A current task with a non-empty id is updated by PUT, otherwise created by POST, with the same body |
| TaskForm.Merged | client/src/components/TaskForm.js:293 | The local merge keeps the task's id and owner and takes the submitted parent and tags |
| TaskForm.SubmittedDue | client/src/components/TaskForm.js:270 | A merged task holds the picked day, or the falsy `''` when the picker is empty, and never lacks the key |
| TaskForm.UpdateLocal | client/src/components/TaskForm.js:291-297 | The local update changes only the tasks with the id and keeps the list's ids and order |
| TaskForm.UpdateLocalIdempotent | client/src/components/TaskForm.js:291-297 | Applying the same local update twice is the same as once |
| TaskForm.MockTask | client/src/components/TaskForm.js:318-325 | The stand-in task has a `mock-` id, the submitted title, status, date and tags, and is always owned by the raw id `unknown-user`, because the stored login reply has no `_id` |
| TaskForm.CreateLocal | client/src/components/TaskForm.js:309-327 | A confirmed create shows the refreshed list; otherwise the stand-in is put in front of the old list |
| TaskForm.MockTaskNotDeletable | client/src/components/TaskForm.js:318-326 | The stand-in task cannot be deleted from the list by any user, since its user is a raw id and not populated |
| TaskForm.OnFocus | client/src/components/TaskForm.js:185-191 | A focus fetches only when no fetch is running and more than two seconds have passed, and records the fetch |
| TaskForm.FetchDone | client/src/components/TaskForm.js:88-91 | Finishing a fetch clears the running flag and keeps the fetch time |
| TaskForm.FocusWaitsForFetch | client/src/components/TaskForm.js:46-49 | No second fetch starts while one is running |
| TaskForm.FocusThrottled | client/src/components/TaskForm.js:188 | Two focus fetches are more than two seconds apart |
| TaskForm.FocusRefetchesWhenIdle | client/src/components/TaskForm.js:188 | When idle and past the interval, a focus always fetches |
| TaskBoard.ColumnKeys | client/src/components/TaskBoard.js:54-65 | The three column keys are distinct and are exactly the schema statuses or priorities |
| TaskBoard.Grouped | client/src/components/TaskBoard.js:40-69 | Three columns in key order; a missing list gives empty columns; each column keeps its tasks in list order and holds a task exactly when it matches the column |
| TaskBoard.ColumnsDisjoint | client/src/components/TaskBoard.js:54-65 | No task appears in two columns |
| TaskBoard.ColumnsExclusive | client/src/components/TaskBoard.js:56-64 | No task matches two columns |
| TaskBoard.ShownIff | client/src/components/TaskBoard.js:54-65 | A task is shown exactly when it matches some column |
| TaskBoard.ColumnsPartition | client/src/components/TaskBoard.js:54-65 | The columns together hold every shown task once |
| TaskBoard.MissingPriorityUnderMedium | client/src/components/TaskBoard.js:63 | A task without a priority goes to the 中 column |
| TaskBoard.SetField | client/src/components/TaskBoard.js:234 | The chosen field takes the new value and every other field, id, parent and owner included, is kept |
| TaskBoard.FieldChange | client/src/components/TaskBoard.js:225-241 | The handler as defined (nothing on the board calls it): a placeholder id is ignored; otherwise the request is sent, and on success exactly the tasks with the id take the new value |
| TaskBoard.StatusChangeMovesTask | client/src/components/TaskBoard.js:225-235 | Were the handler called, after a status change the task would be in the new status's column and in no other |
| TaskBoard.FieldChangeIdempotent | client/src/components/TaskBoard.js:233-235 | Repeating the handler's field change changes nothing more |
| TaskBoard.DeleteRemovesFromColumns | client/src/components/TaskBoard.js:165-183 | After a delete each column is the old column without the deleted id |
| TaskStats.CompletionRate | client/src/components/TaskStats.js:44 | The rate is the percentage of completed tasks rounded to the nearest integer, 0 for no tasks, at most 100, and exactly 100 when all are done |
| TaskStats.RateIsNearest | client/src/components/TaskStats.js:44 | The rate is the only integer within half a percent of the exact percentage |
| TaskStats.DueHistogram | client/src/components/TaskStats.js:66-76 | The due-date histogram lists each day once, in increasing order, with a positive count |
| TaskStats.HistogramCounts | client/src/components/TaskStats.js:66-72 | Each day's count is the number of tasks due that day |
| TaskStats.HistogramTotal | client/src/components/TaskStats.js:66-72 | The counts add up to the number of tasks with a due date |
| TaskStats.HistogramDays | client/src/components/TaskStats.js:66-76 | A day appears exactly when some task is due on it |
| TaskStats.Recompute | client/src/components/TaskStats.js:26-96 | A missing or empty list keeps the previous figures; otherwise the total is the list's length, each status and priority figure is the number of tasks with exactly that value, the rate is the completion rate of those counts (at most 100), and the histogram is the due-date histogram of the list |
| TaskStats.StatusCountsBounded | client/src/components/TaskStats.js:39-41 | The three status counts add up to the tasks with a schema status, never more than the total |
| TaskStats.PriorityCountsBounded | client/src/components/TaskStats.js:54-58 | The three priority counts add up to the tasks with a schema priority, never more than the total |
| TaskStats.MissingPriorityUncounted | client/src/components/TaskStats.js:56 | A task without a priority is counted in no priority, unlike on the board |
| TaskCalendar.CalendarTasks | client/src/components/TaskCalendar.js:69-75 | A present list replaces the calendar's tasks with one record per id; a missing list keeps them |
| TaskCalendar.DueDay | client/src/components/TaskCalendar.js:84 | A task without the key falls on today, one whose `dueDate` is `null` or `''` on no day, a dated task on its due day |
| TaskCalendar.TasksOn | client/src/components/TaskCalendar.js:83-86 | A day lists exactly the calendar tasks whose due day is that day, in calendar order |
| TaskCalendar.UndatedFallsOnToday | client/src/components/TaskCalendar.js:83-86 | A task without a `dueDate` key is listed under today and under no other day |
| TaskCalendar.NullDateOnNoDay | client/src/components/TaskCalendar.js:83-86 | A task whose `dueDate` is `null` or `''` is listed under no day |
| TaskCalendar.DatedFallsOnDueDay | client/src/components/TaskCalendar.js:83-86 | A dated task is listed under its due day and no other |
| TaskCalendar.OneDayPerTask | client/src/components/TaskCalendar.js:80-84 | No task is listed under two days |
| TaskCalendar.CellOf | client/src/components/TaskCalendar.js:120-141 | A cell shows the first two tasks and a "+n" link exactly when there are more |
| TaskCalendar.CellAccountsForAll | client/src/components/TaskCalendar.js:120-141 | The tasks shown plus the link's number are all the day's tasks |
| TaskCalendar.ShortTitle | client/src/components/TaskCalendar.js:135 | A title over eight characters is cut to eight followed by "..."; a shorter one is kept |
| TaskCalendar.ShortTitleIdempotent | client/src/components/TaskCalendar.js:135 | Shortening twice is the same as once |
| TaskCalendar.ShortTitleUnchanged | client/src/components/TaskCalendar.js:135 | A title is kept exactly when it fits or already is eight characters and "..." |
| TaskCalendar.Step | client/src/components/TaskCalendar.js:78-209 | Selecting a day loads its tasks and clears the selected task, opening the popup only while selecting; a mouse down starts selecting; a month change selects the new date with the old flag and then stops selecting; "+n" opens on the day's tasks and, through the cell's selection, clears the selected task; a task name opens on that task; closing hides and keeps the selected task |
| TaskCalendar.NavigationKeepsPopupClosed | client/src/components/TaskCalendar.js:163-174 | While the user is not selecting, month changes, selections and closes keep a closed popup closed, as written and as intended |
| TaskCalendar.MonthNavSelects | client/src/components/TaskCalendar.js:163-174 | A month change is the selection of the new date followed by the end of selecting |
| TaskCalendar.MonthNavAfterMouseDownOpens | client/src/components/TaskCalendar.js:163-174 | The first month change after a mouse down still opens the popup on the new date's tasks, so the flag does not keep navigation from opening it |
| TaskCalendar.Body | client/src/components/TaskCalendar.js:216-246 | The popup's body is the selected task when there is one, else the "no tasks" note or the non-empty day list |
| TaskCalendar.Popup | client/src/components/TaskCalendar.js:201 | As written, the popup is on screen exactly when it is visible and a task is selected, and then shows that task |
| TaskCalendar.PopupIntended | client/src/components/TaskCalendar.js:201 | With `visible={visible}`, the popup is on screen exactly when visible, showing the selected task or else the day's tasks |
| TaskCalendar.PopupsAgreeOnDetail | client/src/components/TaskCalendar.js:201 | With a task selected, both popups agree |
| TaskCalendar.SelectedDayNotShown | client/src/components/TaskCalendar.js:78-93 | A mouse down and a selection make the popup visible on the day's tasks, yet as written nothing is on screen |
| TaskCalendar.IntendedSelectShowsDay | client/src/components/TaskCalendar.js:78-93 | With `visible={visible}`, a mouse down and a selection show the day's tasks or the note that it has none |
| TaskCalendar.NameClickShowsTask | client/src/components/TaskCalendar.js:130-134 | A task name shows that task, as written and as intended |
| TaskCalendar.ViewMoreNotShown | client/src/components/TaskCalendar.js:114-141 | The "+n" link makes the popup visible on the day's tasks, yet as written nothing is on screen, whatever came before |
| TaskCalendar.IntendedViewMoreShowsDay | client/src/components/TaskCalendar.js:114-141 | With `visible={visible}`, the "+n" link shows the day's tasks |
| TaskGantt.Unique | client/src/components/TaskGantt.js:46 | The chart's list has one task per id and loses no id; no tasks give none |
| TaskGantt.DueDays | client/src/components/TaskGantt.js:50 | The due days are exactly the days some task is due on |
| TaskGantt.AxisOf | client/src/components/TaskGantt.js:52-68 | Without due dates the axis runs from yesterday to a week ahead; otherwise from the day before the earliest due day to three days after the latest, and every due day lies inside |
| TaskGantt.BarNameAsWritten | client/src/components/TaskGantt.js:82 | Every bar is named by its placeholder, since tasks have no `name` field |
| TaskGantt.TitleNotShown | client/src/components/TaskGantt.js:82 | A concrete task titled 写报告 is drawn as 未命名任务 1 |
| TaskGantt.BarName | client/src/components/TaskGantt.js:82 | A task's title names its bar; an untitled task gets its numbered placeholder |
| TaskGantt.PlaceholdersDistinct | client/src/components/TaskGantt.js:82 | Placeholders of different positions differ |
| TaskGantt.OneDayBar | client/src/components/TaskGantt.js:73-74 | A bar spans one day ending on the due day; an undated bar starts today |
| TaskGantt.BarOf | client/src/components/TaskGantt.js:71-90 | A bar under a given name keeps the task's id and that name, lasts one day ending on the due day (starting today when undated), and falls back to 待办 and 中 |
| TaskGantt.ToBar | client/src/components/TaskGantt.js:71-90 | As written, a bar keeps the task's id, lasts one day ending on the due day, falls back to 待办 and 中, and is named by its placeholder |
| TaskGantt.GanttData | client/src/components/TaskGantt.js:71-100 | As written, one bar per deduplicated task, in order, the i-th named 未命名任务 i+1 |
| TaskGantt.GanttDataIntended | client/src/components/TaskGantt.js:71-100 | The corrected chart: one bar per deduplicated task, in order, named by `BarName` |
| TaskGantt.IntendedShowsTitles | client/src/components/TaskGantt.js:82 | The corrected chart shows every titled task under its title and differs from the chart as written only in the names |
| TaskGantt.NamesDistinct | client/src/components/TaskGantt.js:82 | As written, no two bars share a name |
| TaskGantt.OneBarPerTask | client/src/components/TaskGantt.js:46-90 | Bar ids are distinct and are exactly the tasks' ids |
| TaskGantt.UntitledNamesDistinct | client/src/components/TaskGantt.js:82 | In the corrected chart two untitled bars get different names |
| TaskGantt.DatedBarsOnAxis | client/src/components/TaskGantt.js:52-90 | Every dated bar lies within the axis |
| TaskGantt.UndatedBarsOnDefaultAxis | client/src/components/TaskGantt.js:52-90 | When no task is dated, every bar lies within the default axis |
| TaskGantt.GenerateTicks | client/src/components/TaskGantt.js:105-117 | No axis gives no ticks; otherwise one tick per day from the start to the end inclusive, in order |
| TaskGantt.TicksAreAxisDays | client/src/components/TaskGantt.js:105-117 | A day is a tick exactly when it lies on the axis |
| SimpleGantt.ToSimpleBar | client/src/components/SimpleGantt.js:30-46 | As written, a simple bar keeps the task's id, lasts one day, falls back to 待办, and is named by its placeholder |
| SimpleGantt.SimpleData | client/src/components/SimpleGantt.js:28-49 | No tasks give no bars; otherwise one bar per task in list order, without deduplication |
| SimpleGantt.SimpleBarOf | client/src/components/SimpleGantt.js:33-46 | A simple bar under a given name keeps the task's id and that name, lasts one day from the full chart's start day, and falls back to 待办 |
| SimpleGantt.SimpleTitleNotShown | client/src/components/SimpleGantt.js:41 | As written, the row of a task titled 写报告 reads 未命名任务 1 |
| SimpleGantt.SimpleDataIntended | client/src/components/SimpleGantt.js:28-49 | The corrected rows: one per task in list order, named by `BarName` |
| SimpleGantt.SimpleIntendedShowsTitles | client/src/components/SimpleGantt.js:41 | The corrected rows show every titled task under its title |
| SimpleGantt.AgreesWithTaskGantt | client/src/components/SimpleGantt.js:28-49 | On a list without repeated ids the simple chart draws the full chart's bars without their priority, both as written and corrected |
| UserList.Search | client/src/components/UserList.js:172-183 | An empty term shows every user; otherwise exactly the users whose username or e-mail contains the term in any letter case, or whose phone contains it, in fetched order |
| UserList.UsernameFoundInAnyCase | client/src/components/UserList.js:174-176 | A user whose username contains the term in any case is found |
| UserList.SearchNarrows | client/src/components/UserList.js:172-183 | Every user found for a term is found for any part of it |
| Sidebar.SelectedKey | client/src/components/Sidebar.js:25-35 | The highlighted key is always a menu key, and any path containing `/tasks` highlights the task list |
| Sidebar.SelectedKeyIsFirstMatch | client/src/components/Sidebar.js:25-35 | The highlighted key is the first menu entry, in precedence order, whose fragment the path contains, else the task list |
| Sidebar.TaskStatsSelected | client/src/components/Sidebar.js:27-33 | A one-segment `/task-stats` path highlights the task statistics entry |
| Sidebar.TaskBoardSelected | client/src/components/Sidebar.js:28 | A one-segment `/task-board` path highlights the board through its second fragment |
| FormRules.PhoneIsDigits | client/src/components/Register.js:58 | A phone that passes the form's pattern is all digits, so stripping non-digits leaves it unchanged |
| FormRules.ConfirmMeansEqual | client/src/components/Register.js:81-86 | A filled confirmation passes exactly when it equals a filled password |
| RegisterForm.Submit | client/src/components/Register.js:11-88 | The form is sent exactly when no rule fails; a sent body has a username, a well-formed e-mail and phone, a password of at least 6 characters, and a matching confirmation |
| RegisterForm.ErrorsFreeIff | client/src/components/Register.js:35-90 | No rule fails exactly when every field is filled, the e-mail and phone have their formats, the password has at least six characters and the confirmation repeats it |
| RegisterForm.SubmittedBodyRegisters | client/src/components/Register.js:11-24 | A body the form sends is registered exactly when the e-mail and username are free |
| RegisterForm.MismatchNotSent | client/src/components/Register.js:81-86 | A confirmation that differs from the password is never sent |
| ForgotPasswordForm.Body | client/src/components/ForgotPassword.js:15-20 | The request carries the chosen method and only that method's field |
| ForgotPasswordForm.Submit | client/src/components/ForgotPassword.js:40-74 | The request is sent exactly when the chosen field is filled and every filled field is well formed |
| ForgotPasswordForm.ErrorsFreeIff | client/src/components/ForgotPassword.js:49-80 | No rule fails exactly when the chosen method's field is filled and each filled field has its format |
| ForgotPasswordForm.InitialNotSent | client/src/components/ForgotPassword.js:40-56 | The untouched form sends nothing |
| ForgotPasswordForm.StaleEmailBlocksPhoneReset | client/src/components/ForgotPassword.js:50-58 | A malformed e-mail left over from the e-mail method blocks a reset by phone |
| ForgotPasswordForm.LookupFollowsMethod | client/src/components/ForgotPassword.js:15-20 | The server looks the user up by the field the user chose, and a phone from the form matches only as typed |
| ForgotPasswordForm.SentRequestValid | client/src/components/ForgotPassword.js:50-74 | A request the form sends passes the server's validation when the validators agree |
| ResetPasswordForm.ErrorsFreeIff | client/src/components/ResetPassword.js:36-57 | The form passes exactly when the password has at least 6 characters and the confirmation equals it |
| ResetPasswordForm.BodyAsWritten | client/src/components/ResetPassword.js:16 | The page sends the password and no confirmation |
| ResetPasswordForm.EveryResetRefused | client/src/components/ResetPassword.js:13-23 | Whatever the form holds and whatever the token, the server refuses that body with 400 and changes nothing |
| ResetPasswordForm.Body | client/src/components/ResetPassword.js:13-23 | The corrected body carries both the password and the confirmation |
| ResetPasswordForm.ResetAcceptedWithLiveToken | client/src/components/ResetPassword.js:13-23 | With the corrected body, a form that passes is accepted exactly when the token is live |
| ResetPasswordForm.ServerRulesMatchPage | client/src/components/ResetPassword.js:36-57 | The server's reset rules hold of the corrected body exactly when the page's rules pass |

## Left out

- Network, database and UI machinery is not modelled. This covers HTTP, JWT signing, bcrypt, Mongo connections, React rendering, `message` pop-ups, `localStorage`, `authService`, navigation and timers. The effects on data are modelled. Mail delivery, the clock, random tokens and hashes are parameters.
- Server 500 replies from database exceptions are not modelled. The exceptions that are modelled: a save failing validation, the parent's save inside `addSubTask` failing validation, a colliding fresh id, a `dueDate` the schema's `Date` cast refuses, and the null owner the populated read dereferences.
- TaskModel.RemoveHook: the parent's `removeSubTask` save is taken to succeed. It could fail validation when the parent holds a value outside its enums, and the hook would then throw; that path is not modelled.
- TaskRoutes.ApplyUpdate: a JSON `null` for `sharedWith`, `isRecurring`, `recurrencePattern`, `recurrenceInterval` or `recurrenceNeverEnd` is treated like a missing field, so the stored value is kept. The route copies it whenever it is not `undefined` and stores null, which the model's document has no value for.
- TaskRoutes.NewTaskFrom: a JSON `null` status is treated like a missing one and gets the default 待办. Mongoose applies defaults only to `undefined`, so the route passes null on to the validators. Its other `null` fields go through `||` or `!== false` and match the model. `TaskRoutes.TaskBody` carries `Option` for these fields and cannot tell `null` from a missing key.
- Mongoose's `trim` setters are taken to apply on update as well as on create, so `TaskRoutes.ApplyUpdate` trims title, description and tags. `findByIdAndUpdate` casts `$set` values through the schema's setters.
- The server's task document does not tell a missing `dueDate` from `null`: both are `None`, and neither route reads the difference. A request's `TaskRoutes.BodyDate` folds every falsy `dueDate` into `NoDate`. The client's `ClientTask.Due` does tell them apart, because the calendar places them on different days.
- Mongoose populate is represented on the client side only. A client task's `parentTask` and `user` may be raw or populated.
- Mongoose may not run the `remove` hook, because it is registered after `mongoose.model` is compiled (models/Task.js:89 vs 92). The model does not settle this. The hook body is an explicit function, and the single-delete route runs no hook.
- The second `DELETE /batch` handler (routes/taskRoutes.js:351-403) is not modelled. Express never reaches it, because the first handler always responds.
- Removing a subtask whose `parentTask` is null dereferences null in the route. The model treats this as the 500 the catch block sends.
- `sharedWith` in the form prefill is a parameter. The users list behind it is not modelled.
- The XLSX import, `formatDate` and the CSV/JSON export are not modelled.
- TaskList.ParseDate: the trimming and the fallback to the raw text are modelled. The formats it tries (the `Date` constructor and four patterns) are the parameter `dateOf`. A string `dateOf` does not read is taken to be one the server's `Date` cast refuses too; the first format tried is that same constructor.
- The import loop stops at the first failed post. The client's final `setTasks` with the created tasks is not modelled.
- TaskStats.CompletionRate uses exact integer arithmetic. JavaScript computes `Math.round(completed / total * 100)` in floating point, which can round differently at exact halves.
- Lengths count characters. JavaScript strings count UTF-16 units, which differs only outside the Basic Multilingual Plane.
- `Text.ToLower` lower-cases ASCII letters only. JavaScript lower-cases all of Unicode.
- `Text.ParseInt` reads decimal digits only. The hexadecimal prefix of `parseInt` never arises from a number input.
- Dates are whole days. The Gantt chart's times of day are dropped, and so is the extra tick dayjs adds when the earliest due time of day is before the latest's. Ticks are days, not `YYYY-MM-DD` strings.
- A task without a title crashes the calendar cell's `title.length`. The model assumes titles are strings; the schema requires one.
- `dateCellMouseDown` (client/src/components/TaskCalendar.js:157) is not a documented prop of antd's `Calendar`, so `handleDateMouseDown` may never run. The model keeps `MouseDown` as an event and claims nothing about whether it fires; if it never fires, even the intended popup stays closed on a selection, while the "+n" link opens it either way.
- The header's month buttons are taken to select the new date through the calendar's `onChange`, and `onSelect` is taken to see the flag as it was before the button reset it (React batches the state update). The month shown (`currentMonth`) is not modelled.
- The click handler of the popup's day list (client/src/components/TaskCalendar.js:236-238) has no event in the model: as written the list is never on screen to be clicked.
- TaskBoard.FieldChange: `handleFieldChange` is defined but no element of the board calls it. The model states what the handler would do; the board offers no inline edit.
- TaskBoard's `return {}` for a `groupBy` other than status or priority is not modelled. The select offers only those two.
- The antd e-mail rule and the server's `isEmail` and `isMobilePhone` are parameters. The form's phone pattern is modelled exactly.
- Sidebar: `/simple-gantt` contains no menu fragment, so it highlights the task list. Nothing is claimed beyond `Sidebar.SelectedKeyIsFirstMatch`.

## Findings

| source | as written | input that shows it | evidently intended | confidence | as-written member | corrected member |
|---|---|---|---|---|---|---|
| client/src/components/TaskList.js:328-339 | `formatPriority` switches on `high`, `medium` and `low`, but the schema stores 高, 中 and 低 | a task with priority 中 is shown as 无 | show the stored label | high, not executed | TaskList.FormatPriorityHidesStoredValues | TaskList.FormatPriorityTotal |
| client/src/components/ResetPassword.js:16 | the page sends only `{ password }`, while the server requires `confirmPassword === password` (routes/authRoutes.js:201) | any valid form, for example password and confirmation `secret1` | send the confirmation too | high, not executed | ResetPasswordForm.EveryResetRefused | ResetPasswordForm.ResetAcceptedWithLiveToken |
| client/src/components/TaskForm.js:67 | the parent is looked up with `task._id === currentTask.parentTask`, but `GET /api/tasks` populates `parentTask` into an object | editing subtask `c` whose populated parent `p` itself has a parent | compare with the parent's `_id`, as the prefill at lines 108-113 does | medium, not executed | TaskForm.PopulatedParentNotOffered | TaskForm.CurrentParentOffered |
| client/src/components/TaskGantt.js:82 | bars are named `task.name`, a field the task schema lacks (models/Task.js:18-22 define `title`) | a task titled 写报告 is drawn as 未命名任务 1 | use `task.title` | high, not executed | TaskGantt.TitleNotShown | TaskGantt.IntendedShowsTitles |
| client/src/components/SimpleGantt.js:41 | rows are named `task.name`, which no task has | a task titled 写报告 is drawn as 未命名任务 1 | use `task.title` | high, not executed | SimpleGantt.SimpleTitleNotShown | SimpleGantt.SimpleIntendedShowsTitles |
| routes/taskRoutes.js:57-66 | the task is read with `user` and `sharedWith` populated, then `task.user.toString()` is compared with the caller's id and `sharedWith.includes(id)` is asked of user documents | the owner reading their own existing task gets 403; a task whose owner account was deleted gives 500 | check access on the unpopulated ids, as the update route does (lines 137-149) | medium, not executed | TaskRoutes.GetTaskRefusesOwner | TaskRoutes.GetTask |
| client/src/components/TaskCalendar.js:201 | the popup is `visible={visible && selectedTaskDetail}`, while `onSelect` clears the selected task and "+n" never sets one | a click on the "+n" link of a day with three tasks: `visible` is true but nothing is on screen | `visible={visible}`, showing the day's list | medium, not executed | TaskCalendar.ViewMoreNotShown | TaskCalendar.IntendedViewMoreShowsDay |

=== FILE: auth_routes.dfy ===
/** The account routes of routes/authRoutes.js: register, login, and the
    two-step password reset. The e-mail and phone validators of
    express-validator, the SHA-256 hash, bcrypt's password comparison and the
    mail transport are parameters; token generation and the clock are inputs.
    models/User.js is not part of this model: a user record keeps the
    password as the route stores it. */
module AuthRoutes {
  import opened Wrappers
  import Seqs
  import Text

  type UserId = string
  type Time = int

  const OK: int := 200
  const BadRequest: int := 400
  const ServerError: int := 500

  /** The reset link stays valid for ten minutes. */
  const ResetWindow: int := 10 * 60 * 1000
  /** The minimum password length of register and reset. */
  const MinPasswordLength: nat := 6

  datatype User = User(
    id: UserId,
    username: string,
    email: string,
    phone: string,
    password: string,
    resetToken: Option<string>,
    resetExpire: Option<Time>)

  /** The validators the routes use, supplied by express-validator. */
  datatype Validators = Validators(isEmail: string -> bool, isMobilePhone: string -> bool)

  // ---------------------------------------------------------------- register

  datatype RegisterReply = RegisterReply(code: int, users: seq<User>)

  /** The four register validators; a missing field is validated as `''`. */
  predicate RegisterValid(v: Validators, username: string, email: string, phone: string, password: string) {
    && username != ""
    && v.isEmail(email)
    && v.isMobilePhone(phone)
    && |password| >= MinPasswordLength
  }

  /** Some stored user has the e-mail or the username. */
  predicate Taken(users: seq<User>, email: string, username: string) {
    exists i :: 0 <= i < |users| && (users[i].email == email || users[i].username == username)
  }

  /** `POST /api/auth/register`. */
  function Register(users: seq<User>, v: Validators, username: string, email: string, phone: string,
                    password: string, newId: UserId): (r: RegisterReply)
    ensures r.code == OK <==> RegisterValid(v, username, email, phone, password) && !Taken(users, email, username)
    ensures r.code != OK ==> r.code == BadRequest && r.users == users
    ensures r.code == OK ==>
              r.users == users + [User(newId, username, email, phone, password, None, None)]
  {
    if !RegisterValid(v, username, email, phone, password) then RegisterReply(BadRequest, users)
    else
      var clash := Seqs.FindFirst(users, (u: User) => u.email == email || u.username == username);
      if clash.Some? then RegisterReply(BadRequest, users)
      else RegisterReply(OK, users + [User(newId, username, email, phone, password, None, None)])
  }

  /** Registering the same username (or e-mail) twice is refused the second time. */
  lemma RegisterTwiceRefused(users: seq<User>, v: Validators, username: string, email: string,
                             phone: string, password: string, id1: UserId, id2: UserId,
                             otherEmail: string, otherPhone: string)
    requires Register(users, v, username, email, phone, password, id1).code == OK
    ensures var after := Register(users, v, username, email, phone, password, id1).users;
            Register(after, v, username, otherEmail, otherPhone, password, id2).code == BadRequest
  {
    var after := Register(users, v, username, email, phone, password, id1).users;
    assert after[|users|].username == username;
  }

  // ---------------------------------------------------------------- login

  datatype LoginReply = LoginReply(code: int, user: Option<UserId>)

  /** `POST /api/auth/login`: the first user with the username must accept the
      password (`matches(stored, candidate)` stands for bcrypt's compare). A
      missing field fails the `exists` validator. */
  function Login(users: seq<User>, matches: (string, string) -> bool,
                 username: Option<string>, password: Option<string>): (r: LoginReply)
    ensures r.code == OK || r.code == BadRequest
    ensures r.code == OK <==>
              && username.Some? && password.Some?
              && exists i :: 0 <= i < |users| && users[i].username == username.value
                             && (forall j :: 0 <= j < i ==> users[j].username != username.value)
                             && matches(users[i].password, password.value)
    ensures r.code == OK ==> r.user.Some? && exists i :: 0 <= i < |users| && users[i].id == r.user.value
    ensures r.code == OK ==>
              exists i :: && 0 <= i < |users| && users[i].username == username.value
                          && (forall j :: 0 <= j < i ==> users[j].username != username.value)
                          && r.user == Some(users[i].id)
    ensures r.code != OK ==> r.user == None
  {
    if username.None? || password.None? then LoginReply(BadRequest, None)
    else
      var found := Seqs.FindFirst(users, (u: User) => u.username == username.value);
      if found.None? then LoginReply(BadRequest, None)
      else if !matches(users[found.value].password, password.value) then LoginReply(BadRequest, None)
      else LoginReply(OK, Some(users[found.value].id))
  }

  /** An unknown username and a wrong password get the same reply. */
  lemma LoginHidesWhichFieldFailed(users: seq<User>, matches: (string, string) -> bool,
                                   unknown: string, known: string, wrong: string)
    requires forall i :: 0 <= i < |users| ==> users[i].username != unknown
    requires exists i :: 0 <= i < |users| && users[i].username == known
    requires forall i :: 0 <= i < |users| && users[i].username == known ==> !matches(users[i].password, wrong)
    ensures Login(users, matches, Some(unknown), Some(wrong)) == Login(users, matches, Some(known), Some(wrong))
  {
  }

  // ---------------------------------------------------------------- forgot password

  datatype ForgotRequest = ForgotRequest(resetMethod: Option<string>, email: Option<string>, phone: Option<string>)

  datatype ForgotReply = ForgotReply(code: int, users: seq<User>, mailedTo: Option<UserId>)

  /** The conditional validators: the e-mail is checked only when the method is
      `'email'`, the phone only when it is `'phone'`. */
  predicate ForgotValid(v: Validators, req: ForgotRequest) {
    && (req.resetMethod == Some("email") ==> v.isEmail(req.email.GetOr("")))
    && (req.resetMethod == Some("phone") ==> v.isMobilePhone(req.phone.GetOr("")))
  }

  /** The user the route looks up: by e-mail when one is given (whatever the
      method says), otherwise by the phone as typed or with every non-digit removed. */
  function ForgotLookup(users: seq<User>, req: ForgotRequest): (r: Option<nat>)
    ensures r.Some? ==> r.value < |users|
    ensures r.Some? && req.email.Some? && req.email.value != "" ==> users[r.value].email == req.email.value
    ensures r.Some? && !(req.email.Some? && req.email.value != "") ==>
              req.phone.Some? && req.phone.value != "" &&
              users[r.value].phone in {req.phone.value, Text.DigitsOnly(req.phone.value)}
    ensures r.None? && req.email.Some? && req.email.value != "" ==>
              forall i :: 0 <= i < |users| ==> users[i].email != req.email.value
    ensures r.None? && !(req.email.Some? && req.email.value != "") && req.phone.Some? && req.phone.value != "" ==>
              forall i :: 0 <= i < |users| ==>
                users[i].phone != req.phone.value && users[i].phone != Text.DigitsOnly(req.phone.value)
  {
    if req.email.Some? && req.email.value != "" then
      Seqs.FindFirst(users, (u: User) => u.email == req.email.value)
    else if req.phone.Some? && req.phone.value != "" then
      var digits := Text.DigitsOnly(req.phone.value);
      Seqs.FindFirst(users, (u: User) => u.phone == req.phone.value || u.phone == digits)
    else None
  }

  /** `POST /api/auth/forgot-password`. `token` is the fresh random token,
      `hash` SHA-256 in hex, and `mailSent` whether the mail transport succeeded;
      on a failed send both reset fields are cleared again. */
  function ForgotPassword(users: seq<User>, v: Validators, hash: string -> string, req: ForgotRequest,
                          token: string, now: Time, mailSent: bool): (r: ForgotReply)
    ensures r.code == BadRequest <==> !ForgotValid(v, req) || ForgotLookup(users, req).None?
    ensures r.code != OK ==> r.mailedTo == None
    ensures r.code == BadRequest ==> r.users == users
    ensures |r.users| == |users|
    ensures forall i :: 0 <= i < |users| ==>
              r.users[i] == users[i] || Some(i as nat) == ForgotLookup(users, req)
    ensures r.code == OK <==> ForgotValid(v, req) && ForgotLookup(users, req).Some? && mailSent
    ensures r.code == OK ==>
              var i := ForgotLookup(users, req).value;
              && r.users[i] == users[i].(resetToken := Some(hash(token)), resetExpire := Some(now + ResetWindow))
              && r.mailedTo == Some(users[i].id)
    ensures r.code == ServerError ==>
              var i := ForgotLookup(users, req).value;
              r.users[i] == users[i].(resetToken := None, resetExpire := None)
  {
    if !ForgotValid(v, req) then ForgotReply(BadRequest, users, None)
    else
      var found := ForgotLookup(users, req);
      if found.None? then ForgotReply(BadRequest, users, None)
      else
        var i := found.value;
        var u := users[i];
        if mailSent then
          ForgotReply(OK, users[i := u.(resetToken := Some(hash(token)), resetExpire := Some(now + ResetWindow))], Some(u.id))
        else
          ForgotReply(ServerError, users[i := u.(resetToken := None, resetExpire := None)], None)
  }

  /** When an e-mail is given, it decides the lookup even if the chosen method is phone. */
  lemma EmailTakesPrecedence(users: seq<User>, email: string, phone: string)
    requires email != ""
    ensures ForgotLookup(users, ForgotRequest(Some("phone"), Some(email), Some(phone)))
            == ForgotLookup(users, ForgotRequest(Some("email"), Some(email), None))
  {
  }

  /** A phone typed with separators finds the user stored with digits only. */
  lemma PhoneMatchesDigitsOnly(users: seq<User>, typed: string, i: nat)
    requires i < |users| && users[i].phone == Text.DigitsOnly(typed) && typed != ""
    ensures ForgotLookup(users, ForgotRequest(Some("phone"), None, Some(typed))).Some?
  {
    assert users[i].phone == typed || users[i].phone == Text.DigitsOnly(typed);
  }

  // ---------------------------------------------------------------- reset password

  datatype ResetRequest = ResetRequest(password: Option<string>, confirmPassword: Option<string>)

  datatype ResetReply = ResetReply(code: int, users: seq<User>)

  /** The reset validators: at least six characters, and `confirmPassword`
      strictly equal to `password` (two absent values are equal). */
  predicate ResetValid(req: ResetRequest) {
    && |req.password.GetOr("")| >= MinPasswordLength
    && req.confirmPassword == req.password
  }

  /** The user holding the hashed token whose expiry is strictly in the future. */
  function ResetLookup(users: seq<User>, hashed: string, now: Time): (r: Option<nat>)
    ensures r.Some? ==> r.value < |users| && users[r.value].resetToken == Some(hashed)
    ensures r.Some? ==> users[r.value].resetExpire.Some? && users[r.value].resetExpire.value > now
    ensures r.None? <==> forall i :: 0 <= i < |users| ==>
              !(users[i].resetToken == Some(hashed) && users[i].resetExpire.Some? && users[i].resetExpire.value > now)
  {
    Seqs.FindFirst(users, (u: User) => u.resetToken == Some(hashed) && u.resetExpire.Some? && u.resetExpire.value > now)
  }

  /** `PUT /api/auth/reset-password/:resetToken`. */
  function ResetPassword(users: seq<User>, hash: string -> string, token: string, req: ResetRequest, now: Time): (r: ResetReply)
    ensures r.code == OK || r.code == BadRequest
    ensures r.code == OK <==> ResetValid(req) && ResetLookup(users, hash(token), now).Some?
    ensures r.code != OK ==> r.users == users
    ensures |r.users| == |users|
    ensures r.code == OK ==>
              var i := ResetLookup(users, hash(token), now).value;
              && r.users[i] == users[i].(password := req.password.value, resetToken := None, resetExpire := None)
              && forall j :: 0 <= j < |users| && j != i ==> r.users[j] == users[j]
  {
    if !ResetValid(req) then ResetReply(BadRequest, users)
    else
      var found := ResetLookup(users, hash(token), now);
      if found.None? then ResetReply(BadRequest, users)
      else
        var i := found.value;
        ResetReply(OK, users[i := users[i].(password := req.password.value, resetToken := None, resetExpire := None)])
  }

  /** No other user holds the hashed token. */
  predicate TokenUnique(users: seq<User>, i: nat, hashed: string) {
    forall j :: 0 <= j < |users| && j != i ==> users[j].resetToken != Some(hashed)
  }

  /** A reset with the mailed token, before the ten minutes are over, sets the
      password of the user who asked for it. */
  lemma ForgotThenResetInTime(users: seq<User>, v: Validators, hash: string -> string, req: ForgotRequest,
                              token: string, now: Time, later: Time, password: string)
    requires ForgotPassword(users, v, hash, req, token, now, true).code == OK
    requires TokenUnique(users, ForgotLookup(users, req).value, hash(token))
    requires later < now + ResetWindow && |password| >= MinPasswordLength
    ensures var mid := ForgotPassword(users, v, hash, req, token, now, true).users;
            var i := ForgotLookup(users, req).value;
            var r := ResetPassword(mid, hash, token, ResetRequest(Some(password), Some(password)), later);
            r.code == OK && r.users[i].password == password && r.users[i].resetToken == None
  {
    var mid := ForgotPassword(users, v, hash, req, token, now, true).users;
    var i := ForgotLookup(users, req).value;
    var found := ResetLookup(mid, hash(token), later);
    assert mid[i].resetToken == Some(hash(token));
    assert found.Some?;
    assert found.value == i;
  }

  /** Once the ten minutes are over (expiry is not strictly after now) the token is refused. */
  lemma ForgotThenResetTooLate(users: seq<User>, v: Validators, hash: string -> string, req: ForgotRequest,
                               token: string, now: Time, later: Time, password: string)
    requires ForgotPassword(users, v, hash, req, token, now, true).code == OK
    requires TokenUnique(users, ForgotLookup(users, req).value, hash(token))
    requires later >= now + ResetWindow
    ensures var mid := ForgotPassword(users, v, hash, req, token, now, true).users;
            ResetPassword(mid, hash, token, ResetRequest(Some(password), Some(password)), later).code == BadRequest
  {
    var mid := ForgotPassword(users, v, hash, req, token, now, true).users;
    var i := ForgotLookup(users, req).value;
    forall j | 0 <= j < |mid|
      ensures !(mid[j].resetToken == Some(hash(token)) && mid[j].resetExpire.Some? && mid[j].resetExpire.value > later)
    {
      if j != i {
        assert mid[j] == users[j];
      }
    }
  }

  /** A reset token works once: the successful reset clears it. */
  lemma ResetTokenSingleUse(users: seq<User>, hash: string -> string, token: string, req: ResetRequest,
                            now: Time, later: Time, req2: ResetRequest)
    requires ResetPassword(users, hash, token, req, now).code == OK
    requires TokenUnique(users, ResetLookup(users, hash(token), now).value, hash(token))
    ensures var mid := ResetPassword(users, hash, token, req, now).users;
            ResetPassword(mid, hash, token, req2, later).code == BadRequest
  {
    var mid := ResetPassword(users, hash, token, req, now).users;
    var i := ResetLookup(users, hash(token), now).value;
    forall j | 0 <= j < |mid|
      ensures mid[j].resetToken != Some(hash(token))
    {
      if j != i {
        assert mid[j] == users[j];
      }
    }
  }

  /** After a failed mail the link can never be used. */
  lemma FailedMailLeavesNoToken(users: seq<User>, v: Validators, hash: string -> string, req: ForgotRequest,
                                token: string, now: Time, later: Time, reset: ResetRequest)
    requires ForgotPassword(users, v, hash, req, token, now, false).code == ServerError
    requires forall j :: 0 <= j < |users| ==> users[j].resetToken != Some(hash(token))
    ensures var mid := ForgotPassword(users, v, hash, req, token, now, false).users;
            ResetPassword(mid, hash, token, reset, later).code == BadRequest
  {
    var mid := ForgotPassword(users, v, hash, req, token, now, false).users;
    forall j | 0 <= j < |mid|
      ensures mid[j].resetToken != Some(hash(token))
    {
    }
  }
}

=== FILE: client_task.dfy ===
/** A task as the React client holds it: the JSON the server returns, in which
    `parentTask` and `user` may be populated objects or raw ids. Shared by
    every component model: reading a parent id, the `_id` dedup through a
    `Map`, ownership, and the local delete the list and the board perform. */
module ClientTask {
  import opened Wrappers
  import Seqs

  type Id = string
  type UserId = string
  /** A calendar day; dayjs day arithmetic becomes integer arithmetic. */
  type Day = int

  /** A reference field: absent or `null`, a raw id string, or a populated
      document of which only `_id` matters here. */
  datatype Ref = NoRef | RawId(id: string) | Populated(id: string)

  /** `task.dueDate` as the client holds it. A task created without a due date
      has no such key; one created with `''` or `null` holds `null` (Mongoose
      casts both to null), and a local merge of the form's data writes `''`;
      otherwise it is a day. Only a day is truthy. */
  datatype Due = NoDue | FalsyDue | DueAt(day: Day) {

    /** The day when the value is truthy: `dueDate ? dayjs(dueDate) : null`. */
    function AsDay(): (d: Option<Day>)
      ensures d.Some? <==> DueAt?
      ensures d.Some? ==> d.value == day
    {
      if DueAt? then Some(day) else None
    }
  }

  datatype CTask = CTask(
    id: Id,
    parent: Ref,
    user: Ref,
    title: Option<string>,
    description: Option<string>,
    status: Option<string>,
    priority: Option<string>,
    dueDate: Due,
    tags: seq<string>)

  /** `task.parentTask ? (typeof task.parentTask === 'object' ? task.parentTask._id
      : task.parentTask) : none`: an empty raw id is falsy and names no parent. */
  function ParentId(t: CTask): (p: Option<Id>)
    ensures p.None? <==> t.parent.NoRef? || t.parent == RawId("")
    ensures p.Some? ==> p.value == t.parent.id
  {
    match t.parent
    case NoRef => None
    case RawId(s) => if s == "" then None else Some(s)
    case Populated(s) => Some(s)
  }

  /** `task.user._id === me`: only a populated owner carries an `_id`. */
  predicate OwnedBy(t: CTask, me: UserId) {
    t.user.Populated? && t.user.id == me
  }

  /** The ids of a task list, in order. */
  function Ids(ts: seq<CTask>): (r: seq<Id>)
    ensures |r| == |ts|
    ensures forall i :: 0 <= i < |ts| ==> r[i] == ts[i].id
  {
    seq(|ts|, i requires 0 <= i < |ts| => ts[i].id)
  }

  lemma IdsAppend(a: seq<CTask>, b: seq<CTask>)
    ensures Ids(a + b) == Ids(a) + Ids(b)
  {
  }

  /** `tasks.find(t => t._id === id)`. */
  function Find(ts: seq<CTask>, id: Id): (r: Option<CTask>)
    ensures r.Some? <==> id in Ids(ts)
    ensures r.Some? ==> r.value in ts && r.value.id == id
    ensures r.Some? ==>
              exists i :: 0 <= i < |ts| && ts[i] == r.value && forall j :: 0 <= j < i ==> ts[j].id != id
  {
    var i := Seqs.FindFirst(ts, (t: CTask) => t.id == id);
    if i.Some? then
      assert forall j :: 0 <= j < i.value ==> ts[j].id != id;
      Some(ts[i.value])
    else None
  }

  /** The last task in `ts` with the id: the value a `Map` keeps after
      `map.set(t._id, t)` for every task in order. */
  function LastWith(ts: seq<CTask>, id: Id): (t: CTask)
    requires id in Ids(ts)
    ensures t in ts && t.id == id
    ensures exists i :: 0 <= i < |ts| && ts[i] == t && NoLaterWith(ts, i, id)
    decreases |ts|
  {
    var n := |ts| - 1;
    if ts[n].id == id then
      assert NoLaterWith(ts, n, id);
      ts[n]
    else
      FrontHasId(ts, id);
      var t := LastWith(ts[..n], id);
      NoLaterExtends(ts, ts[..n], id, t);
      t
  }

  /** No task after position `i` carries the id. */
  predicate NoLaterWith(ts: seq<CTask>, i: nat, id: Id) {
    forall j :: i < j < |ts| ==> ts[j].id != id
  }

  /** An id the last task lacks is carried by an earlier one. */
  lemma FrontHasId(ts: seq<CTask>, id: Id)
    requires id in Ids(ts) && ts[|ts| - 1].id != id
    ensures id in Ids(ts[..|ts| - 1])
  {
    var k :| 0 <= k < |ts| && Ids(ts)[k] == id;
    assert Ids(ts[..|ts| - 1])[k] == id;
  }

  /** The last carrier of the id before the final task stays the last one
      when the final task has another id. */
  lemma NoLaterExtends(ts: seq<CTask>, front: seq<CTask>, id: Id, t: CTask)
    requires |ts| > 0 && front == ts[..|ts| - 1] && ts[|ts| - 1].id != id
    requires exists i :: 0 <= i < |front| && front[i] == t && NoLaterWith(front, i, id)
    ensures exists i :: 0 <= i < |ts| && ts[i] == t && NoLaterWith(ts, i, id)
  {
    var i :| 0 <= i < |front| && front[i] == t && NoLaterWith(front, i, id);
    assert ts[i] == t;
    assert NoLaterWith(ts, i, id);
  }

  /** `Array.from(new Map(ts.map(t => [t._id, t])).values())`: one entry per
      id, at the position of the id's first occurrence, holding the id's
      last occurrence. */
  function DedupById(ts: seq<CTask>): (r: seq<CTask>)
    ensures |r| <= |ts|
    ensures Ids(r) == Seqs.Dedup(Ids(ts))
    ensures Seqs.Distinct(Ids(r))
    ensures forall i :: 0 <= i < |r| ==> r[i].id in Ids(ts)
    ensures forall i :: 0 <= i < |r| ==> r[i] == LastWith(ts, r[i].id)
  {
    var keys := Seqs.Dedup(Ids(ts));
    assert forall i :: 0 <= i < |keys| ==> keys[i] in Seqs.Elements(Ids(ts));
    seq(|keys|, i requires 0 <= i < |keys| => LastWith(ts, keys[i]))
  }

  /** Every id of the input survives the dedup, and nothing else appears. */
  lemma DedupByIdKeepsIds(ts: seq<CTask>)
    ensures Seqs.Elements(Ids(DedupById(ts))) == Seqs.Elements(Ids(ts))
  {
  }

  /** On a list without repeated ids the dedup changes nothing. */
  lemma {:induction false} DedupByIdOfDistinct(ts: seq<CTask>)
    requires Seqs.Distinct(Ids(ts))
    ensures DedupById(ts) == ts
  {
    Seqs.DedupOfDistinct(Ids(ts));
    var r := DedupById(ts);
    forall i | 0 <= i < |ts|
      ensures r[i] == ts[i]
    {
      LastWithDistinct(ts, i);
    }
  }

  /** With distinct ids, the last task with `ts[i]`'s id is `ts[i]`. */
  lemma {:induction false} LastWithDistinct(ts: seq<CTask>, i: nat)
    requires Seqs.Distinct(Ids(ts)) && i < |ts|
    ensures LastWith(ts, ts[i].id) == ts[i]
    decreases |ts|
  {
    var n := |ts| - 1;
    if i < n {
      assert Ids(ts)[i] != Ids(ts)[n];
      assert Ids(ts[..n]) == Ids(ts)[..n];
      LastWithDistinct(ts[..n], i);
    }
  }

  // ---------------------------------------------------------------- filtered ids

  /** Every id of a filtered list is the id of a task that passes the filter. */
  lemma FilteredIdsWitness(ts: seq<CTask>, f: CTask -> bool, x: Id) returns (j: nat)
    requires x in Ids(Seqs.Filter(ts, f))
    ensures j < |ts| && ts[j].id == x && f(ts[j])
  {
    var r := Seqs.Filter(ts, f);
    var k :| 0 <= k < |r| && Ids(r)[k] == x;
    j :| 0 <= j < |ts| && ts[j] == r[k];
  }

  /** With distinct ids the head's id is not among the filtered ids of the tail. */
  lemma HeadIdFresh(ts: seq<CTask>, f: CTask -> bool)
    requires Seqs.Distinct(Ids(ts)) && |ts| > 0
    ensures ts[0].id !in Ids(Seqs.Filter(ts[1..], f))
  {
    forall j | 0 <= j < |ts| - 1
      ensures ts[1..][j].id != ts[0].id
    {
      assert Ids(ts)[j + 1] != Ids(ts)[0];
    }
  }

  lemma DistinctCons<T>(x: T, s: seq<T>)
    requires Seqs.Distinct(s) && x !in s
    ensures Seqs.Distinct([x] + s)
  {
    forall i, j | 0 <= i < j < |[x] + s|
      ensures ([x] + s)[i] != ([x] + s)[j]
    {
      if i > 0 {
        assert ([x] + s)[i] == s[i - 1];
      }
      assert ([x] + s)[j] == s[j - 1];
    }
  }

  /** Dropping the head keeps the ids distinct. */
  lemma TailIdsDistinct(ts: seq<CTask>)
    requires Seqs.Distinct(Ids(ts)) && |ts| > 0
    ensures Seqs.Distinct(Ids(ts[1..]))
  {
    assert Ids(ts[1..]) == Ids(ts)[1..];
  }

  /** The filtered ids of a nonempty list: the head's id if it passes, then the tail's. */
  lemma FilterCons(ts: seq<CTask>, f: CTask -> bool)
    requires |ts| > 0
    ensures Ids(Seqs.Filter(ts, f)) == (if f(ts[0]) then [ts[0].id] else []) + Ids(Seqs.Filter(ts[1..], f))
  {
    var rest := Seqs.Filter(ts[1..], f);
    if f(ts[0]) {
      assert Seqs.Filter(ts, f) == [ts[0]] + rest;
      IdsAppend([ts[0]], rest);
      assert Ids([ts[0]]) == [ts[0].id];
    } else {
      assert Seqs.Filter(ts, f) == rest;
    }
  }

  /** Filtering a list with distinct ids keeps the ids distinct. */
  lemma {:induction false} FilteredIdsDistinct(ts: seq<CTask>, f: CTask -> bool)
    requires Seqs.Distinct(Ids(ts))
    ensures Seqs.Distinct(Ids(Seqs.Filter(ts, f)))
    decreases |ts|
  {
    if |ts| > 0 {
      TailIdsDistinct(ts);
      FilteredIdsDistinct(ts[1..], f);
      FilterCons(ts, f);
      if f(ts[0]) {
        HeadIdFresh(ts, f);
        DistinctCons(ts[0].id, Ids(Seqs.Filter(ts[1..], f)));
      }
    }
  }

  // ---------------------------------------------------------------- local delete

  datatype DeleteOutcome =
    | Refused        // not logged in, task not in the list, or not owned
    | Crashed        // `taskToDelete.user._id` on a task without `user` throws
    | Sent(remaining: seq<CTask>)

  /** `deleteTask` of the task list (and the identical one of the board): the
      guards, then `DELETE /api/tasks/:id`, then the list without the id. */
  function DeleteLocal(ts: seq<CTask>, me: Option<UserId>, id: Id): (r: DeleteOutcome)
    ensures r.Sent? <==> me.Some? && Find(ts, id).Some? && OwnedBy(Find(ts, id).value, me.value)
    ensures r.Crashed? <==> me.Some? && Find(ts, id).Some? && Find(ts, id).value.user.NoRef?
    ensures r.Sent? ==> forall t :: t in r.remaining <==> t in ts && t.id != id
    ensures r.Sent? ==> Seqs.IsSubsequence(r.remaining, ts)
  {
    if me.None? then Refused
    else
      var found := Find(ts, id);
      if found.None? then Refused
      else if found.value.user.NoRef? then Crashed
      else if !OwnedBy(found.value, me.value) then Refused
      else Sent(Seqs.Filter(ts, (t: CTask) => t.id != id))
  }

  /** A sent delete drops every task carrying the id and nothing else: the
      list shrinks by exactly the number of its occurrences. */
  lemma DeleteLocalRemovesAllCopies(ts: seq<CTask>, me: UserId, id: Id)
    requires DeleteLocal(ts, Some(me), id).Sent?
    ensures id !in Ids(DeleteLocal(ts, Some(me), id).remaining)
    ensures |DeleteLocal(ts, Some(me), id).remaining| == |ts| - multiset(Ids(ts))[id]
  {
    var f := (t: CTask) => t.id != id;
    CountKept(ts, f, id);
  }

  /** Filtering out one id removes exactly its occurrences. */
  lemma {:induction false} CountKept(ts: seq<CTask>, f: CTask -> bool, id: Id)
    requires forall t :: f(t) <==> t.id != id
    ensures |Seqs.Filter(ts, f)| == |ts| - multiset(Ids(ts))[id]
    decreases |ts|
  {
    if |ts| > 0 {
      CountKept(ts[1..], f, id);
      assert Ids(ts) == [ts[0].id] + Ids(ts[1..]);
    }
  }
}

=== FILE: fix_subtasks.dfy ===
/** The one-off repair script fix-task-subtasks.js: for one task, append to its
    `subTasks` every task whose `parentTask` names it but which the list
    misses, then save. */
module FixSubtasks {
  import opened Wrappers
  import opened TaskModel
  import Seqs

  datatype Outcome = TaskMissing | NothingToFix | Fixed | SaveFailed

  datatype FixResult = FixResult(outcome: Outcome, store: Store)

  /** `order` is the order in which `Task.find` returns the documents: every
      stored id exactly once. */
  predicate IsQueryOrder(store: Store, order: seq<Id>) {
    Seqs.Distinct(order) && Seqs.Elements(order) == store.Keys
  }

  /** The ids of the tasks that name `taskId` as parent, in query order. */
  function QueryChildren(store: Store, taskId: Id, order: seq<Id>): (cs: seq<Id>)
    requires IsQueryOrder(store, order)
    ensures Seqs.Distinct(cs)
    ensures forall k :: k in cs <==> k in ChildrenOf(store, taskId)
  {
    Seqs.FilterDistinct(order, (k: Id) => k in store && store[k].parentTask == Some(taskId));
    var cs := Seqs.Filter(order, (k: Id) => k in store && store[k].parentTask == Some(taskId));
    assert forall k :: k in ChildrenOf(store, taskId) ==> k in cs by {
      forall k | k in ChildrenOf(store, taskId) ensures k in cs {
        assert k in Seqs.Elements(order);
      }
    }
    cs
  }

  /** The children the list misses, in query order. */
  function MissingChildren(store: Store, taskId: Id, order: seq<Id>): (ms: seq<Id>)
    requires IsQueryOrder(store, order)
    requires taskId in store
    ensures Seqs.Distinct(ms)
    ensures forall k :: k in ms <==> k in ChildrenOf(store, taskId) && k !in store[taskId].subTasks
  {
    var cs := QueryChildren(store, taskId, order);
    Seqs.FilterDistinct(cs, (k: Id) => k !in store[taskId].subTasks);
    Seqs.Filter(cs, (k: Id) => k !in store[taskId].subTasks)
  }

  /** The script for `taskId`. The save runs the schema validators and the
      pre-save hook; a failure is caught and logged, so nothing is written. */
  function FixTaskSubtasks(store: Store, taskId: Id, order: seq<Id>, now: Time): (r: FixResult)
    requires IsQueryOrder(store, order)
    ensures r.outcome == TaskMissing <==> taskId !in store
    ensures r.outcome == NothingToFix <==>
              taskId in store && forall k :: k in ChildrenOf(store, taskId) ==> k in store[taskId].subTasks
    ensures r.outcome != Fixed ==> r.store == store
    ensures r.outcome == Fixed ==>
              && r.store.Keys == store.Keys
              && (forall k :: k in store && k != taskId ==> r.store[k] == store[k])
              && r.store[taskId].subTasks == store[taskId].subTasks + MissingChildren(store, taskId, order)
              && r.store[taskId].updatedAt == now
              && (forall k :: k in ChildrenOf(store, taskId) ==> k in r.store[taskId].subTasks)
  {
    if taskId !in store then FixResult(TaskMissing, store)
    else
      var t := store[taskId];
      var missing := MissingChildren(store, taskId, order);
      if missing == [] then
        FixResult(NothingToFix, store)
      else
        var fixed := t.(subTasks := t.subTasks + missing);
        if !PassesValidation(fixed) then FixResult(SaveFailed, store)
        else FixResult(Fixed, store[taskId := Save(fixed, now)])
  }

  /** After a successful run every child of the task is listed, no entry is
      duplicated that was not duplicated before, and the earlier list is kept as a prefix. */
  lemma FixListsEveryChild(store: Store, taskId: Id, order: seq<Id>, now: Time)
    requires IsQueryOrder(store, order)
    requires taskId in store && Seqs.Distinct(store[taskId].subTasks)
    requires FixTaskSubtasks(store, taskId, order, now).outcome == Fixed
    ensures var r := FixTaskSubtasks(store, taskId, order, now).store;
            && Seqs.Distinct(r[taskId].subTasks)
            && store[taskId].subTasks <= r[taskId].subTasks
  {
    var before := store[taskId].subTasks;
    var missing := MissingChildren(store, taskId, order);
    var s := before + missing;
    forall i, j | 0 <= i < j < |s|
      ensures s[i] != s[j]
    {
      if j < |before| {
        assert s[i] == before[i] && s[j] == before[j];
      } else if i < |before| {
        assert s[j] == missing[j - |before|];
        assert s[j] !in before;
      } else {
        assert s[i] == missing[i - |before|] && s[j] == missing[j - |before|];
      }
    }
  }

  /** Running the script a second time finds nothing to fix. */
  lemma FixIdempotent(store: Store, taskId: Id, order: seq<Id>, now: Time, later: Time)
    requires IsQueryOrder(store, order)
    requires FixTaskSubtasks(store, taskId, order, now).outcome == Fixed
    ensures var r := FixTaskSubtasks(store, taskId, order, now).store;
            FixTaskSubtasks(r, taskId, order, later).outcome == NothingToFix
  {
    var r := FixTaskSubtasks(store, taskId, order, now).store;
    forall k | k in ChildrenOf(r, taskId)
      ensures k in r[taskId].subTasks
    {
      assert r[k].parentTask == store[k].parentTask;
      assert k in ChildrenOf(store, taskId);
    }
  }

  /** A task whose stored priority is outside the enum (written by an update,
      which skips validation) cannot be repaired: the save fails. */
  lemma FixFailsOnInvalidDocument(store: Store, taskId: Id, order: seq<Id>, now: Time, child: Id)
    requires IsQueryOrder(store, order)
    requires taskId in store && store[taskId].priority !in Priorities
    requires child in store && store[child].parentTask == Some(taskId) && child !in store[taskId].subTasks
    ensures FixTaskSubtasks(store, taskId, order, now) == FixResult(SaveFailed, store)
  {
    assert child in MissingChildren(store, taskId, order);
  }
}

=== FILE: forgot_password_form.dfy ===
/** The forgot-password page (client/src/components/ForgotPassword.js): the
    reset method, the conditional rules, and the body posted to
    `POST /api/auth/forgot-password`. antd's e-mail format check is a
    parameter. */
module ForgotPasswordForm {
  import opened Wrappers
  import opened FormRules
  import AuthRoutes

  /** The radio group's two values. */
  datatype Method = ByEmail | ByPhone {
    function Name(): string {
      match this
      case ByEmail => "email"
      case ByPhone => "phone"
    }
  }

  datatype Values = Values(resetMethod: Method, email: Option<string>, phone: Option<string>)

  /** The form as it opens: `initialValue="email"`, both inputs untouched. */
  const Initial: Values := Values(ByEmail, None, None)

  datatype Field = Email | Phone

  /** The fields whose rules fail. The chosen method makes its own field
      required; the format rules apply to either field whenever it holds text,
      whichever method is chosen. */
  function Errors(v: Values, isEmailFormat: string -> bool): set<Field> {
    (if (v.resetMethod.ByEmail? && !Filled(v.email)) || (Filled(v.email) && !isEmailFormat(v.email.value))
     then {Email} else {})
    + (if (v.resetMethod.ByPhone? && !Filled(v.phone)) || (Filled(v.phone) && !IsPhone(v.phone.value))
       then {Phone} else {})
  }

  /** The form lets a submission through exactly when the chosen method's
      field is filled and each filled field has its format. */
  lemma ErrorsFreeIff(v: Values, isEmailFormat: string -> bool)
    ensures Errors(v, isEmailFormat) == {} <==>
              && (if v.resetMethod.ByEmail? then Filled(v.email) else Filled(v.phone))
              && (Filled(v.email) ==> isEmailFormat(v.email.value))
              && (Filled(v.phone) ==> IsPhone(v.phone.value))
  {
    var e := Errors(v, isEmailFormat);
    if e == {} {
      assert Email !in e && Phone !in e;
    }
  }

  /** `{ resetMethod, ...(resetMethod === 'email' ? { email } : { phone }) }`:
      only the chosen field is sent. */
  function Body(v: Values): (req: AuthRoutes.ForgotRequest)
    ensures req.resetMethod == Some(v.resetMethod.Name())
    ensures v.resetMethod.ByEmail? ==> req.email == v.email && req.phone.None?
    ensures v.resetMethod.ByPhone? ==> req.phone == v.phone && req.email.None?
  {
    match v.resetMethod
    case ByEmail => AuthRoutes.ForgotRequest(Some("email"), v.email, None)
    case ByPhone => AuthRoutes.ForgotRequest(Some("phone"), None, v.phone)
  }

  /** Submitting: nothing is sent while a rule fails. */
  function Submit(v: Values, isEmailFormat: string -> bool): (req: Option<AuthRoutes.ForgotRequest>)
    ensures req.Some? <==> Errors(v, isEmailFormat) == {}
    ensures req.Some? ==> req.value == Body(v)
  {
    if Errors(v, isEmailFormat) == {} then Some(Body(v)) else None
  }

  /** Untouched, the form sends nothing: the e-mail is required. */
  lemma InitialNotSent(isEmailFormat: string -> bool)
    ensures Submit(Initial, isEmailFormat).None?
  {
    assert Email in Errors(Initial, isEmailFormat);
  }

  /** A malformed e-mail left in its input blocks a reset by phone. */
  lemma StaleEmailBlocksPhoneReset(v: Values, isEmailFormat: string -> bool)
    requires v.resetMethod.ByPhone? && Filled(v.email) && !isEmailFormat(v.email.value)
    ensures Submit(v, isEmailFormat).None?
  {
    assert Email in Errors(v, isEmailFormat);
  }

  /** A sent request is looked up by the field of the chosen method: by e-mail,
      or by the phone number exactly as typed. */
  lemma LookupFollowsMethod(users: seq<AuthRoutes.User>, v: Values, isEmailFormat: string -> bool)
    requires Submit(v, isEmailFormat).Some?
    ensures var r := AuthRoutes.ForgotLookup(users, Body(v));
            && (v.resetMethod.ByEmail? && r.Some? ==> users[r.value].email == v.email.value)
            && (v.resetMethod.ByPhone? && r.Some? ==> users[r.value].phone == v.phone.value)
            && (r.None? ==> forall i :: 0 <= i < |users| ==>
                  if v.resetMethod.ByEmail? then users[i].email != v.email.value
                  else users[i].phone != v.phone.value)
  {
    assert Errors(v, isEmailFormat) == {};
    if v.resetMethod.ByEmail? {
      assert Email !in Errors(v, isEmailFormat);
    } else {
      assert Phone !in Errors(v, isEmailFormat);
      PhoneIsDigits(v.phone.value);
    }
  }

  /** When the server's validator agrees with the form's rule on the chosen
      field, a sent request passes the server's validation. */
  lemma SentRequestValid(val: AuthRoutes.Validators, v: Values, isEmailFormat: string -> bool)
    requires Submit(v, isEmailFormat).Some?
    requires v.resetMethod.ByEmail? ==> val.isEmail(v.email.GetOr(""))
    requires v.resetMethod.ByPhone? ==> val.isMobilePhone(v.phone.GetOr(""))
    ensures AuthRoutes.ForgotValid(val, Submit(v, isEmailFormat).value)
  {
  }
}

=== FILE: form_rules.dfy ===
/** The antd form rules the account pages share (client/src/components/
    Register.js, ForgotPassword.js and ResetPassword.js): a required field, the
    minimum password length, the mainland mobile number pattern and the
    "passwords agree" validator. A field's value is `None` while untouched. */
module FormRules {
  import opened Wrappers
  import Seqs
  import Text

  /** `{ required: true }` on a text input: neither untouched nor ''. */
  predicate Filled(v: Option<string>) {
    v.Some? && v.value != ""
  }

  /** `{ min: 6 }` on the password fields. */
  const MinPassword: nat := 6

  /** `/^1[3-9]\d{9}$/`: eleven ASCII digits, a 1 then a digit from 3 to 9. */
  predicate IsPhone(s: string) {
    && |s| == 11
    && s[0] == '1'
    && '3' <= s[1] <= '9'
    && forall i :: 2 <= i < |s| ==> Text.IsDigit(s[i])
  }

  /** A number the pattern accepts is all digits, so removing the non-digits
      leaves it as typed. */
  lemma PhoneIsDigits(s: string)
    requires IsPhone(s)
    ensures Text.AllDigits(s) && Text.DigitsOnly(s) == s
  {
    assert Text.AllDigits(s);
    Seqs.FilterKeepsAll(s, Text.IsDigit);
  }

  /** The confirm validator, `!value || getFieldValue('password') === value`. */
  predicate ConfirmAgrees(password: Option<string>, confirm: Option<string>) {
    !Filled(confirm) || confirm == password
  }

  /** With the required rule in front of it, the confirm validator passes
      exactly when the two fields hold the same non-empty text. */
  lemma ConfirmMeansEqual(password: Option<string>, confirm: Option<string>)
    ensures Filled(confirm) && ConfirmAgrees(password, confirm) <==>
              Filled(password) && confirm == password
  {
  }
}

=== FILE: register_form.dfy ===
/** The sign-up page (client/src/components/Register.js): the five required
    fields, their rules, and the body `authService.register` posts to
    `POST /api/auth/register`. antd's e-mail format check is a parameter. */
module RegisterForm {
  import opened Wrappers
  import opened FormRules
  import AuthRoutes

  datatype Values = Values(
    username: Option<string>,
    email: Option<string>,
    phone: Option<string>,
    password: Option<string>,
    confirmPassword: Option<string>)

  datatype Field = Username | Email | Phone | Password | ConfirmPassword

  /** The fields whose rules fail; `onFinish` runs only when there are none. */
  function Errors(v: Values, isEmailFormat: string -> bool): set<Field> {
    (if Filled(v.username) then {} else {Username})
    + (if Filled(v.email) && isEmailFormat(v.email.value) then {} else {Email})
    + (if Filled(v.phone) && IsPhone(v.phone.value) then {} else {Phone})
    + (if Filled(v.password) && |v.password.value| >= MinPassword then {} else {Password})
    + (if Filled(v.confirmPassword) && ConfirmAgrees(v.password, v.confirmPassword) then {} else {ConfirmPassword})
  }

  /** The form lets a submission through exactly when every field is filled,
      the e-mail and phone have their formats, the password has at least six
      characters and the confirmation repeats it. */
  lemma ErrorsFreeIff(v: Values, isEmailFormat: string -> bool)
    ensures Errors(v, isEmailFormat) == {} <==>
              && Filled(v.username)
              && Filled(v.email) && isEmailFormat(v.email.value)
              && Filled(v.phone) && IsPhone(v.phone.value)
              && Filled(v.password) && |v.password.value| >= MinPassword
              && v.confirmPassword == v.password
  {
    var e := Errors(v, isEmailFormat);
    if e == {} {
      assert Username !in e && Email !in e && Phone !in e && Password !in e && ConfirmPassword !in e;
    }
  }

  /** The posted body: the form's values as they are, `confirmPassword` included. */
  datatype Body = Body(username: string, email: string, phone: string, password: string, confirmPassword: string)

  /** Submitting the form: nothing is sent while a rule fails. */
  function Submit(v: Values, isEmailFormat: string -> bool): (b: Option<Body>)
    ensures b.Some? <==> Errors(v, isEmailFormat) == {}
    ensures b.Some? ==> b.value.username != "" && isEmailFormat(b.value.email) && IsPhone(b.value.phone)
    ensures b.Some? ==> |b.value.password| >= MinPassword && b.value.confirmPassword == b.value.password
  {
    if Errors(v, isEmailFormat) != {} then None
    else
      assert Username !in Errors(v, isEmailFormat) && Email !in Errors(v, isEmailFormat);
      assert Phone !in Errors(v, isEmailFormat) && Password !in Errors(v, isEmailFormat);
      assert ConfirmPassword !in Errors(v, isEmailFormat);
      Some(Body(v.username.value, v.email.value, v.phone.value, v.password.value, v.confirmPassword.value))
  }

  /** A body the form lets through is refused by the server only for an
      address or number the server's own validators reject, or for a taken
      username or e-mail: the username and password checks always pass. */
  lemma SubmittedBodyRegisters(users: seq<AuthRoutes.User>, val: AuthRoutes.Validators, v: Values,
                               isEmailFormat: string -> bool, newId: AuthRoutes.UserId)
    requires Submit(v, isEmailFormat).Some?
    requires val.isEmail(v.email.value) && val.isMobilePhone(v.phone.value)
    ensures var b := Submit(v, isEmailFormat).value;
            var r := AuthRoutes.Register(users, val, b.username, b.email, b.phone, b.password, newId);
            r.code == AuthRoutes.OK <==> !AuthRoutes.Taken(users, b.email, b.username)
  {
  }

  /** Two passwords that differ never reach the server. */
  lemma MismatchNotSent(v: Values, isEmailFormat: string -> bool)
    requires Filled(v.confirmPassword) && v.confirmPassword != v.password
    ensures Submit(v, isEmailFormat).None?
  {
    assert ConfirmPassword in Errors(v, isEmailFormat);
  }
}

=== FILE: reset_password_form.dfy ===
/** The reset page (client/src/components/ResetPassword.js): the new password
    and its confirmation, and the body sent with the link's token to
    `PUT /api/auth/reset-password/:resetToken`. */
module ResetPasswordForm {
  import opened Wrappers
  import opened FormRules
  import AuthRoutes

  datatype Values = Values(password: Option<string>, confirmPassword: Option<string>)

  datatype Field = Password | ConfirmPassword

  /** The fields whose rules fail. */
  function Errors(v: Values): set<Field> {
    (if Filled(v.password) && |v.password.value| >= MinPassword then {} else {Password})
    + (if Filled(v.confirmPassword) && ConfirmAgrees(v.password, v.confirmPassword) then {} else {ConfirmPassword})
  }

  /** The form lets a submission through exactly when both fields hold the
      same password of at least six characters. */
  lemma ErrorsFreeIff(v: Values)
    ensures Errors(v) == {} <==>
              Filled(v.password) && |v.password.value| >= MinPassword && v.confirmPassword == v.password
  {
    if Errors(v) == {} {
      assert Password !in Errors(v) && ConfirmPassword !in Errors(v);
    }
  }

  /** The body as written, `{ password: values.password }`: the confirmation
      is not sent. */
  function BodyAsWritten(v: Values): (req: AuthRoutes.ResetRequest)
    ensures req.password == v.password && req.confirmPassword.None?
  {
    AuthRoutes.ResetRequest(v.password, None)
  }

  /** The server requires `confirmPassword` to equal `password`, so every reset
      the page sends is refused with 400 and changes no user. */
  lemma EveryResetRefused(users: seq<AuthRoutes.User>, hash: string -> string, token: string,
                          v: Values, now: AuthRoutes.Time)
    requires Errors(v) == {}
    ensures var r := AuthRoutes.ResetPassword(users, hash, token, BodyAsWritten(v), now);
            r.code == AuthRoutes.BadRequest && r.users == users
  {
    ErrorsFreeIff(v);
  }

  /** The body evidently intended: both fields. */
  function Body(v: Values): (req: AuthRoutes.ResetRequest)
    ensures req.password == v.password && req.confirmPassword == v.confirmPassword
  {
    AuthRoutes.ResetRequest(v.password, v.confirmPassword)
  }

  /** With both fields sent, a submission the form lets through always passes
      the server's validation, so it succeeds exactly when the token is live. */
  lemma ResetAcceptedWithLiveToken(users: seq<AuthRoutes.User>, hash: string -> string, token: string,
                                   v: Values, now: AuthRoutes.Time)
    requires Errors(v) == {}
    ensures AuthRoutes.ResetValid(Body(v))
    ensures var r := AuthRoutes.ResetPassword(users, hash, token, Body(v), now);
            r.code == AuthRoutes.OK <==> AuthRoutes.ResetLookup(users, hash(token), now).Some?
  {
    ErrorsFreeIff(v);
  }

  /** The server's reset rules are exactly the page's: a request built from
      the page's fields is valid for the server iff the page accepts them. */
  lemma ServerRulesMatchPage(v: Values)
    ensures AuthRoutes.ResetValid(Body(v)) <==> Errors(v) == {}
  {
    ErrorsFreeIff(v);
  }
}

=== FILE: seqs.dfy ===
/** Sequence helpers shared by the server and client models: JavaScript's
    `Array.prototype.filter`, `Array.from(new Set(xs))` and the facts about
    them that the component proofs reuse. */
module Seqs {
  import opened Wrappers

  /** The smaller of two integers: a slice bound clamped to a length. */
  function Min(a: int, b: int): int {
    if a <= b then a else b
  }

  /** The set of elements of `s`. */
  function Elements<T>(s: seq<T>): set<T> {
    set x | x in s
  }

  /** No element occurs twice in `s`. */
  predicate Distinct<T(==)>(s: seq<T>) {
    forall i, j :: 0 <= i < j < |s| ==> s[i] != s[j]
  }

  /** `r` is obtained from `s` by deleting elements (order is preserved). */
  predicate IsSubsequence<T(==)>(r: seq<T>, s: seq<T>)
    decreases |s|
  {
    && |r| <= |s|
    && (|r| == 0
        || (r[0] == s[0] && IsSubsequence(r[1..], s[1..]))
        || IsSubsequence(r, s[1..]))
  }

  /** Every sequence is a subsequence of itself. */
  lemma {:induction false} SubsequenceRefl<T>(s: seq<T>)
    ensures IsSubsequence(s, s)
    decreases |s|
  {
    if |s| > 0 {
      SubsequenceRefl(s[1..]);
    }
  }

  /** `Array.prototype.filter`: the elements satisfying `f`, in order. */
  function Filter<T>(s: seq<T>, f: T -> bool): (r: seq<T>)
    ensures |r| <= |s|
    ensures forall i :: 0 <= i < |r| ==> r[i] in s && f(r[i])
    ensures forall i :: 0 <= i < |s| && f(s[i]) ==> s[i] in r
    ensures IsSubsequence(r, s)
    decreases |s|
  {
    if |s| == 0 then []
    else if f(s[0]) then [s[0]] + Filter(s[1..], f)
    else Filter(s[1..], f)
  }

  /** Filtering a concatenation filters each part. */
  lemma {:induction false} FilterAppend<T>(a: seq<T>, b: seq<T>, f: T -> bool)
    ensures Filter(a + b, f) == Filter(a, f) + Filter(b, f)
    decreases |a|
  {
    if |a| == 0 {
      assert a + b == b;
    } else {
      assert (a + b)[1..] == a[1..] + b;
      FilterAppend(a[1..], b, f);
    }
  }

  /** A filter is empty exactly when no element satisfies the predicate. */
  lemma FilterEmpty<T>(s: seq<T>, f: T -> bool)
    ensures Filter(s, f) == [] <==> forall x :: x in s ==> !f(x)
  {
    if Filter(s, f) != [] {
      assert Filter(s, f)[0] in s;
    }
  }

  /** Filtering a sequence extended by one element. */
  lemma FilterSnoc<T>(s: seq<T>, x: T, f: T -> bool)
    ensures Filter(s + [x], f) == Filter(s, f) + (if f(x) then [x] else [])
  {
    FilterAppend(s, [x], f);
    assert [x][1..] == [];
  }

  /** A filter that keeps everything is the identity. */
  lemma {:induction false} FilterKeepsAll<T>(s: seq<T>, f: T -> bool)
    requires forall x :: x in s ==> f(x)
    ensures Filter(s, f) == s
    decreases |s|
  {
    if |s| > 0 {
      FilterKeepsAll(s[1..], f);
    }
  }

  /** The number of occurrences of `x` in a filtered sequence. */
  lemma {:induction false} FilterMultiplicity<T>(s: seq<T>, f: T -> bool, x: T)
    ensures multiset(Filter(s, f))[x] == if f(x) then multiset(s)[x] else 0
    decreases |s|
  {
    if |s| > 0 {
      FilterMultiplicity(s[1..], f, x);
      assert s == [s[0]] + s[1..];
    }
  }

  /** A subsequence of a duplicate-free sequence is duplicate-free. */
  lemma {:induction false} FilterDistinct<T>(s: seq<T>, f: T -> bool)
    requires Distinct(s)
    ensures Distinct(Filter(s, f))
    decreases |s|
  {
    if |s| > 0 {
      assert Distinct(s[1..]);
      FilterDistinct(s[1..], f);
    }
  }

  /** Filtering by one predicate and then another keeps the same elements in
      the same order as the other way round. */
  lemma {:induction false} FilterCommute<T>(s: seq<T>, f: T -> bool, g: T -> bool)
    ensures Filter(Filter(s, f), g) == Filter(Filter(s, g), f)
    decreases |s|
  {
    if |s| > 0 {
      FilterCommute(s[1..], f, g);
      var x := s[0];
      var fs := Filter(s[1..], f);
      var gs := Filter(s[1..], g);
      if f(x) {
        assert ([x] + fs)[0] == x && ([x] + fs)[1..] == fs;
      }
      if g(x) {
        assert ([x] + gs)[0] == x && ([x] + gs)[1..] == gs;
      }
    }
  }

  /** Filters by three mutually exclusive predicates together hold as many
      elements as the filter by their union. */
  lemma {:induction false} FilterSizes3<T>(s: seq<T>, f: T -> bool, g: T -> bool, h: T -> bool, any: T -> bool)
    requires forall x :: any(x) <==> f(x) || g(x) || h(x)
    requires forall x :: !(f(x) && g(x)) && !(f(x) && h(x)) && !(g(x) && h(x))
    ensures |Filter(s, f)| + |Filter(s, g)| + |Filter(s, h)| == |Filter(s, any)|
    decreases |s|
  {
    if |s| > 0 {
      FilterSizes3(s[1..], f, g, h, any);
    }
  }

  /** `Array.from(new Set(s))`: the first occurrence of every element, in order. */
  function Dedup<T(==)>(s: seq<T>): (r: seq<T>)
    ensures Distinct(r)
    ensures Elements(r) == Elements(s)
    ensures |r| <= |s|
    decreases |s|
  {
    if |s| == 0 then []
    else
      var p := Dedup(s[..|s| - 1]);
      assert Elements(s) == Elements(s[..|s| - 1]) + {s[|s| - 1]} by {
        assert s == s[..|s| - 1] + [s[|s| - 1]];
      }
      if s[|s| - 1] in p then p else p + [s[|s| - 1]]
  }

  /** Deduplicating a duplicate-free sequence changes nothing. */
  lemma {:induction false} DedupOfDistinct<T>(s: seq<T>)
    requires Distinct(s)
    ensures Dedup(s) == s
    decreases |s|
  {
    if |s| > 0 {
      var p := s[..|s| - 1];
      DedupOfDistinct(p);
      assert s[|s| - 1] !in p;
      assert p + [s[|s| - 1]] == s;
    }
  }

  /** A sequence has as many distinct elements as entries exactly when it has no duplicate. */
  lemma {:induction false} ElementsCardinality<T>(s: seq<T>)
    ensures |Elements(s)| <= |s|
    ensures |Elements(s)| == |s| <==> Distinct(s)
    decreases |s|
  {
    if |s| > 0 {
      var p := s[..|s| - 1];
      var x := s[|s| - 1];
      ElementsCardinality(p);
      assert s == p + [x];
      assert Elements(s) == Elements(p) + {x};
      if x in Elements(p) {
        assert Elements(s) == Elements(p);
        var k :| 0 <= k < |p| && p[k] == x;
        assert s[k] == s[|s| - 1];
      } else {
        assert |Elements(s)| == |Elements(p)| + 1;
        if Distinct(p) {
          forall i, j | 0 <= i < j < |s|
            ensures s[i] != s[j]
          {
            if j == |s| - 1 {
              assert s[i] == p[i];
            } else {
              assert s[i] == p[i] && s[j] == p[j];
            }
          }
        }
        if Distinct(s) {
          forall i, j | 0 <= i < j < |p|
            ensures p[i] != p[j]
          {
            assert p[i] == s[i] && p[j] == s[j];
          }
        }
      }
    }
  }

  /** `Array.prototype.findIndex` (and Mongo's `findOne` over documents in
      natural order): the position of the first element satisfying `f`. */
  function FindFirst<T>(s: seq<T>, f: T -> bool): (r: Option<nat>)
    ensures r.Some? ==> r.value < |s| && f(s[r.value])
    ensures r.Some? ==> forall j :: 0 <= j < r.value ==> !f(s[j])
    ensures r.None? <==> forall i :: 0 <= i < |s| ==> !f(s[i])
    decreases |s|
  {
    if |s| == 0 then None
    else if f(s[0]) then Some(0)
    else
      var rest := FindFirst(s[1..], f);
      if rest.None? then
        assert forall i :: 1 <= i < |s| ==> s[i] == s[1..][i - 1];
        None
      else Some(rest.value + 1)
  }

  /** Deduplicating a concatenation keeps the deduplicated front, followed
      only by elements of the back that the front does not contain. */
  lemma {:induction false} DedupAppend<T>(a: seq<T>, b: seq<T>)
    ensures |Dedup(a)| <= |Dedup(a + b)|
    ensures Dedup(a + b)[..|Dedup(a)|] == Dedup(a)
    ensures forall i :: |Dedup(a)| <= i < |Dedup(a + b)| ==> Dedup(a + b)[i] in b && Dedup(a + b)[i] !in a
    decreases |b|
  {
    if |b| == 0 {
      assert a + b == a;
    } else {
      var b' := b[..|b| - 1];
      var x := b[|b| - 1];
      DedupAppend(a, b');
      assert a + b == (a + b') + [x];
      assert (a + b)[..|a + b| - 1] == a + b';
      var p := Dedup(a + b');
      if x !in p {
        assert x !in Elements(a + b');
        assert Dedup(a + b) == p + [x];
      }
    }
  }
}

=== FILE: sidebar.dfy ===
/** The navigation menu (client/src/components/Sidebar.js): which menu entry
    is highlighted for the current route. */
module Sidebar {
  import Text

  /** The keys of the signed-in menu that `getSelectedKey` can return. */
  const MenuKeys: set<string> := {"tasks", "board", "users", "stats", "task-stats", "calendar", "gantt"}

  /** `getSelectedKey`: the first entry whose path fragment occurs in the
      pathname, tasks first; the task list when none does. */
  function SelectedKey(path: string): (key: string)
    ensures key in MenuKeys
    ensures Text.Contains(path, "/tasks") ==> key == "tasks"
  {
    if Text.Contains(path, "/tasks") then "tasks"
    else if Text.Contains(path, "/board") || Text.Contains(path, "/task-board") then "board"
    else if Text.Contains(path, "/users") then "users"
    else if Text.Contains(path, "/stats") then "stats"
    else if Text.Contains(path, "/task-stats") then "task-stats"
    else if Text.Contains(path, "/calendar") then "calendar"
    else if Text.Contains(path, "/gantt") then "gantt"
    else "tasks"
  }

  /** One menu entry and the path fragments that select it. */
  datatype Entry = Entry(key: string, fragments: seq<string>)

  /** The menu in its order of precedence. */
  const Entries: seq<Entry> := [
    Entry("tasks", ["/tasks"]),
    Entry("board", ["/board", "/task-board"]),
    Entry("users", ["/users"]),
    Entry("stats", ["/stats"]),
    Entry("task-stats", ["/task-stats"]),
    Entry("calendar", ["/calendar"]),
    Entry("gantt", ["/gantt"])]

  /** Some fragment of the entry occurs in the path. */
  predicate Selects(e: Entry, path: string) {
    exists i :: 0 <= i < |e.fragments| && Text.Contains(path, e.fragments[i])
  }

  /** The key of the first entry from position `k` on that selects the path,
      else `fallback`. */
  function FirstMatch(es: seq<Entry>, k: nat, path: string, fallback: string): (key: string)
    requires k <= |es|
    ensures (exists i :: k <= i < |es| && Selects(es[i], path) && key == es[i].key) || key == fallback
    decreases |es| - k
  {
    if k == |es| then fallback
    else if Selects(es[k], path) then es[k].key
    else FirstMatch(es, k + 1, path, fallback)
  }

  /** The highlighted key is the first entry of the menu table that selects
      the route, and the task list when none does. */
  lemma SelectedKeyIsFirstMatch(path: string)
    ensures SelectedKey(path) == FirstMatch(Entries, 0, path, "tasks")
  {
    var es := Entries;
    assert Selects(es[0], path) <==> Text.Contains(path, "/tasks") by {
      assert es[0].fragments[0] == "/tasks";
    }
    assert Selects(es[1], path) <==> Text.Contains(path, "/board") || Text.Contains(path, "/task-board") by {
      assert es[1].fragments[0] == "/board";
      assert es[1].fragments[1] == "/task-board";
    }
    assert Selects(es[2], path) <==> Text.Contains(path, "/users") by {
      assert es[2].fragments[0] == "/users";
    }
    assert Selects(es[3], path) <==> Text.Contains(path, "/stats") by {
      assert es[3].fragments[0] == "/stats";
    }
    assert Selects(es[4], path) <==> Text.Contains(path, "/task-stats") by {
      assert es[4].fragments[0] == "/task-stats";
    }
    assert Selects(es[5], path) <==> Text.Contains(path, "/calendar") by {
      assert es[5].fragments[0] == "/calendar";
    }
    assert Selects(es[6], path) <==> Text.Contains(path, "/gantt") by {
      assert es[6].fragments[0] == "/gantt";
    }
  }

  /** The task statistics route highlights its own entry, although both
      '/tasks' and '/stats' are tried before it: a one-segment path starting
      '/task-stats' contains neither. */
  lemma TaskStatsSelected(path: string)
    requires Text.StartsWith(path, "/task-stats")
    requires forall i :: 0 < i < |path| ==> path[i] != '/'
    ensures SelectedKey(path) == "task-stats"
  {
    StatsRoutePrefixes(path);
    OnlyLeadingSlash(path, "/tasks");
    OnlyLeadingSlash(path, "/board");
    OnlyLeadingSlash(path, "/task-board");
    OnlyLeadingSlash(path, "/users");
    OnlyLeadingSlash(path, "/stats");
    OnlyLeadingSlash(path, "/task-stats");
  }

  /** A path starting '/task-stats' starts with none of the fragments tried
      before it. */
  lemma StatsRoutePrefixes(path: string)
    requires Text.StartsWith(path, "/task-stats")
    ensures !Text.StartsWith(path, "/tasks") && !Text.StartsWith(path, "/board")
    ensures !Text.StartsWith(path, "/task-board") && !Text.StartsWith(path, "/users")
    ensures !Text.StartsWith(path, "/stats")
  {
    assert path[..11] == "/task-stats";
    assert path[..6][5] == '-' && path[..6][1] == 't' && path[..11][6] == 's';
  }

  /** The board's long route highlights the board, through its second
      fragment: a one-segment path starting '/task-board' contains neither
      '/tasks' nor '/board'. */
  lemma TaskBoardSelected(path: string)
    requires Text.StartsWith(path, "/task-board")
    requires forall i :: 0 < i < |path| ==> path[i] != '/'
    ensures SelectedKey(path) == "board"
    ensures !Text.Contains(path, "/board")
  {
    BoardRoutePrefixes(path);
    OnlyLeadingSlash(path, "/tasks");
    OnlyLeadingSlash(path, "/board");
    OnlyLeadingSlash(path, "/task-board");
  }

  /** A path starting '/task-board' starts with neither '/tasks' nor '/board'. */
  lemma BoardRoutePrefixes(path: string)
    requires Text.StartsWith(path, "/task-board")
    ensures !Text.StartsWith(path, "/tasks") && !Text.StartsWith(path, "/board")
  {
    assert path[..11] == "/task-board";
    assert path[..6][5] == '-' && path[..6][1] == 't';
  }

  /** A path whose only '/' is its first character contains a '/'-fragment
      only as a prefix. */
  lemma OnlyLeadingSlash(path: string, fragment: string)
    requires forall i :: 0 < i < |path| ==> path[i] != '/'
    requires |fragment| > 0 && fragment[0] == '/'
    ensures Text.Contains(path, fragment) <==> Text.StartsWith(path, fragment)
  {
    Text.ContainsAt(path, fragment);
    if Text.Contains(path, fragment) {
      var i :| Text.OccursAt(path, fragment, i);
      assert path[i] == path[i..i + |fragment|][0];
    }
    if Text.StartsWith(path, fragment) {
      assert Text.OccursAt(path, fragment, 0);
    }
  }
}

=== FILE: simple_gantt.dfy ===
/** The simple Gantt chart (client/src/components/SimpleGantt.js): the same
    one-day bars as the full chart, computed on every render from the list as
    given, without deduplication and without a priority. */
module SimpleGantt {
  import opened Wrappers
  import opened ClientTask
  import TaskModel
  import TaskGantt
  import Seqs

  /** One row of the simple chart's `ganttData`. */
  datatype SimpleBar = SimpleBar(id: Id, name: string, start: Day, end: Day, duration: nat, status: string)

  /** The row of a task under a given name. */
  function SimpleBarOf(t: CTask, name: string, today: Day): (b: SimpleBar)
    ensures b.id == t.id && b.name == name && b.duration == 1 && b.end == b.start + 1
    ensures b.start == TaskGantt.StartDay(t, today)
    ensures b.status == TaskGantt.OrDefault(t.status, TaskModel.Todo)
  {
    TaskGantt.OneDayBar(t, today);
    SimpleBar(t.id, name, TaskGantt.StartDay(t, today), TaskGantt.EndDay(t, today), 1,
              TaskGantt.OrDefault(t.status, TaskModel.Todo))
  }

  /** The row of the `index`-th task: `task.name || placeholder`, and the
      task has no `name`. */
  function ToSimpleBar(t: CTask, index: nat, today: Day): (b: SimpleBar)
    ensures b == SimpleBarOf(t, TaskGantt.Placeholder(index), today)
  {
    SimpleBarOf(t, TaskGantt.BarNameAsWritten(t, index), today)
  }

  /** `tasks && tasks.length > 0 ? tasks.map(...) : []`. */
  function SimpleData(tasks: Option<seq<CTask>>, today: Day): (bars: seq<SimpleBar>)
    ensures tasks.None? ==> bars == []
    ensures tasks.Some? ==> |bars| == |tasks.value|
    ensures tasks.Some? ==> forall i :: 0 <= i < |bars| ==> bars[i] == ToSimpleBar(tasks.value[i], i, today)
  {
    var ts := tasks.GetOr([]);
    seq(|ts|, i requires 0 <= i < |ts| => ToSimpleBar(ts[i], i, today))
  }

  /** As written, the first row of a task titled 写报告 reads 未命名任务 1. */
  lemma SimpleTitleNotShown(today: Day)
    ensures var t := CTask("a", NoRef, NoRef, Some("写报告"), None, None, None, NoDue, []);
            SimpleData(Some([t]), today)[0].name == "未命名任务 1"
  {
  }

  /** The rows evidently intended: named by the task's title when it has one. */
  function SimpleDataIntended(tasks: Option<seq<CTask>>, today: Day): (bars: seq<SimpleBar>)
    ensures |bars| == |tasks.GetOr([])|
    ensures forall i :: 0 <= i < |bars| ==> bars[i] == SimpleBarOf(tasks.value[i], TaskGantt.BarName(tasks.value[i], i), today)
  {
    var ts := tasks.GetOr([]);
    seq(|ts|, i requires 0 <= i < |ts| => SimpleBarOf(ts[i], TaskGantt.BarName(ts[i], i), today))
  }

  /** The intended rows show every titled task under its title. */
  lemma SimpleIntendedShowsTitles(ts: seq<CTask>, today: Day, i: nat)
    requires i < |ts| && ts[i].title.Some? && ts[i].title.value != ""
    ensures SimpleDataIntended(Some(ts), today)[i].name == ts[i].title.value
  {
  }

  /** A full-chart bar without its priority. */
  function WithoutPriority(b: TaskGantt.Bar): SimpleBar {
    SimpleBar(b.id, b.name, b.start, b.end, b.duration, b.status)
  }

  /** On a list without repeated ids the simple chart draws the full chart's
      bars, minus the priority, both as written and as intended. */
  lemma {:induction false} AgreesWithTaskGantt(ts: seq<CTask>, today: Day)
    requires Seqs.Distinct(Ids(ts))
    ensures var full := TaskGantt.GanttData(Some(ts), today);
            var simple := SimpleData(Some(ts), today);
            |simple| == |full| && forall i :: 0 <= i < |simple| ==> simple[i] == WithoutPriority(full[i])
    ensures var full := TaskGantt.GanttDataIntended(Some(ts), today);
            var simple := SimpleDataIntended(Some(ts), today);
            |simple| == |full| && forall i :: 0 <= i < |simple| ==> simple[i] == WithoutPriority(full[i])
  {
    DedupByIdOfDistinct(ts);
  }
}

=== FILE: task_board.dfy ===
/** The kanban board (client/src/components/TaskBoard.js): the three columns
    of the current grouping, the field-change handler (which no element of
    the board calls) and the delete. */
module TaskBoard {
  import opened Wrappers
  import Seqs
  import Text
  import opened ClientTask
  import TaskModel

  // ---------------------------------------------------------------- columns

  /** The two groupings the board offers. */
  datatype GroupBy = ByStatus | ByPriority

  /** The column keys, left to right. */
  function ColumnKeys(g: GroupBy): (keys: seq<string>)
    ensures |keys| == 3 && Seqs.Distinct(keys)
    ensures g.ByStatus? ==> Seqs.Elements(keys) == TaskModel.Statuses
    ensures g.ByPriority? ==> Seqs.Elements(keys) == TaskModel.Priorities
  {
    match g
    case ByStatus => [TaskModel.Todo, TaskModel.InProgress, TaskModel.Done]
    case ByPriority => [TaskModel.High, TaskModel.Medium, TaskModel.Low]
  }

  /** A task without a priority (absent or '') is shown under 中. */
  predicate NoPriority(t: CTask) {
    t.priority.None? || t.priority == Some("")
  }

  /** The column filter: an exact match of the grouped field, and for 中 also
      a task without a priority. */
  function InColumn(g: GroupBy, key: string): CTask -> bool {
    match g
    case ByStatus => (t: CTask) => t.status == Some(key)
    case ByPriority => (t: CTask) => t.priority == Some(key) || (key == TaskModel.Medium && NoPriority(t))
  }

  /** The tasks some column of the grouping shows. */
  function Shown(g: GroupBy): CTask -> bool {
    match g
    case ByStatus => (t: CTask) => t.status.Some? && t.status.value in TaskModel.Statuses
    case ByPriority => (t: CTask) => NoPriority(t) || t.priority.value in TaskModel.Priorities
  }

  datatype Column = Column(key: string, tasks: seq<CTask>)

  /** `groupedTasks`; a missing or non-array task list gives three empty
      columns. */
  function Grouped(tasks: Option<seq<CTask>>, g: GroupBy): (cols: seq<Column>)
    ensures |cols| == 3
    ensures forall i :: 0 <= i < 3 ==> cols[i].key == ColumnKeys(g)[i]
    ensures tasks.None? ==> forall i :: 0 <= i < 3 ==> cols[i].tasks == []
    ensures forall i :: 0 <= i < 3 ==> Seqs.IsSubsequence(cols[i].tasks, tasks.GetOr([]))
    ensures tasks.Some? ==> forall i, t :: 0 <= i < 3 && t in tasks.value ==>
              (t in cols[i].tasks <==> InColumn(g, cols[i].key)(t))
  {
    var keys := ColumnKeys(g);
    var ts := tasks.GetOr([]);
    seq(3, i requires 0 <= i < 3 => Column(keys[i], Seqs.Filter(ts, InColumn(g, keys[i]))))
  }

  /** No task is shown in two columns. */
  lemma ColumnsDisjoint(tasks: Option<seq<CTask>>, g: GroupBy, i: nat, j: nat, t: CTask)
    requires i < j < 3
    ensures var cols := Grouped(tasks, g);
            !(t in cols[i].tasks && t in cols[j].tasks)
  {
    var cols := Grouped(tasks, g);
    if t in cols[i].tasks && t in cols[j].tasks {
      var a :| 0 <= a < |cols[i].tasks| && cols[i].tasks[a] == t;
      var b :| 0 <= b < |cols[j].tasks| && cols[j].tasks[b] == t;
      ColumnsExclusive(g, i, j, t);
    }
  }

  /** The filters of two different columns never both accept a task. */
  lemma ColumnsExclusive(g: GroupBy, i: nat, j: nat, t: CTask)
    requires i < j < 3
    ensures !(InColumn(g, ColumnKeys(g)[i])(t) && InColumn(g, ColumnKeys(g)[j])(t))
  {
    var keys := ColumnKeys(g);
    assert keys[i] != keys[j];
  }

  /** A task is shown in some column exactly when the grouping shows it. */
  lemma ShownIff(g: GroupBy, t: CTask)
    ensures Shown(g)(t) <==> exists i :: 0 <= i < 3 && InColumn(g, ColumnKeys(g)[i])(t)
  {
    var keys := ColumnKeys(g);
    if Shown(g)(t) {
      match g
      case ByStatus =>
        if t.status == Some(keys[0]) { assert InColumn(g, keys[0])(t); }
        else if t.status == Some(keys[1]) { assert InColumn(g, keys[1])(t); }
        else { assert InColumn(g, keys[2])(t); }
      case ByPriority =>
        if t.priority == Some(keys[0]) { assert InColumn(g, keys[0])(t); }
        else if t.priority == Some(keys[2]) { assert InColumn(g, keys[2])(t); }
        else { assert InColumn(g, keys[1])(t); }
    }
  }

  /** The columns together hold every shown task once: their sizes add up to
      the number of shown tasks. */
  lemma ColumnsPartition(ts: seq<CTask>, g: GroupBy)
    ensures var cols := Grouped(Some(ts), g);
            |cols[0].tasks| + |cols[1].tasks| + |cols[2].tasks| == |Seqs.Filter(ts, Shown(g))|
  {
    var keys := ColumnKeys(g);
    forall t: CTask
      ensures Shown(g)(t) <==> InColumn(g, keys[0])(t) || InColumn(g, keys[1])(t) || InColumn(g, keys[2])(t)
    {
      ShownIff(g, t);
    }
    forall t: CTask
      ensures !(InColumn(g, keys[0])(t) && InColumn(g, keys[1])(t))
      ensures !(InColumn(g, keys[0])(t) && InColumn(g, keys[2])(t))
      ensures !(InColumn(g, keys[1])(t) && InColumn(g, keys[2])(t))
    {
      ColumnsExclusive(g, 0, 1, t);
      ColumnsExclusive(g, 0, 2, t);
      ColumnsExclusive(g, 1, 2, t);
    }
    Seqs.FilterSizes3(ts, InColumn(g, keys[0]), InColumn(g, keys[1]), InColumn(g, keys[2]), Shown(g));
  }

  /** Unlike the statistics, the board shows a task without a priority under 中. */
  lemma MissingPriorityUnderMedium(ts: seq<CTask>, t: CTask)
    requires t in ts && NoPriority(t)
    ensures t in Grouped(Some(ts), ByPriority)[1].tasks
  {
  }

  // ---------------------------------------------------------------- field change

  /** The fields `handleFieldChange` can set. */
  datatype BoardField = StatusField | PriorityField | TitleField | DescriptionField

  /** `{ ...task, [field]: value }`. */
  function SetField(t: CTask, f: BoardField, v: string): (r: CTask)
    ensures r.id == t.id && r.parent == t.parent && r.user == t.user
    ensures r.dueDate == t.dueDate && r.tags == t.tags
    ensures f.StatusField? ==> r.status == Some(v) && r == t.(status := r.status)
    ensures f.PriorityField? ==> r.priority == Some(v) && r == t.(priority := r.priority)
    ensures f.TitleField? ==> r.title == Some(v) && r == t.(title := r.title)
    ensures f.DescriptionField? ==> r.description == Some(v) && r == t.(description := r.description)
  {
    match f
    case StatusField => t.(status := Some(v))
    case PriorityField => t.(priority := Some(v))
    case TitleField => t.(title := Some(v))
    case DescriptionField => t.(description := Some(v))
  }

  datatype ChangeOutcome =
    | Ignored                                            // a placeholder row
    | Requested(id: Id, field: BoardField, value: string, tasks: Option<seq<CTask>>)

  const PlaceholderPrefix: string := "placeholder-"

  /** `handleFieldChange`, as defined (no element of the board calls it):
      placeholder rows are ignored; otherwise
      `PUT /api/tasks/:id` with the one field, and when the server accepts it
      the matching tasks change locally. */
  function FieldChange(tasks: Option<seq<CTask>>, id: Id, f: BoardField, v: string, accepted: bool): (r: ChangeOutcome)
    ensures r.Ignored? <==> Text.StartsWith(id, PlaceholderPrefix)
    ensures r.Requested? ==> r.id == id && r.field == f && r.value == v
    ensures r.Requested? && (!accepted || tasks.None?) ==> r.tasks == tasks
    ensures r.Requested? && accepted && tasks.Some? ==>
              && r.tasks.Some?
              && |r.tasks.value| == |tasks.value|
              && Ids(r.tasks.value) == Ids(tasks.value)
              && (forall i :: 0 <= i < |tasks.value| && tasks.value[i].id != id ==> r.tasks.value[i] == tasks.value[i])
              && (forall i :: 0 <= i < |tasks.value| && tasks.value[i].id == id ==> r.tasks.value[i] == SetField(tasks.value[i], f, v))
  {
    if Text.StartsWith(id, PlaceholderPrefix) then Ignored
    else if !accepted || tasks.None? then Requested(id, f, v, tasks)
    else
      var ts := tasks.value;
      Requested(id, f, v, Some(seq(|ts|, i requires 0 <= i < |ts| => if ts[i].id == id then SetField(ts[i], f, v) else ts[i])))
  }

  /** Moving a task to another status moves it to that column and out of the
      others, leaving every other task where it was. */
  lemma StatusChangeMovesTask(ts: seq<CTask>, id: Id, k: nat, i: nat)
    requires !Text.StartsWith(id, PlaceholderPrefix)
    requires k < 3 && i < |ts| && ts[i].id == id
    ensures var keys := ColumnKeys(ByStatus);
            var after := FieldChange(Some(ts), id, StatusField, keys[k], true).tasks.value;
            var cols := Grouped(Some(after), ByStatus);
            && after[i] in cols[k].tasks
            && (forall j :: 0 <= j < 3 && j != k ==> after[i] !in cols[j].tasks)
  {
    var keys := ColumnKeys(ByStatus);
    var after := FieldChange(Some(ts), id, StatusField, keys[k], true).tasks.value;
    assert after[i] in after;
  }

  /** Repeating an accepted change changes nothing more. */
  lemma FieldChangeIdempotent(ts: seq<CTask>, id: Id, f: BoardField, v: string)
    requires !Text.StartsWith(id, PlaceholderPrefix)
    ensures var once := FieldChange(Some(ts), id, f, v, true).tasks;
            FieldChange(once, id, f, v, true).tasks == once
  {
    var once := FieldChange(Some(ts), id, f, v, true).tasks.value;
    var twice := FieldChange(Some(once), id, f, v, true).tasks.value;
    forall i | 0 <= i < |ts|
      ensures twice[i] == once[i]
    {
      assert Ids(once)[i] == Ids(ts)[i];
      if ts[i].id == id {
        assert once[i] == SetField(ts[i], f, v);
        assert SetField(once[i], f, v) == once[i];
      }
    }
    assert twice == once;
  }

  // ---------------------------------------------------------------- delete

  /** The board's `deleteTask` has the guards of the list's. After a delete is
      sent, each column is the old column without the deleted id. */
  lemma DeleteRemovesFromColumns(ts: seq<CTask>, me: UserId, id: Id, g: GroupBy, k: nat)
    requires k < 3
    requires DeleteLocal(ts, Some(me), id).Sent?
    ensures var after := DeleteLocal(ts, Some(me), id).remaining;
            Grouped(Some(after), g)[k].tasks ==
              Seqs.Filter(Grouped(Some(ts), g)[k].tasks, (t: CTask) => t.id != id)
  {
    var keys := ColumnKeys(g);
    Seqs.FilterCommute(ts, (t: CTask) => t.id != id, InColumn(g, keys[k]));
  }
}

=== FILE: task_calendar.dfy ===
/** The calendar view (client/src/components/TaskCalendar.js): the deduplicated
    task list, the tasks of a day, what a day cell shows, and when the day
    popup opens. */
module TaskCalendar {
  import opened Wrappers
  import Seqs
  import opened ClientTask

  // ---------------------------------------------------------------- tasks

  /** The effect on `[tasks]`: a present list replaces the calendar's tasks,
      deduplicated by `_id`; a missing one leaves them. */
  function CalendarTasks(prev: seq<CTask>, tasks: Option<seq<CTask>>): (r: seq<CTask>)
    ensures tasks.None? ==> r == prev
    ensures tasks.Some? ==> Seqs.Distinct(Ids(r))
    ensures tasks.Some? ==> Seqs.Elements(Ids(r)) == Seqs.Elements(Ids(tasks.value))
    ensures tasks.Some? ==> forall i :: 0 <= i < |r| ==> r[i].id in Ids(tasks.value) && r[i] == LastWith(tasks.value, r[i].id)
  {
    if tasks.None? then prev
    else
      DedupByIdKeepsIds(tasks.value);
      DedupById(tasks.value)
  }

  /** The day `dayjs(task.dueDate).format('YYYY-MM-DD')` names, if any:
      `dayjs(undefined)` is the current moment, so a task without the key falls
      on today, while `dayjs(null)` and `dayjs('')` are invalid dates whose
      'Invalid Date' matches no day of the calendar. */
  function DueDay(t: CTask, today: Day): (d: Option<Day>)
    ensures t.dueDate.NoDue? ==> d == Some(today)
    ensures t.dueDate.FalsyDue? ==> d.None?
    ensures t.dueDate.DueAt? ==> d == Some(t.dueDate.day)
  {
    match t.dueDate
    case NoDue => Some(today)
    case FalsyDue => None
    case DueAt(day) => Some(day)
  }

  /** `calendarTasks.filter(...)` for one day, as both `onSelect` and the cell use it. */
  function TasksOn(cal: seq<CTask>, day: Day, today: Day): (r: seq<CTask>)
    ensures forall t :: t in r <==> t in cal && DueDay(t, today) == Some(day)
    ensures Seqs.IsSubsequence(r, cal)
  {
    Seqs.Filter(cal, (t: CTask) => DueDay(t, today) == Some(day))
  }

  /** A task without a `dueDate` key is listed under today and under no other day. */
  lemma UndatedFallsOnToday(cal: seq<CTask>, t: CTask, today: Day, day: Day)
    requires t in cal && t.dueDate.NoDue?
    ensures t in TasksOn(cal, day, today) <==> day == today
  {
  }

  /** A task whose `dueDate` is `null` or `''` is listed under no day at all. */
  lemma NullDateOnNoDay(cal: seq<CTask>, t: CTask, today: Day, day: Day)
    requires t.dueDate.FalsyDue?
    ensures t !in TasksOn(cal, day, today)
  {
  }

  /** A dated task is listed under its due day and no other. */
  lemma DatedFallsOnDueDay(cal: seq<CTask>, t: CTask, today: Day, day: Day)
    requires t in cal && t.dueDate.DueAt?
    ensures t in TasksOn(cal, day, today) <==> day == t.dueDate.day
  {
  }

  /** A task is listed under at most one day. */
  lemma OneDayPerTask(cal: seq<CTask>, t: CTask, today: Day, d1: Day, d2: Day)
    requires t in TasksOn(cal, d1, today) && t in TasksOn(cal, d2, today)
    ensures d1 == d2
  {
  }

  // ---------------------------------------------------------------- a day cell

  const MaxVisible: nat := 2
  const MaxTitle: nat := 8

  /** What a day cell renders: the first tasks, and the size of the "+n" link
      when there are more. */
  datatype Cell = Cell(visible: seq<CTask>, more: Option<nat>)

  /** `tasksForDate.slice(0, 2)` and the "+{length - 2} 查看更多" link. */
  function CellOf(dayTasks: seq<CTask>): (c: Cell)
    ensures |c.visible| == Seqs.Min(MaxVisible, |dayTasks|)
    ensures c.visible == dayTasks[..|c.visible|]
    ensures c.more.Some? <==> |dayTasks| > MaxVisible
  {
    var n := Seqs.Min(MaxVisible, |dayTasks|);
    Cell(dayTasks[..n], if |dayTasks| > MaxVisible then Some(|dayTasks| - MaxVisible) else None)
  }

  /** The cell accounts for every task of the day: those shown plus the link's
      number add up to the day's tasks. */
  lemma CellAccountsForAll(dayTasks: seq<CTask>)
    ensures |CellOf(dayTasks).visible| + CellOf(dayTasks).more.GetOr(0) == |dayTasks|
  {
  }

  /** `title.length > 8 ? title.substring(0, 8) + '...' : title`. */
  function ShortTitle(title: string): (r: string)
    ensures |title| <= MaxTitle ==> r == title
    ensures |title| > MaxTitle ==> |r| == MaxTitle + 3 && r[..MaxTitle] == title[..MaxTitle] && r[MaxTitle..] == "..."
  {
    if |title| > MaxTitle then title[..MaxTitle] + "..." else title
  }

  /** Shortening a shortened title changes nothing. */
  lemma ShortTitleIdempotent(title: string)
    ensures ShortTitle(ShortTitle(title)) == ShortTitle(title)
  {
    if |title| > MaxTitle {
      var r := ShortTitle(title);
      assert r[..MaxTitle] + "..." == r;
    }
  }

  /** A title is left alone exactly when it fits, or when it already is eight
      characters followed by '...'. */
  lemma ShortTitleUnchanged(title: string)
    ensures ShortTitle(title) == title <==>
              |title| <= MaxTitle || (|title| == MaxTitle + 3 && title[MaxTitle..] == "...")
  {
    if |title| > MaxTitle {
      var r := ShortTitle(title);
      if |title| == MaxTitle + 3 && title[MaxTitle..] == "..." {
        assert title == title[..MaxTitle] + title[MaxTitle..];
      }
      if r == title {
        assert title[MaxTitle..] == r[MaxTitle..];
      }
    }
  }

  // ---------------------------------------------------------------- popup

  /** `isUserSelecting`, `visible`, `dayTasks` and `selectedTaskDetail`. */
  datatype View = View(selecting: bool, visible: bool, dayTasks: seq<CTask>, detail: Option<CTask>)

  datatype Event =
    | MouseDown               // `handleDateMouseDown`
    | MonthNav(day: Day)      // the header's previous / next month button, moving to `day`
    | Select(day: Day)        // `onSelect`
    | ViewMore(day: Day)      // a cell's "+n" link
    | NameClick(task: CTask)  // a task name inside a cell
    | Close                   // the popup's close, cancel or edit button

  /** The view after one event. Selecting a day loads its tasks and clears
      the detail, opening the popup only while the user is selecting. A month
      button calls the calendar's `onChange`, which selects the new date: the
      same `onSelect`, run with the flag as it was before the button reset it.
      The "+n" link opens the popup on the day's tasks and, having no
      `stopPropagation`, the click reaches the cell and selects the day too,
      clearing the detail. A task name (whose click stops there) opens the
      popup on that task; closing keeps the detail. */
  function Step(v: View, e: Event, cal: seq<CTask>, today: Day): (r: View)
    ensures e.Select? ==> r.dayTasks == TasksOn(cal, e.day, today) && r.selecting == v.selecting && r.detail.None?
    ensures e.Select? ==> (r.visible <==> v.visible || v.selecting)
    ensures e.MonthNav? ==> !r.selecting && r.dayTasks == TasksOn(cal, e.day, today) && r.detail.None?
    ensures e.MonthNav? ==> (r.visible <==> v.visible || v.selecting)
    ensures e.MouseDown? ==> r.selecting && r.visible == v.visible && r.detail == v.detail
    ensures e.ViewMore? ==> r.visible && r.dayTasks == TasksOn(cal, e.day, today) && r.detail.None?
    ensures e.NameClick? ==> r.visible && r.detail == Some(e.task) && r.dayTasks == v.dayTasks
    ensures e.Close? ==> !r.visible && r.detail == v.detail && r.dayTasks == v.dayTasks
    ensures !e.MouseDown? && !e.MonthNav? ==> r.selecting == v.selecting
  {
    match e
    case MouseDown => v.(selecting := true)
    case MonthNav(day) =>
      v.(dayTasks := TasksOn(cal, day, today), visible := v.visible || v.selecting, detail := None, selecting := false)
    case Select(day) => v.(dayTasks := TasksOn(cal, day, today), visible := v.visible || v.selecting, detail := None)
    case ViewMore(day) => v.(dayTasks := TasksOn(cal, day, today), visible := true, detail := None)
    case NameClick(t) => v.(detail := Some(t), visible := true)
    case Close => v.(visible := false)
  }

  /** The view after a sequence of events. */
  function Run(v: View, es: seq<Event>, cal: seq<CTask>, today: Day): View
    decreases |es|
  {
    if |es| == 0 then v else Run(Step(v, es[0], cal, today), es[1..], cal, today)
  }

  /** What the popup's body renders: the selected task, the "no tasks" note,
      or the day's list. */
  datatype Content = Detail(task: CTask) | NoTasksNote | DayList(tasks: seq<CTask>)

  /** The body for a view: the detail when there is one, else the day's tasks. */
  function Body(v: View): (c: Content)
    ensures v.detail.Some? <==> c.Detail?
    ensures c.Detail? ==> c.task == v.detail.value
    ensures c.DayList? ==> c.tasks == v.dayTasks && v.dayTasks != []
  {
    if v.detail.Some? then Detail(v.detail.value)
    else if v.dayTasks == [] then NoTasksNote
    else DayList(v.dayTasks)
  }

  /** The body showing a day's tasks: the list, or the note when there are none. */
  function ListOf(tasks: seq<CTask>): (c: Content)
    ensures !c.Detail?
  {
    if tasks == [] then NoTasksNote else DayList(tasks)
  }

  /** Whether the popup is on screen as written: `visible && selectedTaskDetail`. */
  predicate Shown(v: View) {
    v.visible && v.detail.Some?
  }

  /** The popup on screen as written, and its body. Since it needs a detail
      to be visible, it only ever shows a single task. */
  function Popup(v: View): (c: Option<Content>)
    ensures c.Some? <==> Shown(v)
    ensures c.Some? ==> c.value.Detail? && c.value.task == v.detail.value
  {
    if Shown(v) then Some(Body(v)) else None
  }

  /** The popup on screen with `visible={visible}`. */
  function PopupIntended(v: View): (c: Option<Content>)
    ensures c.Some? <==> v.visible
    ensures c.Some? && v.detail.Some? ==> c.value == Detail(v.detail.value)
    ensures c.Some? && v.detail.None? ==> c.value == ListOf(v.dayTasks)
  {
    if v.visible then Some(Body(v)) else None
  }

  /** The two popups agree whenever a detail is selected. */
  lemma PopupsAgreeOnDetail(v: View)
    requires v.detail.Some?
    ensures Popup(v) == PopupIntended(v)
  {
  }

  /** A month change is the selection of the new date, after which the
      user no longer counts as selecting. */
  lemma MonthNavSelects(v: View, day: Day, cal: seq<CTask>, today: Day)
    ensures Step(v, MonthNav(day), cal, today) == Step(v, Select(day), cal, today).(selecting := false)
  {
  }

  /** Once the user is not selecting, month changes, selections and closes
      keep a closed popup closed until the next mouse down. */
  lemma {:induction false} NavigationKeepsPopupClosed(v: View, es: seq<Event>, cal: seq<CTask>, today: Day)
    requires !v.visible && !v.selecting
    requires forall i :: 0 <= i < |es| ==> es[i].MonthNav? || es[i].Select? || es[i].Close?
    ensures var r := Run(v, es, cal, today);
            !r.visible && !r.selecting && PopupIntended(r).None? && Popup(r).None?
    decreases |es|
  {
    if |es| > 0 {
      var w := Step(v, es[0], cal, today);
      assert !w.visible && !w.selecting;
      NavigationKeepsPopupClosed(w, es[1..], cal, today);
    }
  }

  /** The flag does not stop the first month change after a mouse down: that
      change still runs `onSelect` with the old flag, and the popup opens on
      the new date's tasks (though, as written, nothing is on screen). */
  lemma MonthNavAfterMouseDownOpens(v: View, day: Day, cal: seq<CTask>, today: Day)
    ensures var r := Run(v, [MouseDown, MonthNav(day)], cal, today);
            && r.visible && !r.selecting && r.dayTasks == TasksOn(cal, day, today)
            && PopupIntended(r) == Some(ListOf(TasksOn(cal, day, today)))
            && Popup(r).None?
  {
    var w := Step(v, MouseDown, cal, today);
    var r := Step(w, MonthNav(day), cal, today);
    assert [MouseDown, MonthNav(day)][1..] == [MonthNav(day)];
    assert [MonthNav(day)][1..] == [];
    assert Run(r, [], cal, today) == r;
    assert Run(w, [MonthNav(day)], cal, today) == r;
  }

  /** Selecting a day after a mouse down would open the popup on that day's
      tasks, but the selection clears the detail and the popup as written
      stays off screen. */
  lemma SelectedDayNotShown(v: View, day: Day, cal: seq<CTask>, today: Day)
    ensures var r := Run(v, [MouseDown, Select(day)], cal, today);
            && r.visible && r.dayTasks == TasksOn(cal, day, today)
            && Popup(r).None?
  {
    var w := Step(v, MouseDown, cal, today);
    var r := Step(w, Select(day), cal, today);
    assert [MouseDown, Select(day)][1..] == [Select(day)];
    assert [Select(day)][1..] == [];
    assert Run(r, [], cal, today) == r;
    assert Run(w, [Select(day)], cal, today) == r;
  }

  /** With `visible={visible}`, a mouse down and a selection show the day's
      tasks (or the note that it has none). */
  lemma IntendedSelectShowsDay(v: View, day: Day, cal: seq<CTask>, today: Day)
    ensures PopupIntended(Run(v, [MouseDown, Select(day)], cal, today)) == Some(ListOf(TasksOn(cal, day, today)))
  {
    SelectedDayNotShown(v, day, cal, today);
  }

  /** A task name opens the popup on that task, as written and as intended. */
  lemma NameClickShowsTask(v: View, t: CTask, cal: seq<CTask>, today: Day)
    ensures var r := Step(v, NameClick(t), cal, today);
            Popup(r) == Some(Detail(t)) && PopupIntended(r) == Some(Detail(t))
  {
  }

  /** The "+n" link makes the popup visible on the day's tasks, but its
      click also selects the day, which clears the detail: as written nothing
      is on screen, whatever came before. */
  lemma ViewMoreNotShown(v: View, day: Day, cal: seq<CTask>, today: Day)
    ensures var r := Step(v, ViewMore(day), cal, today);
            r.visible && r.dayTasks == TasksOn(cal, day, today) && Popup(r).None?
  {
  }

  /** With `visible={visible}`, the "+n" link shows the day's tasks. */
  lemma IntendedViewMoreShowsDay(v: View, day: Day, cal: seq<CTask>, today: Day)
    ensures PopupIntended(Step(v, ViewMore(day), cal, today)) == Some(ListOf(TasksOn(cal, day, today)))
  {
  }
}

=== FILE: task_form.dfy ===
/** The task form (client/src/components/TaskForm.js): the parent-task choices,
    the prefill of an edited task, the recurrence state, the request body built
    on submit, the create-or-update choice with its local effects, the interval
    input and the refetch-on-focus throttle. */
module TaskForm {
  import opened Wrappers
  import Seqs
  import Text
  import opened ClientTask
  import TaskModel
  import TaskRoutes

  // ---------------------------------------------------------------- parent choices

  /** Offered by default: a task naming no parent that is not the edited task. */
  function IsCandidate(current: Option<CTask>): CTask -> bool {
    (t: CTask) => ParentId(t).None? && (current.None? || t.id != current.value.id)
  }

  /** `availableParentTasks` before the current parent is considered: the
      top-level tasks, in list order, other than the one being edited. */
  function BaseCandidates(all: seq<CTask>, current: Option<CTask>): (r: seq<CTask>)
    ensures forall t :: t in r <==> t in all && ParentId(t).None? && (current.None? || t.id != current.value.id)
    ensures Seqs.IsSubsequence(r, all)
  {
    Seqs.Filter(all, IsCandidate(current))
  }

  /** `[found, ...list]` unless a task with `found`'s id is already listed. */
  function WithParent(base: seq<CTask>, found: Option<CTask>): (r: seq<CTask>)
    ensures found.None? ==> r == base
    ensures found.Some? ==> found.value.id in Ids(r)
    ensures forall t :: t in r ==> t in base || Some(t) == found
    ensures forall t :: t in base ==> t in r
  {
    if found.Some? && found.value.id !in Ids(base) then
      assert Ids([found.value] + base)[0] == found.value.id;
      [found.value] + base
    else base
  }

  /** The lookup `res.data.find(task => task._id === currentTask.parentTask)` as
      written: a task id can only equal a raw, nonempty parent id. A populated
      parent is an object, which `===` never equates with a string. */
  function FoundParentAsWritten(all: seq<CTask>, current: Option<CTask>): (r: Option<CTask>)
    ensures r.Some? ==> r.value in all && current.Some? && current.value.parent == RawId(r.value.id)
    ensures current.Some? && current.value.parent.Populated? ==> r.None?
  {
    if current.Some? && current.value.parent.RawId? && current.value.parent.id != ""
    then Find(all, current.value.parent.id)
    else None
  }

  /** `fetchParentTasks` as written. */
  function ParentCandidatesAsWritten(all: seq<CTask>, current: Option<CTask>): seq<CTask> {
    WithParent(BaseCandidates(all, current), FoundParentAsWritten(all, current))
  }

  /** As written, a populated parent is never looked up: the choices are the
      default ones alone, whatever the list holds. */
  lemma PopulatedParentIgnored(all: seq<CTask>, current: CTask)
    requires current.parent.Populated?
    ensures ParentCandidatesAsWritten(all, Some(current)) == BaseCandidates(all, Some(current))
  {
  }

  /** Editing a grandchild whose parent arrives populated, as every list row
      does: the parent is in the list, yet it is not offered. */
  lemma {:induction false} PopulatedParentNotOffered()
    ensures var p := CTask("p", RawId("q"), NoRef, None, None, None, None, NoDue, []);
            var q := CTask("q", NoRef, NoRef, None, None, None, None, NoDue, []);
            var c := CTask("c", Populated("p"), NoRef, None, None, None, None, NoDue, []);
            && "p" in Ids([p, q])
            && "p" !in Ids(ParentCandidatesAsWritten([p, q], Some(c)))
  {
    var p := CTask("p", RawId("q"), NoRef, None, None, None, None, NoDue, []);
    var q := CTask("q", NoRef, NoRef, None, None, None, None, NoDue, []);
    var c := CTask("c", Populated("p"), NoRef, None, None, None, None, NoDue, []);
    assert Ids([p, q])[0] == "p";
    var base := BaseCandidates([p, q], Some(c));
    assert base == [q] by {
      assert Seqs.Filter([p, q], IsCandidate(Some(c))) == Seqs.Filter([p, q][1..], IsCandidate(Some(c)));
      assert [p, q][1..] == [q];
      assert Seqs.Filter([q], IsCandidate(Some(c))) == [q] + Seqs.Filter([q][1..], IsCandidate(Some(c)));
      assert [q][1..] == [];
    }
    assert Ids(base) == ["q"];
  }

  /** The lookup the prefill evidently intends: the parent's id, read from the
      populated object or the raw string alike. */
  function FoundParent(all: seq<CTask>, current: Option<CTask>): (r: Option<CTask>)
    ensures r.Some? ==> r.value in all && current.Some? && ParentId(current.value) == Some(r.value.id)
    ensures r.None? ==> current.None? || ParentId(current.value).None? || ParentId(current.value).value !in Ids(all)
  {
    if current.Some? && ParentId(current.value).Some? then Find(all, ParentId(current.value).value) else None
  }

  /** The parent choices, with the current parent looked up by its id. */
  function ParentCandidates(all: seq<CTask>, current: Option<CTask>): (r: seq<CTask>)
    ensures forall t :: t in r ==> t in all
    ensures forall t :: t in r ==> IsCandidate(current)(t) || (current.Some? && ParentId(current.value) == Some(t.id))
    ensures forall t :: t in all && IsCandidate(current)(t) ==> t in r
  {
    WithParent(BaseCandidates(all, current), FoundParent(all, current))
  }

  /** The current parent is offered exactly when the list holds a task with its id. */
  lemma CurrentParentOffered(all: seq<CTask>, current: CTask)
    requires ParentId(current).Some?
    ensures ParentId(current).value in Ids(ParentCandidates(all, Some(current))) <==> ParentId(current).value in Ids(all)
  {
    var p := ParentId(current).value;
    var r := ParentCandidates(all, Some(current));
    if p in Ids(r) {
      var i :| 0 <= i < |r| && Ids(r)[i] == p;
      assert r[i] in all;
      var j :| 0 <= j < |all| && all[j] == r[i];
      assert Ids(all)[j] == p;
    }
  }

  /** The choices list no task twice when the tasks fetched carry distinct ids. */
  lemma {:induction false} ParentCandidatesDistinct(all: seq<CTask>, current: Option<CTask>)
    requires Seqs.Distinct(Ids(all))
    ensures Seqs.Distinct(Ids(ParentCandidates(all, current)))
  {
    var base := BaseCandidates(all, current);
    FilteredIdsDistinct(all, IsCandidate(current));
    var found := FoundParent(all, current);
    if found.Some? && found.value.id !in Ids(base) {
      var r := [found.value] + base;
      IdsAppend([found.value], base);
      assert Ids(r) == [found.value.id] + Ids(base);
    }
  }

  // ---------------------------------------------------------------- prefill

  /** The form fields. `parentTask` is the `Select` value, '' for no parent;
      `tags` is the comma-separated text of the tag input. */
  datatype FormValues = FormValues(
    title: Option<string>,
    description: Option<string>,
    status: Option<string>,
    priority: Option<string>,
    dueDate: Option<Day>,
    parentTask: string,
    sharedWith: Option<seq<UserId>>,
    tags: Option<string>)

  /** The parent id the prefill reads: `_id` of a populated parent, the raw
      string otherwise, '' when there is none. */
  function PrefillParent(t: CTask): (p: string)
    ensures p == "" ==> ParentId(t).None? || ParentId(t) == Some("")
    ensures p != "" ==> ParentId(t) == Some(p)
  {
    match t.parent
    case NoRef => ""
    case RawId(s) => s
    case Populated(s) => s
  }

  /** The text of the tag input: the tags joined with ', '. */
  function PrefillTags(t: CTask): (s: string) {
    Text.Join(t.tags, ", ")
  }

  /** `form.setFieldsValue` for an edited task; `shared` holds the `_id`s of its
      populated `sharedWith` users. */
  function Prefill(t: CTask, shared: seq<UserId>): (v: FormValues)
    ensures v.priority.Some? && v.priority.value != ""
    ensures t.priority.Some? && t.priority.value != "" ==> v.priority == t.priority
    ensures v.title == t.title && v.status == t.status && v.dueDate == t.dueDate.AsDay()
  {
    FormValues(
      t.title,
      t.description,
      t.status,
      Some(if t.priority.Some? && t.priority.value != "" then t.priority.value else TaskModel.Medium),
      t.dueDate.AsDay(),
      PrefillParent(t),
      Some(shared),
      Some(PrefillTags(t)))
  }

  // ---------------------------------------------------------------- recurrence

  /** The recurrence controls, which live outside the form fields. */
  datatype Recurrence = Recurrence(
    isRecurring: bool,
    pattern: string,
    interval: int,
    end: Option<Day>,
    neverEnd: bool)

  /** The recurrence fields as a fetched task carries them (each may be absent). */
  datatype StoredRecurrence = StoredRecurrence(
    isRecurring: Option<bool>,
    pattern: Option<string>,
    interval: Option<int>,
    end: Option<Day>,
    neverEnd: Option<bool>)

  /** The state a new task starts from. */
  const NewRecurrence: Recurrence := Recurrence(false, TaskModel.Daily, 1, None, true)

  /** The recurrence state for the edited task, or the reset one for a new task. */
  function LoadRecurrence(stored: Option<StoredRecurrence>): (r: Recurrence)
    ensures stored.None? ==> r == NewRecurrence
    ensures r.pattern != "" && r.interval != 0
    ensures r.neverEnd <==> stored.None? || stored.value.neverEnd != Some(false)
    ensures r.isRecurring ==> stored.Some? && stored.value.isRecurring == Some(true)
  {
    if stored.None? then NewRecurrence
    else
      var s := stored.value;
      Recurrence(
        s.isRecurring.GetOr(false),
        if s.pattern.Some? && s.pattern.value != "" then s.pattern.value else TaskModel.Daily,
        if s.interval.Some? && s.interval.value != 0 then s.interval.value else 1,
        s.end,
        s.neverEnd != Some(false))
  }

  /** The recurrence fields of a stored task, as the server returns them. */
  function StoredOf(t: TaskModel.Task): StoredRecurrence {
    StoredRecurrence(Some(t.isRecurring), Some(t.recurrencePattern), Some(t.recurrenceInterval),
                     t.recurrenceEnd, Some(t.recurrenceNeverEnd))
  }

  /** A task's recurrence comes back unchanged into the controls, provided its
      pattern is nonempty and its interval nonzero, as every created task's is. */
  lemma LoadStoredRecurrence(t: TaskModel.Task)
    requires t.recurrencePattern != "" && t.recurrenceInterval != 0
    ensures LoadRecurrence(Some(StoredOf(t))) ==
            Recurrence(t.isRecurring, t.recurrencePattern, t.recurrenceInterval, t.recurrenceEnd, t.recurrenceNeverEnd)
  {
  }

  /** `Math.max(1, parseInt(e.target.value) || 1)`: `NaN` and `0` fall back to 1,
      and anything below 1 is raised to 1. */
  function ClampInterval(input: string): (n: int)
    ensures n >= 1
    ensures Text.ParseInt(input).None? ==> n == 1
    ensures Text.ParseInt(input).Some? ==> n == (if Text.ParseInt(input).value >= 1 then Text.ParseInt(input).value else 1)
  {
    var p := Text.ParseInt(input);
    var v := if p.Some? && p.value != 0 then p.value else 1;
    if v < 1 then 1 else v
  }

  /** Typing a positive number into the interval input sets that number. */
  lemma ClampTypedNumber(n: nat)
    requires n >= 1
    ensures ClampInterval(Text.NatToString(n)) == n
  {
    Text.ParseIntOfNat(n);
  }

  /** The interval the input shows, typed back in, is kept. */
  lemma ClampStable(input: string)
    ensures ClampInterval(Text.NatToString(ClampInterval(input))) == ClampInterval(input)
  {
    ClampTypedNumber(ClampInterval(input));
  }

  // ---------------------------------------------------------------- submit

  /** The submitted tag list: the input split on ',', trimmed, empties dropped;
      no input gives []. */
  function SubmittedTags(input: Option<string>): (tags: seq<string>)
    ensures forall i :: 0 <= i < |tags| ==> tags[i] != "" && Text.IsTrimmed(tags[i])
    ensures forall i :: 0 <= i < |tags| ==> forall j :: 0 <= j < |tags[i]| ==> tags[i][j] != ','
    ensures input.None? || input == Some("") ==> tags == []
  {
    if input.None? || input.value == "" then [] else Text.SplitTrimmed(input.value, {','})
  }

  /** Submitting the prefilled tags gives the task's tags back, provided each is
      nonempty, trimmed and free of commas. */
  lemma PrefillTagsRoundTrip(t: CTask)
    requires forall i :: 0 <= i < |t.tags| ==> t.tags[i] != "" && Text.IsTrimmed(t.tags[i])
    requires forall i :: 0 <= i < |t.tags| ==> forall j :: 0 <= j < |t.tags[i]| ==> t.tags[i][j] != ','
    ensures SubmittedTags(Some(PrefillTags(t))) == t.tags
  {
    SpaceSeparates();
    Text.SplitTrimmedJoin(t.tags, ',', " ", {','});
    if t.tags == [] {
      Text.SplitTrimmedEmpty({','});
    }
  }

  /** The ', ' of the join is the split's ',' followed by whitespace. */
  lemma SpaceSeparates()
    ensures [','] + " " == ", "
    ensures forall j :: 0 <= j < |" "| ==> " "[j] !in {','} && Text.IsWhitespace(" "[j])
  {
    assert " "[0] == ' ';
    assert Text.IsWhitespace(' ');
  }

  /** The body of the PUT or POST (`taskData`): the form values, the date or '',
      `parentTask || null`, the split tags and the recurrence controls, with no
      end date while `neverEnd` is set. */
  function TaskData(v: FormValues, rec: Recurrence): (b: TaskRoutes.TaskBody)
    ensures TaskRoutes.RequestedParent(b.parentTask) == (if v.parentTask == "" then None else Some(v.parentTask))
    ensures b.tags == TaskRoutes.Given(SubmittedTags(v.tags))
    ensures rec.neverEnd ==> b.recurrenceEnd == TaskRoutes.Null
    ensures !rec.neverEnd ==> (b.recurrenceEnd.Given? <==> rec.end.Some?)
    ensures b.isRecurring == Some(rec.isRecurring) && b.recurrenceNeverEnd == Some(rec.neverEnd)
    ensures b.dueDate.Cast() == v.dueDate && !b.dueDate.Unparsed?
  {
    TaskRoutes.TaskBody(
      v.title,
      v.description,
      v.status,
      v.priority,
      TaskRoutes.Dated(v.dueDate),
      v.sharedWith,
      if v.parentTask == "" then TaskRoutes.Null else TaskRoutes.Given(v.parentTask),
      TaskRoutes.Given(SubmittedTags(v.tags)),
      Some(rec.isRecurring),
      Some(rec.pattern),
      Some(rec.interval),
      if rec.neverEnd || rec.end.None? then TaskRoutes.Null else TaskRoutes.Given(rec.end.value),
      Some(rec.neverEnd))
  }

  /** Submitting an edited task unchanged names the same parent again. */
  lemma PrefillParentRoundTrip(t: CTask, shared: seq<UserId>, rec: Recurrence)
    requires ParentId(t) != Some("")
    ensures TaskRoutes.RequestedParent(TaskData(Prefill(t, shared), rec).parentTask) == ParentId(t)
  {
  }

  /** A new task submitted with untouched recurrence controls is stored with
      the schema's recurrence defaults. */
  lemma NewFormStoresDefaults(v: FormValues, caller: UserId, newId: Id, now: TaskModel.Time)
    ensures var t := TaskRoutes.NewTaskFrom(caller, TaskData(v, LoadRecurrence(None)), newId, now);
            var d := TaskModel.NewTask(newId, caller, "", now);
            && t.isRecurring == d.isRecurring
            && t.recurrencePattern == d.recurrencePattern
            && t.recurrenceInterval == d.recurrenceInterval
            && t.recurrenceEnd == d.recurrenceEnd
            && t.recurrenceNeverEnd == d.recurrenceNeverEnd
  {
  }

  /** The request the submit sends. */
  datatype Request = Put(id: Id, body: TaskRoutes.TaskBody) | Post(body: TaskRoutes.TaskBody)

  /** The update path needs an edited task with a nonempty string id; anything
      else creates. Both paths send the same body. */
  function Submit(current: Option<CTask>, v: FormValues, rec: Recurrence): (r: Request)
    ensures r.Put? <==> current.Some? && current.value.id != ""
    ensures r.Put? ==> r.id == current.value.id
    ensures r.body == TaskData(v, rec)
  {
    if current.Some? && current.value.id != "" then Put(current.value.id, TaskData(v, rec))
    else Post(TaskData(v, rec))
  }

  /** The `dueDate` of `taskData` as a task holds it once merged: the picked
      day, or the `''` sent when the picker is empty. */
  function SubmittedDue(d: Option<Day>): (r: Due)
    ensures r.AsDay() == d
    ensures !r.NoDue?
  {
    if d.Some? then DueAt(d.value) else FalsyDue
  }

  /** `{ ...task, ...taskData }`: the task as the list shows it after the update,
      until the refetch replaces the list. */
  function Merged(t: CTask, v: FormValues, rec: Recurrence): (m: CTask)
    ensures m.id == t.id && m.user == t.user
    ensures ParentId(m) == (if v.parentTask == "" then None else Some(v.parentTask))
    ensures m.tags == SubmittedTags(v.tags)
  {
    t.(title := v.title, description := v.description, status := v.status,
       priority := v.priority, dueDate := SubmittedDue(v.dueDate),
       parent := if v.parentTask == "" then NoRef else RawId(v.parentTask),
       tags := SubmittedTags(v.tags))
  }

  /** The local update: every task with the edited id is merged, the rest kept. */
  function UpdateLocal(ts: seq<CTask>, id: Id, v: FormValues, rec: Recurrence): (r: seq<CTask>)
    ensures |r| == |ts| && Ids(r) == Ids(ts)
    ensures forall i :: 0 <= i < |ts| && ts[i].id != id ==> r[i] == ts[i]
    ensures forall i :: 0 <= i < |ts| && ts[i].id == id ==> r[i] == Merged(ts[i], v, rec)
  {
    seq(|ts|, i requires 0 <= i < |ts| => if ts[i].id == id then Merged(ts[i], v, rec) else ts[i])
  }

  /** Applying the same local update twice is the same as applying it once. */
  lemma UpdateLocalIdempotent(ts: seq<CTask>, id: Id, v: FormValues, rec: Recurrence)
    ensures UpdateLocal(UpdateLocal(ts, id, v, rec), id, v, rec) == UpdateLocal(ts, id, v, rec)
  {
  }

  const UnknownUser: UserId := "unknown-user"

  /** The stand-in task prepended when a create fails or answers without an
      `_id`: id `'mock-' + Date.now()`, the owner `currentUser?._id ||
      'unknown-user'`. The stored login reply names the user `id`, never
      `_id`, so the owner is always the fallback, whoever is logged in. */
  function MockTask(v: FormValues, now: nat): (t: CTask)
    ensures Text.StartsWith(t.id, "mock-")
    ensures t.user == RawId(UnknownUser)
    ensures t.tags == SubmittedTags(v.tags)
    ensures t.title == v.title && t.status == v.status && t.dueDate.AsDay() == v.dueDate
  {
    CTask("mock-" + Text.NatToString(now),
          if v.parentTask == "" then NoRef else RawId(v.parentTask),
          RawId(UnknownUser),
          v.title, v.description, v.status, v.priority, SubmittedDue(v.dueDate),
          SubmittedTags(v.tags))
  }

  /** The list after a create: a created task arrives with the refetch (or the
      list stays when that fails); a failed create still reports success and
      shows the stand-in first. */
  function CreateLocal(ts: seq<CTask>, v: FormValues, created: bool, refreshed: Option<seq<CTask>>,
                       now: nat): (r: seq<CTask>)
    ensures created ==> r == refreshed.GetOr(ts)
    ensures !created ==> |r| == |ts| + 1 && r[1..] == ts && r[0] == MockTask(v, now)
  {
    if created then refreshed.GetOr(ts) else [MockTask(v, now)] + ts
  }

  /** The stand-in is owned by a raw id, so the list's delete refuses it: it
      stays until the list is reloaded. */
  lemma MockTaskNotDeletable(ts: seq<CTask>, v: FormValues, now: nat, me: UserId)
    ensures var r := CreateLocal(ts, v, false, None, now);
            DeleteLocal(r, Some(me), r[0].id).Refused?
  {
    var r := CreateLocal(ts, v, false, None, now);
    assert Seqs.FindFirst(r, (t: CTask) => t.id == r[0].id) == Some(0);
  }

  // ---------------------------------------------------------------- focus throttle

  /** `isFetchingParentTasks` and `lastParentTaskFetchTime`. */
  datatype FetchState = FetchState(fetching: bool, lastFetch: TaskModel.Time)

  const InitialFetch: FetchState := FetchState(false, 0)

  const FocusInterval: int := 2000

  datatype FocusResult = FocusResult(state: FetchState, fetched: bool)

  /** `handleFocus`: refetch only when no fetch is in flight and more than two
      seconds have passed since the last one began. */
  function OnFocus(s: FetchState, now: TaskModel.Time): (r: FocusResult)
    ensures r.fetched ==> r.state == FetchState(true, now)
    ensures !r.fetched ==> r.state == s
    ensures r.fetched ==> !s.fetching && now > s.lastFetch + FocusInterval
  {
    if !s.fetching && now - s.lastFetch > FocusInterval then FocusResult(FetchState(true, now), true)
    else FocusResult(s, false)
  }

  /** The `finally` of `fetchParentTasks`. */
  function FetchDone(s: FetchState): (r: FetchState)
    ensures !r.fetching && r.lastFetch == s.lastFetch
  {
    s.(fetching := false)
  }

  /** While a fetch is in flight, focusing never starts another. */
  lemma FocusWaitsForFetch(s: FetchState, t1: TaskModel.Time, t2: TaskModel.Time)
    requires OnFocus(s, t1).fetched
    ensures !OnFocus(OnFocus(s, t1).state, t2).fetched
  {
  }

  /** Two fetches started by focus are more than two seconds apart, even when
      the first has completed. */
  lemma FocusThrottled(s: FetchState, t1: TaskModel.Time, t2: TaskModel.Time)
    requires OnFocus(s, t1).fetched
    requires OnFocus(FetchDone(OnFocus(s, t1).state), t2).fetched
    ensures t2 - t1 > FocusInterval
  {
  }

  /** Once the last fetch has completed, a focus more than two seconds later refetches. */
  lemma FocusRefetchesWhenIdle(last: TaskModel.Time, now: TaskModel.Time)
    requires now > last + FocusInterval
    ensures OnFocus(FetchState(false, last), now).fetched
  {
  }
}

=== FILE: task_gantt.dfy ===
/** The Gantt chart (client/src/components/TaskGantt.js): the date axis, one
    one-day bar per distinct task, and the day ticks of the axis. Calendar
    days are integers; a formatted 'YYYY-MM-DD' tick is its day. */
module TaskGantt {
  import opened Wrappers
  import Seqs
  import Text
  import opened ClientTask
  import TaskModel

  // ---------------------------------------------------------------- tasks

  /** The tasks the effect charts: the `_id`-deduplicated list, or none when
      `tasks` is missing or empty. */
  function Unique(tasks: Option<seq<CTask>>): (us: seq<CTask>)
    ensures Seqs.Distinct(Ids(us))
    ensures tasks.None? || tasks.value == [] ==> us == []
    ensures tasks.Some? ==> Seqs.Elements(Ids(us)) == Seqs.Elements(Ids(tasks.value))
  {
    if tasks.None? || tasks.value == [] then []
    else
      DedupByIdKeepsIds(tasks.value);
      DedupById(tasks.value)
  }

  // ---------------------------------------------------------------- axis

  /** `minDate` and `maxDate`. */
  datatype Range = Range(lo: Day, hi: Day)

  /** `uniqueTasks.map(task => task.dueDate).filter(Boolean)`. */
  function DueDays(ts: seq<CTask>): (ds: seq<Day>)
    ensures forall d :: d in ds <==> exists t :: t in ts && t.dueDate == DueAt(d)
    decreases |ts|
  {
    if |ts| == 0 then []
    else
      var rest := DueDays(ts[1..]);
      assert forall t :: t in ts <==> t == ts[0] || t in ts[1..];
      match ts[0].dueDate
      case DueAt(d) => [d] + rest
      case _ => rest
  }

  /** `Math.min(...ds)`. */
  function MinOf(ds: seq<Day>): (m: Day)
    requires |ds| > 0
    ensures m in ds && forall d :: d in ds ==> m <= d
    decreases |ds|
  {
    if |ds| == 1 then ds[0]
    else
      var m := MinOf(ds[1..]);
      assert forall d :: d in ds ==> d == ds[0] || d in ds[1..];
      if ds[0] <= m then ds[0] else m
  }

  /** `Math.max(...ds)`. */
  function MaxOf(ds: seq<Day>): (m: Day)
    requires |ds| > 0
    ensures m in ds && forall d :: d in ds ==> d <= m
    decreases |ds|
  {
    if |ds| == 1 then ds[0]
    else
      var m := MaxOf(ds[1..]);
      assert forall d :: d in ds ==> d == ds[0] || d in ds[1..];
      if ds[0] >= m then ds[0] else m
  }

  /** A task carries a due date. */
  predicate Dated(t: CTask) {
    t.dueDate.DueAt?
  }

  /** The axis the effect sets: one day before the earliest due date to three
      days after the latest; from yesterday to a week ahead when no charted
      task has a due date (or there are no tasks). */
  function DateRange(tasks: Option<seq<CTask>>, today: Day): Range {
    AxisOf(Unique(tasks), today)
  }

  /** No charted task has a due date. */
  predicate AllUndated(us: seq<CTask>) {
    forall t :: t in us ==> !Dated(t)
  }

  /** Some charted task is due on `d`. */
  predicate SomeDueOn(us: seq<CTask>, d: Day) {
    exists t :: t in us && t.dueDate == DueAt(d)
  }

  /** Every due date lies in `[lo, hi]`. */
  predicate DueWithin(us: seq<CTask>, lo: Day, hi: Day) {
    forall t :: t in us && Dated(t) ==> lo <= t.dueDate.day <= hi
  }

  /** The axis for the charted tasks `us`: the earliest and latest due dates
      widened by one day before and three after. */
  function AxisOf(us: seq<CTask>, today: Day): (r: Range)
    ensures r.lo < r.hi
    ensures AllUndated(us) ==> r == Range(today - 1, today + 7)
    ensures DueWithin(us, r.lo + 1, r.hi - 3)
    ensures !AllUndated(us) ==> SomeDueOn(us, r.lo + 1) && SomeDueOn(us, r.hi - 3)
  {
    var ds := DueDays(us);
    if |ds| > 0 then
      var lo, hi := MinOf(ds), MaxOf(ds);
      DueDaysBound(us, lo, hi);
      Range(lo - 1, hi + 3)
    else
      NoDueDays(us);
      Range(today - 1, today + 7)
  }

  /** With no due day collected, no task is dated. */
  lemma NoDueDays(ts: seq<CTask>)
    requires DueDays(ts) == []
    ensures AllUndated(ts)
  {
  }

  /** Every due day lies between the least and the greatest collected, and
      both are some task's due date. */
  lemma DueDaysBound(ts: seq<CTask>, lo: Day, hi: Day)
    requires lo in DueDays(ts) && hi in DueDays(ts)
    requires forall d :: d in DueDays(ts) ==> lo <= d <= hi
    ensures DueWithin(ts, lo, hi) && SomeDueOn(ts, lo) && SomeDueOn(ts, hi)
    ensures !AllUndated(ts)
  {
    forall t | t in ts && Dated(t)
      ensures lo <= t.dueDate.day <= hi
    {
      assert t.dueDate.day in DueDays(ts);
    }
  }

  // ---------------------------------------------------------------- bars

  /** One row of `ganttData`. */
  datatype Bar = Bar(id: Id, name: string, start: Day, end: Day, duration: nat, status: string, priority: string)

  /** `value || fallback` on an optional string: '' is falsy too. */
  function OrDefault(v: Option<string>, fallback: string): (r: string)
    ensures v.Some? && v.value != "" ==> r == v.value
    ensures v.None? || v.value == "" ==> r == fallback
  {
    if v.Some? && v.value != "" then v.value else fallback
  }

  /** `` `未命名任务 ${index + 1}` ``. */
  function Placeholder(index: nat): string {
    "未命名任务 " + Text.NatToString(index + 1)
  }

  /** Different rows get different placeholder names. */
  lemma PlaceholdersDistinct(i: nat, j: nat)
    requires i != j
    ensures Placeholder(i) != Placeholder(j)
  {
    var p := "未命名任务 ";
    if Placeholder(i) == Placeholder(j) {
      assert Text.NatToString(i + 1) == Placeholder(i)[|p|..];
      assert Text.NatToString(j + 1) == Placeholder(j)[|p|..];
      Text.NatToStringValue(i + 1);
      Text.NatToStringValue(j + 1);
    }
  }

  /** `task.name`: the task document has no `name` field (models/Task.js
      names the task `title`), so it is always undefined. */
  function NameField(t: CTask): Option<string> {
    None
  }

  /** The bar name as the chart computes it, `task.name || placeholder`. */
  function BarNameAsWritten(t: CTask, index: nat): (name: string)
    ensures name == Placeholder(index)
  {
    OrDefault(NameField(t), Placeholder(index))
  }

  /** As written, no bar shows its task's title: the first bar of a task
      titled 写报告 reads 未命名任务 1. */
  lemma TitleNotShown()
    ensures var t := CTask("a", NoRef, NoRef, Some("写报告"), None, None, None, NoDue, []);
            BarNameAsWritten(t, 0) == "未命名任务 1" && BarNameAsWritten(t, 0) != t.title.value
  {
    assert Text.NatToString(1) == "1";
  }

  /** The bar name evidently intended: the task's title, else the placeholder. */
  function BarName(t: CTask, index: nat): (name: string)
    ensures t.title.Some? && t.title.value != "" ==> name == t.title.value
    ensures t.title.None? || t.title.value == "" ==> name == Placeholder(index)
  {
    OrDefault(t.title, Placeholder(index))
  }

  /** The bar's first day: the day before the due date, else today. */
  function StartDay(t: CTask, today: Day): (d: Day)
    ensures Dated(t) ==> d == t.dueDate.day - 1
    ensures !Dated(t) ==> d == today
  {
    if t.dueDate.DueAt? then t.dueDate.day - 1 else today
  }

  /** The bar's last day: the due date, else tomorrow. */
  function EndDay(t: CTask, today: Day): (d: Day)
    ensures Dated(t) ==> d == t.dueDate.day
    ensures !Dated(t) ==> d == today + 1
  {
    if t.dueDate.DueAt? then t.dueDate.day else today + 1
  }

  /** A bar spans exactly one day, ending on the due date when there is one. */
  lemma OneDayBar(t: CTask, today: Day)
    ensures EndDay(t, today) == StartDay(t, today) + 1
    ensures Dated(t) ==> EndDay(t, today) == t.dueDate.day
    ensures !Dated(t) ==> StartDay(t, today) == today
  {
  }

  /** The row of a task under a given name: one day ending on the due date,
      status and priority defaulting when falsy. */
  function BarOf(t: CTask, name: string, today: Day): (b: Bar)
    ensures b.id == t.id && b.name == name && b.duration == 1
    ensures b.end == b.start + 1
    ensures Dated(t) ==> b.end == t.dueDate.day
    ensures !Dated(t) ==> b.start == today
    ensures b.status == OrDefault(t.status, TaskModel.Todo) && b.priority == OrDefault(t.priority, TaskModel.Medium)
  {
    OneDayBar(t, today);
    Bar(t.id, name, StartDay(t, today), EndDay(t, today), 1,
        OrDefault(t.status, TaskModel.Todo), OrDefault(t.priority, TaskModel.Medium))
  }

  /** The bar of the `index`-th charted task, named as the chart names it. */
  function ToBar(t: CTask, index: nat, today: Day): (b: Bar)
    ensures b == BarOf(t, Placeholder(index), today)
  {
    BarOf(t, BarNameAsWritten(t, index), today)
  }

  /** `ganttData` after the effect: every bar carries its row's placeholder. */
  function GanttData(tasks: Option<seq<CTask>>, today: Day): (bars: seq<Bar>)
    ensures |bars| == |Unique(tasks)|
    ensures forall i :: 0 <= i < |bars| ==> bars[i] == ToBar(Unique(tasks)[i], i, today)
    ensures forall i :: 0 <= i < |bars| ==> bars[i].name == Placeholder(i)
  {
    var us := Unique(tasks);
    seq(|us|, i requires 0 <= i < |us| => ToBar(us[i], i, today))
  }

  /** The chart evidently intended: the same bars, named by `BarName`. */
  function GanttDataIntended(tasks: Option<seq<CTask>>, today: Day): (bars: seq<Bar>)
    ensures |bars| == |Unique(tasks)|
    ensures forall i :: 0 <= i < |bars| ==> bars[i] == BarOf(Unique(tasks)[i], BarName(Unique(tasks)[i], i), today)
  {
    var us := Unique(tasks);
    seq(|us|, i requires 0 <= i < |us| => BarOf(us[i], BarName(us[i], i), today))
  }

  /** The intended chart shows every titled task under its title, and differs
      from the chart as written in the names alone. */
  lemma IntendedShowsTitles(tasks: Option<seq<CTask>>, today: Day, i: nat)
    requires i < |GanttDataIntended(tasks, today)|
    ensures var t := Unique(tasks)[i];
            t.title.Some? && t.title.value != "" ==> GanttDataIntended(tasks, today)[i].name == t.title.value
    ensures GanttDataIntended(tasks, today)[i] == GanttData(tasks, today)[i].(name := GanttDataIntended(tasks, today)[i].name)
  {
  }

  /** The ids of the bars. */
  function BarIds(bars: seq<Bar>): (r: seq<Id>)
    ensures |r| == |bars| && forall i :: 0 <= i < |bars| ==> r[i] == bars[i].id
  {
    seq(|bars|, i requires 0 <= i < |bars| => bars[i].id)
  }

  /** One bar per distinct task id: no id twice, and every id of the input. */
  lemma OneBarPerTask(tasks: Option<seq<CTask>>, today: Day)
    ensures Seqs.Distinct(BarIds(GanttData(tasks, today)))
    ensures tasks.Some? ==> Seqs.Elements(BarIds(GanttData(tasks, today))) == Seqs.Elements(Ids(tasks.value))
  {
    var us := Unique(tasks);
    assert BarIds(GanttData(tasks, today)) == Ids(us);
  }

  /** As written, no two bars share a name. */
  lemma NamesDistinct(tasks: Option<seq<CTask>>, today: Day, i: nat, j: nat)
    requires i < j < |GanttData(tasks, today)|
    ensures GanttData(tasks, today)[i].name != GanttData(tasks, today)[j].name
  {
    PlaceholdersDistinct(i, j);
  }

  /** In the intended chart, untitled bars never share a name. */
  lemma UntitledNamesDistinct(tasks: Option<seq<CTask>>, today: Day, i: nat, j: nat)
    requires i < j < |GanttDataIntended(tasks, today)|
    requires var us := Unique(tasks); us[i].title.GetOr("") == "" && us[j].title.GetOr("") == ""
    ensures GanttDataIntended(tasks, today)[i].name != GanttDataIntended(tasks, today)[j].name
  {
    PlaceholdersDistinct(i, j);
  }

  /** The bar of a dated task lies on the axis. */
  lemma DatedBarsOnAxis(tasks: Option<seq<CTask>>, today: Day, i: nat)
    requires i < |GanttData(tasks, today)| && Dated(Unique(tasks)[i])
    ensures var r := DateRange(tasks, today);
            var b := GanttData(tasks, today)[i];
            r.lo <= b.start && b.end <= r.hi
  {
    assert Unique(tasks)[i] in Unique(tasks);
  }

  /** When no charted task is dated, every bar lies on the default axis. */
  lemma UndatedBarsOnDefaultAxis(tasks: Option<seq<CTask>>, today: Day, i: nat)
    requires i < |GanttData(tasks, today)|
    requires AllUndated(Unique(tasks))
    ensures var r := DateRange(tasks, today);
            var b := GanttData(tasks, today)[i];
            r.lo <= b.start && b.end <= r.hi
  {
    assert Unique(tasks)[i] in Unique(tasks);
  }

  // ---------------------------------------------------------------- ticks

  /** `generateTicks`: every day from `minDate` to `maxDate` inclusive, none
      before the effect has set the axis. */
  method GenerateTicks(axis: Option<Range>) returns (ticks: seq<Day>)
    ensures axis.None? ==> ticks == []
    ensures axis.Some? ==> |ticks| == if axis.value.lo <= axis.value.hi then axis.value.hi - axis.value.lo + 1 else 0
    ensures axis.Some? ==> forall k :: 0 <= k < |ticks| ==> ticks[k] == axis.value.lo + k
  {
    if axis.None? {
      return [];
    }
    var lo, hi := axis.value.lo, axis.value.hi;
    ticks := [];
    var current := lo;
    while current < hi + 1
      invariant lo <= current
      invariant lo <= hi + 1 ==> current <= hi + 1
      invariant hi < lo ==> current == lo
      invariant |ticks| == current - lo
      invariant forall k :: 0 <= k < |ticks| ==> ticks[k] == lo + k
      decreases hi + 1 - current
    {
      ticks := ticks + [current];
      current := current + 1;
    }
  }

  /** A day is a tick exactly when it lies on the axis. */
  lemma TicksAreAxisDays(r: Range, ticks: seq<Day>, d: Day)
    requires r.lo <= r.hi
    requires |ticks| == r.hi - r.lo + 1 && forall k :: 0 <= k < |ticks| ==> ticks[k] == r.lo + k
    ensures d in ticks <==> r.lo <= d <= r.hi
  {
    if r.lo <= d <= r.hi {
      assert ticks[d - r.lo] == d;
    }
  }
}

=== FILE: task_list.dfy ===
/** The pure logic of the task-list component (client/src/components/TaskList.js):
    the parent/child tree, pagination and row selection, the client side of the
    batch actions, CSV import and the priority label of the sub-task cards. */
module TaskList {
  import opened Wrappers
  import Seqs
  import Text
  import opened ClientTask
  import TaskModel
  import TaskRoutes

  // ---------------------------------------------------------------- tree

  /** The tree as the component builds it: the ids of the root rows, and for
      every task id the ids of its `children`, in the order they were pushed. */
  datatype Tree = Tree(roots: seq<Id>, children: map<Id, seq<Id>>)

  /** The ids present in the list. */
  function AllIds(ts: seq<CTask>): set<Id> {
    Seqs.Elements(Ids(ts))
  }

  /** A task is a root when it names no parent or a parent absent from the list. */
  function IsRoot(ids: set<Id>): CTask -> bool {
    (t: CTask) => ParentId(t).None? || ParentId(t).value !in ids
  }

  function IsChildOf(p: Id): CTask -> bool {
    (t: CTask) => ParentId(t) == Some(p)
  }

  /** The reference definition of the roots: the root tasks in input order. */
  function RootIds(ts: seq<CTask>, ids: set<Id>): seq<Id> {
    Ids(Seqs.Filter(ts, IsRoot(ids)))
  }

  /** The reference definition of a node's children: the tasks naming it, in input order. */
  function ChildIds(ts: seq<CTask>, p: Id): seq<Id> {
    Ids(Seqs.Filter(ts, IsChildOf(p)))
  }

  /** Appending a task extends the roots by its id exactly when it is a root. */
  lemma RootIdsSnoc(ts: seq<CTask>, t: CTask, ids: set<Id>)
    ensures RootIds(ts + [t], ids) == RootIds(ts, ids) + (if IsRoot(ids)(t) then [t.id] else [])
  {
    Seqs.FilterSnoc(ts, t, IsRoot(ids));
    IdsAppend(Seqs.Filter(ts, IsRoot(ids)), if IsRoot(ids)(t) then [t] else []);
  }

  /** Appending a task extends its parent's children by its id and no other node's. */
  lemma ChildIdsSnoc(ts: seq<CTask>, t: CTask, p: Id)
    ensures ChildIds(ts + [t], p) == ChildIds(ts, p) + (if ParentId(t) == Some(p) then [t.id] else [])
  {
    Seqs.FilterSnoc(ts, t, IsChildOf(p));
    IdsAppend(Seqs.Filter(ts, IsChildOf(p)), if IsChildOf(p)(t) then [t] else []);
  }

  /** After the tasks `pre` have been placed: the roots and every node's
      children are the reference ones over `pre`, and there is a node per id. */
  predicate Built(roots: seq<Id>, children: map<Id, seq<Id>>, pre: seq<CTask>, ids: set<Id>) {
    && roots == RootIds(pre, ids)
    && children.Keys == ids
    && forall p :: p in children ==> children[p] == ChildIds(pre, p)
  }

  /** Placing a task whose parent is listed under that parent's node keeps
      the tree built over the longer prefix. */
  lemma PlaceUnder(roots: seq<Id>, children: map<Id, seq<Id>>, pre: seq<CTask>, ids: set<Id>, t: CTask)
    requires Built(roots, children, pre, ids)
    requires ParentId(t).Some? && ParentId(t).value in children
    ensures var q := ParentId(t).value;
            Built(roots, children[q := children[q] + [t.id]], pre + [t], ids)
  {
    var q := ParentId(t).value;
    var c := children[q := children[q] + [t.id]];
    RootIdsSnoc(pre, t, ids);
    assert c.Keys == ids;
    forall p | p in c
      ensures c[p] == ChildIds(pre + [t], p)
    {
      ChildIdsSnoc(pre, t, p);
    }
  }

  /** Placing any other task onto the roots keeps the tree built over the
      longer prefix. */
  lemma PlaceRoot(roots: seq<Id>, children: map<Id, seq<Id>>, pre: seq<CTask>, ids: set<Id>, t: CTask)
    requires Built(roots, children, pre, ids)
    requires !(ParentId(t).Some? && ParentId(t).value in children)
    ensures Built(roots + [t.id], children, pre + [t], ids)
  {
    RootIdsSnoc(pre, t, ids);
    forall p | p in children
      ensures ChildIds(pre + [t], p) == ChildIds(pre, p)
    {
      ChildIdsSnoc(pre, t, p);
    }
  }

  lemma SliceSnoc<T>(s: seq<T>, i: nat)
    requires i < |s|
    ensures s[..i + 1] == s[..i] + [s[i]]
  {
  }

  /** `buildTreeData`: one node per id, then a single pass that pushes every
      task either under its parent's node or onto the roots. */
  method BuildTreeData(tasks: Option<seq<CTask>>) returns (tree: Tree)
    ensures tasks.None? ==> tree == Tree([], map[])
    ensures tasks.Some? ==> tree.roots == RootIds(tasks.value, AllIds(tasks.value))
    ensures tasks.Some? ==> tree.children.Keys == AllIds(tasks.value)
    ensures tasks.Some? ==> forall p :: p in tree.children ==> tree.children[p] == ChildIds(tasks.value, p)
  {
    if tasks.None? {
      return Tree([], map[]);
    }
    var ts := tasks.value;
    var ids := AllIds(ts);
    var roots: seq<Id> := [];
    var children: map<Id, seq<Id>> := map p | p in ids :: [];
    for i := 0 to |ts|
      invariant Built(roots, children, ts[..i], ids)
    {
      var t := ts[i];
      SliceSnoc(ts, i);
      var parent := ParentId(t);
      if parent.Some? && parent.value in children {
        PlaceUnder(roots, children, ts[..i], ids, t);
        children := children[parent.value := children[parent.value] + [t.id]];
      } else {
        PlaceRoot(roots, children, ts[..i], ids, t);
        roots := roots + [t.id];
      }
    }
    assert ts[..|ts|] == ts;
    return Tree(roots, children);
  }

  /** A task that passes a filter keeps its id in the filtered ids. */
  lemma FilteredIdsKeep(ts: seq<CTask>, f: CTask -> bool, i: nat)
    requires i < |ts|
    ensures f(ts[i]) ==> ts[i].id in Ids(Seqs.Filter(ts, f))
  {
    var r := Seqs.Filter(ts, f);
    if f(ts[i]) {
      var k :| 0 <= k < |r| && r[k] == ts[i];
      assert Ids(r)[k] == ts[i].id;
    }
  }

  /** With distinct ids, a task whose id survives a filter passes it. */
  lemma FilteredIdsOnly(ts: seq<CTask>, f: CTask -> bool, i: nat)
    requires Seqs.Distinct(Ids(ts)) && i < |ts|
    ensures ts[i].id in Ids(Seqs.Filter(ts, f)) ==> f(ts[i])
  {
    if ts[i].id in Ids(Seqs.Filter(ts, f)) {
      var j := FilteredIdsWitness(ts, f, ts[i].id);
      assert Ids(ts)[j] == Ids(ts)[i];
    }
  }

  /** With distinct ids a task's id survives a filter exactly when the task passes it. */
  lemma InFilteredIds(ts: seq<CTask>, f: CTask -> bool, i: nat)
    requires Seqs.Distinct(Ids(ts)) && i < |ts|
    ensures ts[i].id in Ids(Seqs.Filter(ts, f)) <==> f(ts[i])
  {
    FilteredIdsKeep(ts, f, i);
    FilteredIdsOnly(ts, f, i);
  }

  /** With distinct ids every task is placed exactly once: the roots and each
      child list hold no id twice, a root is among the roots and under no node,
      and any other task is under its parent's node only, not among the roots. */
  lemma PlacedExactlyOnce(ts: seq<CTask>, i: nat)
    requires Seqs.Distinct(Ids(ts)) && i < |ts|
    ensures Seqs.Distinct(RootIds(ts, AllIds(ts)))
    ensures forall p :: Seqs.Distinct(ChildIds(ts, p))
    ensures ts[i].id in RootIds(ts, AllIds(ts)) <==> IsRoot(AllIds(ts))(ts[i])
    ensures forall p :: ts[i].id in ChildIds(ts, p) <==> ParentId(ts[i]) == Some(p)
    ensures IsRoot(AllIds(ts))(ts[i]) || ParentId(ts[i]).value in AllIds(ts)
  {
    FilteredIdsDistinct(ts, IsRoot(AllIds(ts)));
    InFilteredIds(ts, IsRoot(AllIds(ts)), i);
    forall p
      ensures Seqs.Distinct(ChildIds(ts, p))
      ensures ts[i].id in ChildIds(ts, p) <==> ParentId(ts[i]) == Some(p)
    {
      FilteredIdsDistinct(ts, IsChildOf(p));
      InFilteredIds(ts, IsChildOf(p), i);
    }
  }

  /** Two tasks that name each other as parent are never roots, so neither
      is reachable from the rows the table shows. */
  lemma CycleIsHidden(ts: seq<CTask>, a: nat, b: nat)
    requires Seqs.Distinct(Ids(ts)) && a < |ts| && b < |ts|
    requires ParentId(ts[a]) == Some(ts[b].id) && ParentId(ts[b]) == Some(ts[a].id)
    ensures ts[a].id !in RootIds(ts, AllIds(ts)) && ts[b].id !in RootIds(ts, AllIds(ts))
  {
    assert Ids(ts)[a] == ts[a].id && Ids(ts)[b] == ts[b].id;
    InFilteredIds(ts, IsRoot(AllIds(ts)), a);
    InFilteredIds(ts, IsRoot(AllIds(ts)), b);
  }

  // ---------------------------------------------------------------- pagination

  /** `currentPageTaskIds`: the root ids shown on a page; the pagination
      control supplies a page number and page size of at least 1. */
  function PageIds(roots: seq<Id>, page: int, size: int): (r: seq<Id>)
    requires page >= 1 && size >= 1
    ensures |r| <= size
    ensures r == roots[Seqs.Min((page - 1) * size, |roots|)..Seqs.Min(page * size, |roots|)]
  {
    var start := (page - 1) * size;
    if |roots| == 0 || start >= |roots| then []
    else roots[start..Seqs.Min(start + size, |roots|)]
  }

  /** The first `n` pages one after the other. */
  function FirstPages(roots: seq<Id>, n: nat, size: int): seq<Id>
    requires size >= 1
  {
    if n == 0 then [] else FirstPages(roots, n - 1, size) + PageIds(roots, n, size)
  }

  /** Paging neither drops nor repeats a root: the first `n` pages spell out the
      first `n * size` roots. */
  lemma {:induction false} PagesCover(roots: seq<Id>, n: nat, size: int)
    requires size >= 1
    ensures FirstPages(roots, n, size) == roots[..Seqs.Min(n * size, |roots|)]
  {
    if n > 0 {
      PagesCover(roots, n - 1, size);
      var a := Seqs.Min((n - 1) * size, |roots|);
      var b := Seqs.Min(n * size, |roots|);
      assert (n - 1) * size <= n * size;
      assert roots[..a] + roots[a..b] == roots[..b];
    }
  }

  /** `isCurrentPageSelected`: every id on the page is selected and the page is not empty. */
  function IsPageSelected(page: seq<Id>, selected: seq<Id>): (r: bool)
    ensures r <==> page != [] && Seqs.Elements(page) <= Seqs.Elements(selected)
  {
    SubsetByIndex(page, selected);
    (forall i :: 0 <= i < |page| ==> page[i] in selected) && |page| > 0
  }

  lemma SubsetByIndex<T>(a: seq<T>, b: seq<T>)
    ensures (forall i :: 0 <= i < |a| ==> a[i] in b) <==> Seqs.Elements(a) <= Seqs.Elements(b)
  {
    if forall i :: 0 <= i < |a| ==> a[i] in b {
      forall x | x in Seqs.Elements(a)
        ensures x in Seqs.Elements(b)
      {
        var i :| 0 <= i < |a| && a[i] == x;
      }
    }
    if Seqs.Elements(a) <= Seqs.Elements(b) {
      forall i | 0 <= i < |a|
        ensures a[i] in b
      {
        assert a[i] in Seqs.Elements(a);
      }
    }
  }

  /** The header checkbox when checked: `Array.from(new Set([...selected, ...page]))`. */
  function SelectPage(selected: seq<Id>, page: seq<Id>): (r: seq<Id>)
    ensures Seqs.Distinct(r)
    ensures Seqs.Elements(r) == Seqs.Elements(selected) + Seqs.Elements(page)
  {
    assert Seqs.Elements(selected + page) == Seqs.Elements(selected) + Seqs.Elements(page);
    Seqs.Dedup(selected + page)
  }

  /** The header checkbox when cleared: the selection without the page ids. */
  function DeselectPage(selected: seq<Id>, page: seq<Id>): (r: seq<Id>)
    ensures forall id :: id in r <==> id in selected && id !in page
    ensures Seqs.IsSubsequence(r, selected)
  {
    Seqs.Filter(selected, (id: Id) => id !in page)
  }

  /** A row checkbox: `checked` is the new state of the box. */
  function ToggleRow(selected: seq<Id>, id: Id, checked: bool): (r: seq<Id>)
    ensures checked ==> Seqs.Elements(r) == Seqs.Elements(selected) + {id}
    ensures !checked ==> forall x :: x in r <==> x in selected && x != id
  {
    if checked then selected + [id] else Seqs.Filter(selected, (x: Id) => x != id)
  }

  /** Selecting a nonempty page makes it count as selected. */
  lemma SelectPageSelectsIt(selected: seq<Id>, page: seq<Id>)
    requires page != []
    ensures IsPageSelected(page, SelectPage(selected, page))
  {
  }

  /** Selecting a page and clearing it again restores a duplicate-free
      selection that shared no id with the page. */
  lemma SelectThenDeselect(selected: seq<Id>, page: seq<Id>)
    requires Seqs.Distinct(selected)
    requires forall id :: id in selected ==> id !in page
    ensures DeselectPage(SelectPage(selected, page), page) == selected
  {
    var f := (id: Id) => id !in page;
    Seqs.DedupAppend(selected, page);
    Seqs.DedupOfDistinct(selected);
    var d := Seqs.Dedup(selected + page);
    var front := d[..|selected|];
    var back := d[|selected|..];
    assert d == front + back;
    Seqs.FilterAppend(front, back, f);
    Seqs.FilterKeepsAll(selected, f);
    NoneKept(back, f);
  }

  /** A filter that keeps nothing gives the empty sequence. */
  lemma {:induction false} NoneKept<T>(s: seq<T>, f: T -> bool)
    requires forall i :: 0 <= i < |s| ==> !f(s[i])
    ensures Seqs.Filter(s, f) == []
    decreases |s|
  {
    if |s| > 0 {
      NoneKept(s[1..], f);
    }
  }

  /** The checkbox handlers keep the selection free of duplicates: a row box
      is only ever checked while its id is unselected. */
  lemma SelectionStaysDistinct(selected: seq<Id>, page: seq<Id>, id: Id, checked: bool)
    requires Seqs.Distinct(selected)
    requires checked ==> id !in selected
    ensures Seqs.Distinct(SelectPage(selected, page))
    ensures Seqs.Distinct(DeselectPage(selected, page))
    ensures Seqs.Distinct(ToggleRow(selected, id, checked))
  {
    Seqs.FilterDistinct(selected, (x: Id) => x !in page);
    Seqs.FilterDistinct(selected, (x: Id) => x != id);
  }

  // ---------------------------------------------------------------- batch actions

  /** The selected ids the client would let the user act on: present in the
      list (first match) and owned. */
  function Actionable(tasks: seq<CTask>, me: UserId): Id -> bool {
    (id: Id) => Find(tasks, id).Some? && OwnedBy(Find(tasks, id).value, me)
  }

  function Unknown(tasks: seq<CTask>): Id -> bool {
    (id: Id) => Find(tasks, id).None?
  }

  /** Reading `task.user._id` throws for a selected task without `user`. */
  predicate Crashes(tasks: seq<CTask>, selected: seq<Id>) {
    exists i :: 0 <= i < |selected| && Find(tasks, selected[i]).Some? && Find(tasks, selected[i]).value.user.NoRef?
  }

  datatype DeletePlan =
    | NoSelection
    | LoggedOut
    | DeleteCrashed
    | NoneDeletable(missing: seq<Id>)
    | SendDelete(ids: seq<Id>, missing: seq<Id>, remaining: seq<CTask>)

  /** `batchDeleteTasks` up to the request: the selected ids split into those
      to send (present and owned), those reported missing, and those silently
      dropped; `remaining` is the list shown after the server has agreed. */
  function PlanBatchDelete(tasks: seq<CTask>, selected: seq<Id>, me: Option<UserId>): (r: DeletePlan)
    ensures r.NoSelection? <==> selected == []
    ensures r.LoggedOut? <==> selected != [] && me.None?
    ensures r.DeleteCrashed? <==> selected != [] && me.Some? && Crashes(tasks, selected)
    ensures r.SendDelete? ==>
              && me.Some?
              && r.ids != []
              && Seqs.IsSubsequence(r.ids, selected)
              && (forall id :: id in r.ids <==> id in selected && Actionable(tasks, me.value)(id))
              && (forall id :: id in r.missing <==> id in selected && id !in Ids(tasks))
              && (forall t :: t in r.remaining <==> t in tasks && t.id !in r.ids)
    ensures r.NoneDeletable? ==> me.Some? && forall id :: id in selected ==> !Actionable(tasks, me.value)(id)
  {
    if selected == [] then NoSelection
    else if me.None? then LoggedOut
    else if Crashes(tasks, selected) then DeleteCrashed
    else
      var ids := Seqs.Filter(selected, Actionable(tasks, me.value));
      var missing := Seqs.Filter(selected, Unknown(tasks));
      if ids == [] then
        Seqs.FilterEmpty(selected, Actionable(tasks, me.value));
        NoneDeletable(missing)
      else SendDelete(ids, missing, Seqs.Filter(tasks, (t: CTask) => t.id !in ids))
  }

  /** The client list mirrors the server: every listed task exists there and
      carries its owner, populated. */
  predicate Mirrors(tasks: seq<CTask>, store: TaskModel.Store) {
    forall i :: 0 <= i < |tasks| ==>
      tasks[i].id in store && tasks[i].user == Populated(store[tasks[i].id].owner)
  }

  /** In a mirrored list, an id the client lets the user act on is stored
      and owned by the user. */
  lemma ActionableOwned(tasks: seq<CTask>, me: UserId, store: TaskModel.Store, id: Id)
    requires Mirrors(tasks, store) && Actionable(tasks, me)(id)
    ensures id in store && store[id].owner == me
  {
    var t := Find(tasks, id).value;
    var j :| 0 <= j < |tasks| && tasks[j] == t;
    assert tasks[j].user == Populated(store[tasks[j].id].owner);
  }

  /** The tasks a list keeps after the server dropped some ids still mirror the server. */
  lemma KeptMirror(tasks: seq<CTask>, store: TaskModel.Store, gone: set<Id>, kept: seq<CTask>)
    requires Mirrors(tasks, store)
    requires forall t :: t in kept ==> t in tasks && t.id !in gone
    ensures Mirrors(kept, store - gone)
  {
    forall i | 0 <= i < |kept|
      ensures kept[i].id in store - gone
      ensures kept[i].user == Populated((store - gone)[kept[i].id].owner)
    {
      assert kept[i] in kept;
      var j :| 0 <= j < |tasks| && tasks[j] == kept[i];
    }
  }

  /** When the list mirrors the server, the batch the client sends is accepted
      and the list it keeps showing still mirrors the server. */
  lemma ClientBatchDeleteAccepted(tasks: seq<CTask>, selected: seq<Id>, me: UserId, store: TaskModel.Store)
    requires Mirrors(tasks, store)
    requires PlanBatchDelete(tasks, selected, Some(me)).SendDelete?
    ensures var plan := PlanBatchDelete(tasks, selected, Some(me));
            var r := TaskRoutes.BatchDelete(store, me, Some(plan.ids));
            && r.code == TaskRoutes.OK
            && Mirrors(plan.remaining, r.store)
  {
    var plan := PlanBatchDelete(tasks, selected, Some(me));
    forall id | id in plan.ids
      ensures id in store && store[id].owner == me
    {
      ActionableOwned(tasks, me, store, id);
    }
    KeptMirror(tasks, store, Seqs.Elements(plan.ids), plan.remaining);
  }

  /** When the list mirrors the server, a single delete the list sends is
      accepted, and the list it keeps showing still mirrors the server. */
  lemma ClientDeleteAccepted(tasks: seq<CTask>, me: UserId, id: Id, store: TaskModel.Store)
    requires Mirrors(tasks, store)
    requires DeleteLocal(tasks, Some(me), id).Sent?
    ensures TaskRoutes.DeleteTask(store, me, id).code == TaskRoutes.OK
    ensures Mirrors(DeleteLocal(tasks, Some(me), id).remaining, TaskRoutes.DeleteTask(store, me, id).store)
  {
    ActionableOwned(tasks, me, store, id);
    KeptMirror(tasks, store, {id}, DeleteLocal(tasks, Some(me), id).remaining);
  }

  datatype StatusPlan =
    | NoStatusSelection
    | StatusLoggedOut
    | StatusCrashed
    | NoneEditable
    | SendStatus(ids: seq<Id>, updated: seq<CTask>)

  /** `batchUpdateStatus` up to the request, and the list it shows afterwards. */
  function PlanBatchStatus(tasks: seq<CTask>, selected: seq<Id>, me: Option<UserId>, status: string): (r: StatusPlan)
    ensures r.NoStatusSelection? <==> selected == []
    ensures r.StatusLoggedOut? <==> selected != [] && me.None?
    ensures r.StatusCrashed? <==> selected != [] && me.Some? && Crashes(tasks, selected)
    ensures r.NoneEditable? ==> me.Some? && forall id :: id in selected ==> !Actionable(tasks, me.value)(id)
    ensures r.SendStatus? ==>
              && me.Some? && r.ids != []
              && Seqs.IsSubsequence(r.ids, selected)
              && (forall id :: id in r.ids <==> id in selected && Actionable(tasks, me.value)(id))
              && |r.updated| == |tasks|
              && (forall i :: 0 <= i < |tasks| ==>
                    r.updated[i] == (if tasks[i].id in r.ids then tasks[i].(status := Some(status)) else tasks[i]))
  {
    if selected == [] then NoStatusSelection
    else if me.None? then StatusLoggedOut
    else if Crashes(tasks, selected) then StatusCrashed
    else
      var ids := Seqs.Filter(selected, Actionable(tasks, me.value));
      if ids == [] then
        Seqs.FilterEmpty(selected, Actionable(tasks, me.value));
        NoneEditable
      else
        SendStatus(ids, seq(|tasks|, i requires 0 <= i < |tasks| =>
                              if tasks[i].id in ids then tasks[i].(status := Some(status)) else tasks[i]))
  }

  /** With a duplicate-free selection over a mirrored list and a valid status,
      the server accepts the batch and stores the status the client shows. */
  lemma ClientBatchStatusAccepted(tasks: seq<CTask>, selected: seq<Id>, me: UserId, status: string, store: TaskModel.Store)
    requires Mirrors(tasks, store)
    requires Seqs.Distinct(selected)
    requires status in TaskModel.Statuses
    requires PlanBatchStatus(tasks, selected, Some(me), status).SendStatus?
    ensures var plan := PlanBatchStatus(tasks, selected, Some(me), status);
            var r := TaskRoutes.BatchStatus(store, me, Some(plan.ids), Some(status));
            && r.code == TaskRoutes.OK
            && forall i :: 0 <= i < |tasks| && tasks[i].id in plan.ids ==>
                 r.store[tasks[i].id].status == status && plan.updated[i].status == Some(status)
  {
    var plan := PlanBatchStatus(tasks, selected, Some(me), status);
    Seqs.FilterDistinct(selected, Actionable(tasks, me));
    forall id | id in plan.ids
      ensures id in store && store[id].owner == me
    {
      ActionableOwned(tasks, me, store, id);
    }
    TaskRoutes.BatchStatusAcceptsExactly(store, me, plan.ids, status);
  }

  /** A selection holding one id twice is sent as it is, and the server
      refuses it. The page and row toggles never build such a selection
      (`SelectionStaysDistinct`), so this concerns a selection set some
      other way. */
  lemma ClientBatchStatusDuplicateRefused(tasks: seq<CTask>, me: UserId, a: Id, store: TaskModel.Store)
    requires Mirrors(tasks, store)
    requires a in Ids(tasks) && Find(tasks, a).value.user == Populated(me)
    ensures var plan := PlanBatchStatus(tasks, [a, a], Some(me), TaskModel.Done);
            && plan.SendStatus? && plan.ids == [a, a]
            && TaskRoutes.BatchStatus(store, me, Some(plan.ids), Some(TaskModel.Done)).code == TaskRoutes.Forbidden
  {
    assert Actionable(tasks, me)(a);
    ActionableOwned(tasks, me, store, a);
    assert !Crashes(tasks, [a, a]);
    assert Seqs.Filter([a, a], Actionable(tasks, me)) == [a, a];
    TaskRoutes.BatchStatusRejectsDuplicates(store, me, a);
  }

  // ---------------------------------------------------------------- CSV import

  /** A parsed row: header name to field text. */
  type Record = map<string, string>

  /** The map built by setting `ks[i] := vs[i]` for every `i` in order. */
  function ZipMap<K, V>(ks: seq<K>, vs: seq<V>): (m: map<K, V>)
    requires |ks| == |vs|
    ensures forall i :: 0 <= i < |ks| ==> ks[i] in m
    decreases |ks|
  {
    if |ks| == 0 then map[]
    else
      var n := |ks| - 1;
      ZipMap(ks[..n], vs[..n])[ks[n] := vs[n]]
  }

  /** The keys of a zipped map are the keys listed. */
  lemma {:induction false} ZipMapKeys<K, V>(ks: seq<K>, vs: seq<V>)
    requires |ks| == |vs|
    ensures ZipMap(ks, vs).Keys == Seqs.Elements(ks)
    decreases |ks|
  {
    if |ks| > 0 {
      var n := |ks| - 1;
      ZipMapKeys(ks[..n], vs[..n]);
      assert ks == ks[..n] + [ks[n]];
    }
  }

  /** Under a key that no later position repeats the zipped map holds that
      position's value: the last assignment wins. */
  lemma {:induction false} ZipMapValue<K, V>(ks: seq<K>, vs: seq<V>, i: nat)
    requires |ks| == |vs| && i < |ks|
    requires forall j :: i < j < |ks| ==> ks[j] != ks[i]
    ensures ZipMap(ks, vs)[ks[i]] == vs[i]
    decreases |ks|
  {
    var n := |ks| - 1;
    if i < n {
      assert ks[..n][i] == ks[i] && vs[..n][i] == vs[i];
      ZipMapValue(ks[..n], vs[..n], i);
    }
  }

  /** Every value of a zipped map is one of the values listed. */
  lemma {:induction false} ZipMapValues<K, V>(ks: seq<K>, vs: seq<V>, k: K)
    requires |ks| == |vs| && k in ZipMap(ks, vs)
    ensures ZipMap(ks, vs)[k] in vs
    decreases |ks|
  {
    var n := |ks| - 1;
    if k != ks[n] {
      ZipMapValues(ks[..n], vs[..n], k);
    }
  }

  /** `values[index]?.trim() || ''`. */
  function FieldAt(values: seq<string>, i: nat): (r: string)
    ensures i >= |values| ==> r == ""
  {
    if i < |values| then Text.Trim(values[i]) else ""
  }

  /** The fields of the first `n` columns. */
  function Fields(values: seq<string>, n: nat): (fs: seq<string>)
    ensures |fs| == n
  {
    seq(n, i requires 0 <= i < n => FieldAt(values, i))
  }

  /** The object one line becomes: `task[header.trim()] = field` for every
      header in order, so a later duplicate header overwrites an earlier one. */
  function RecordOf(headers: seq<string>, values: seq<string>): Record {
    ZipMap(Text.TrimAll(headers), Fields(values, |headers|))
  }

  /** `text.split('\n')`. */
  function Lines(text: string): (r: seq<string>)
    ensures |r| >= 1
  {
    Text.Split(text, {'\n'})
  }

  /** The lines after the header that are not blank, in order. */
  function DataLines(text: string): (r: seq<string>)
    ensures forall l :: l in r <==> l in Lines(text)[1..] && Text.Trim(l) != ""
    ensures Seqs.IsSubsequence(r, Lines(text)[1..])
  {
    Seqs.Filter(Lines(text)[1..], (line: string) => Text.Trim(line) != "")
  }

  /** The header cells of the first line. */
  function Headers(text: string): seq<string> {
    Text.Split(Lines(text)[0], {','})
  }

  /** The CSV branch of the import: one record per nonblank line after the
      header line, keyed by the trimmed headers of the first line. */
  function ParseCsv(text: string): (rows: seq<Record>)
    ensures |rows| == |DataLines(text)|
  {
    var data := DataLines(text);
    seq(|data|, i requires 0 <= i < |data| => RecordOf(Headers(text), Text.Split(data[i], {','})))
  }

  /** Row `i` of the import has one key per trimmed header; under a header no
      later header repeats it holds that column of the `i`-th nonblank data
      line, trimmed, or the empty string when the line is shorter. */
  lemma ParseCsvRow(text: string, i: nat, col: nat)
    requires i < |DataLines(text)|
    requires col < |Headers(text)|
    requires forall j :: col < j < |Headers(text)| ==> Text.Trim(Headers(text)[j]) != Text.Trim(Headers(text)[col])
    ensures ParseCsv(text)[i].Keys == Seqs.Elements(Text.TrimAll(Headers(text)))
    ensures var values := Text.Split(DataLines(text)[i], {','});
            ParseCsv(text)[i][Text.Trim(Headers(text)[col])] ==
              (if col < |values| then Text.Trim(values[col]) else "")
  {
    var headers := Headers(text);
    var values := Text.Split(DataLines(text)[i], {','});
    var ks := Text.TrimAll(headers);
    var vs := Fields(values, |headers|);
    ParseCsvRecord(text, i);
    ZipMapKeys(ks, vs);
    ZipMapValue(ks, vs, col);
  }

  /** A field cut from a comma-split line has no surrounding whitespace and no comma. */
  lemma FieldClean(line: string, c: nat)
    ensures var f := FieldAt(Text.Split(line, {','}), c);
            Text.IsTrimmed(f) && forall j :: 0 <= j < |f| ==> f[j] != ','
  {
    var values := Text.Split(line, {','});
    if c < |values| {
      var v := values[c];
      assert forall j :: 0 <= j < |v| ==> v[j] !in {','};
      Text.TrimAvoids(v, {','});
      assert FieldAt(values, c) == Text.Trim(v);
    }
  }

  /** No field of an imported row contains a comma, and none has surrounding
      whitespace. */
  lemma ParseCsvFieldsClean(text: string, i: nat, k: string)
    requires i < |DataLines(text)| && k in ParseCsv(text)[i]
    ensures CleanField(ParseCsv(text)[i][k])
  {
    var line := DataLines(text)[i];
    ParseCsvRecord(text, i);
    RecordFieldsClean(Headers(text), line, k);
  }

  /** Row `i` is the record of the `i`-th nonblank data line. */
  lemma ParseCsvRecord(text: string, i: nat)
    requires i < |DataLines(text)|
    ensures ParseCsv(text)[i] == RecordOf(Headers(text), Text.Split(DataLines(text)[i], {','}))
  {
  }

  /** A field with no surrounding whitespace and no comma. */
  predicate CleanField(f: string) {
    Text.IsTrimmed(f) && forall j :: 0 <= j < |f| ==> f[j] != ','
  }

  /** The fields of the record built from one line are clean. */
  lemma RecordFieldsClean(headers: seq<string>, line: string, k: string)
    requires k in RecordOf(headers, Text.Split(line, {','}))
    ensures CleanField(RecordOf(headers, Text.Split(line, {','}))[k])
  {
    var ks := Text.TrimAll(headers);
    var vs := Fields(Text.Split(line, {','}), |headers|);
    ZipMapValues(ks, vs, k);
    var c :| 0 <= c < |vs| && vs[c] == ZipMap(ks, vs)[k];
    FieldClean(line, c);
  }

  /** A trailing newline adds a blank line, which the import skips. */
  lemma TrailingNewlineIgnored(text: string)
    ensures ParseCsv(text + "\n") == ParseCsv(text)
  {
    Text.SplitTrailingSeparator(text, '\n', {'\n'});
    var lines := Lines(text);
    assert Lines(text + "\n") == lines + [""];
    assert (lines + [""])[1..] == lines[1..] + [""];
    Seqs.FilterSnoc(lines[1..], "", (line: string) => Text.Trim(line) != "");
    assert (lines + [""])[0] == lines[0];
  }

  /** The body `handleImport` posts for one row. */
  datatype ImportBody = ImportBody(
    title: string,
    description: string,
    status: string,
    priority: string,
    dueDate: TaskRoutes.BodyDate,
    tags: seq<string>)

  /** `row['中文'] || row['english'] || fallback`. */
  function Pick(row: Record, zh: string, en: string, fallback: string): (r: string)
    ensures zh in row && row[zh] != "" ==> r == row[zh]
    ensures !(zh in row && row[zh] != "") && !(en in row && row[en] != "") ==> r == fallback
  {
    if zh in row && row[zh] != "" then row[zh]
    else if en in row && row[en] != "" then row[en]
    else fallback
  }

  /** The separators of imported tags: `/[,;]/`. */
  const TagSeparators: set<char> := {',', ';'}

  /** `parseDate` on a date cell: a blank cell is no date; otherwise the
      trimmed text goes to `dateOf` (the `Date` constructor and the four
      patterns the component tries in turn), and text none of them reads is
      returned trimmed, as it is, for the request to carry. */
  function ParseDate(cell: string, dateOf: string -> Option<Day>): (d: TaskRoutes.BodyDate)
    ensures d.NoDate? <==> Text.Blank(cell)
    ensures d.DateOf? <==> !Text.Blank(cell) && dateOf(Text.Trim(cell)).Some?
    ensures d.DateOf? ==> Some(d.day) == dateOf(Text.Trim(cell))
    ensures d.Unparsed? ==> d.text == Text.Trim(cell) && d.text != ""
  {
    var trimmed := Text.Trim(cell);
    if trimmed == "" then TaskRoutes.NoDate
    else match dateOf(trimmed)
      case Some(day) => TaskRoutes.DateOf(day)
      case None => TaskRoutes.Unparsed(trimmed)
  }

  /** The mapping from a parsed row to a create request; `dateOf` is the
      date reader `ParseDate` uses. */
  function ImportedTask(row: Record, dateOf: string -> Option<Day>): (b: ImportBody)
    ensures b.title != "" && b.status != "" && b.priority != ""
    ensures forall i :: 0 <= i < |b.tags| ==> b.tags[i] != "" && Text.IsTrimmed(b.tags[i])
    ensures forall i :: 0 <= i < |b.tags| ==> forall j :: 0 <= j < |b.tags[i]| ==> b.tags[i][j] !in TagSeparators
  {
    var due := Pick(row, "截止日期", "dueDate", "");
    ImportBody(
      Pick(row, "标题", "title", "未命名任务"),
      Pick(row, "描述", "description", ""),
      Pick(row, "状态", "status", TaskModel.Todo),
      Pick(row, "优先级", "priority", TaskModel.Medium),
      if due != "" then ParseDate(due, dateOf) else TaskRoutes.NoDate,
      ImportedTags(row))
  }

  /** The tags cell split on commas and semicolons, trimmed, blanks dropped. */
  function ImportedTags(row: Record): (tags: seq<string>)
    ensures forall i :: 0 <= i < |tags| ==> tags[i] != "" && Text.IsTrimmed(tags[i])
    ensures forall i :: 0 <= i < |tags| ==> forall j :: 0 <= j < |tags[i]| ==> tags[i][j] !in TagSeparators
  {
    Text.SplitTrimmed(Pick(row, "标签", "tags", ""), TagSeparators)
  }

  /** An empty row imports as an untitled pending medium-priority task without tags. */
  lemma ImportDefaults(dateOf: string -> Option<Day>)
    ensures ImportedTask(map[], dateOf) ==
            ImportBody("未命名任务", "", TaskModel.Todo, TaskModel.Medium, TaskRoutes.NoDate, [])
  {
    NoTags();
  }

  lemma NoTags()
    ensures ImportedTags(map[]) == []
  {
    assert Pick(map[], "标签", "tags", "") == "";
    Text.SplitTrimmedEmpty(TagSeparators);
  }

  /** Tags written as a comma-separated cell come back as the same tags. */
  lemma ImportedTagsRoundTrip(tags: seq<string>, dateOf: string -> Option<Day>)
    requires forall i :: 0 <= i < |tags| ==> tags[i] != "" && Text.IsTrimmed(tags[i])
    requires forall i :: 0 <= i < |tags| ==> forall j :: 0 <= j < |tags[i]| ==> tags[i][j] !in TagSeparators
    ensures ImportedTask(map["tags" := Text.Join(tags, ",")], dateOf).tags == tags
  {
    var cell := Text.Join(tags, ",");
    var row := map["tags" := cell];
    assert "标签" !in row;
    assert Pick(row, "标签", "tags", "") == cell;
    Text.SplitTrimmedJoin(tags, ',', "", TagSeparators);
    assert [','] + "" == ",";
    assert ImportedTags(row) == tags;
  }

  /** The create request an imported row becomes on the server. */
  function ImportRequest(b: ImportBody): TaskRoutes.TaskBody {
    TaskRoutes.EmptyBody.(
      title := Some(b.title),
      description := Some(b.description),
      status := Some(b.status),
      priority := Some(b.priority),
      dueDate := b.dueDate,
      tags := TaskRoutes.Given(b.tags))
  }

  /** A body the server stores: a title that is not all whitespace, a status
      spelled as the schema's enum, a priority that is either so spelled or
      empty (an empty priority falls back to the default), and a due date
      that is absent or was read. */
  predicate Acceptable(b: ImportBody) {
    && !Text.Blank(b.title)
    && b.status in TaskModel.Statuses
    && (b.priority == "" || b.priority in TaskModel.Priorities)
    && !b.dueDate.Unparsed?
  }

  /** Under a fresh id, the create route accepts an imported body exactly when it is acceptable. */
  lemma CreateImportedIff(store: TaskModel.Store, me: UserId, b: ImportBody, newId: Id, now: TaskModel.Time)
    requires newId !in store
    ensures TaskRoutes.CreateTask(store, me, ImportRequest(b), newId, now).code == TaskRoutes.OK <==> Acceptable(b)
  {
    var t := TaskRoutes.NewTaskFrom(me, ImportRequest(b), newId, now);
    assert t.title == Text.Trim(b.title) && t.status == b.status;
    assert t.recurrencePattern == TaskModel.Daily;
  }

  /** An imported row is created exactly when its title is not all
      whitespace, its status and priority are spelled as the schema's enums
      and its date cell is blank or read by `dateOf`; an English `done` or
      `high`, or a date like `next week`, fails with 500. */
  lemma ImportCreateSucceedsIff(store: TaskModel.Store, me: UserId, row: Record,
                                dateOf: string -> Option<Day>, newId: Id, now: TaskModel.Time)
    requires newId !in store
    ensures var b := ImportedTask(row, dateOf);
            var cell := Pick(row, "截止日期", "dueDate", "");
            TaskRoutes.CreateTask(store, me, ImportRequest(b), newId, now).code == TaskRoutes.OK
            <==> && !Text.Blank(b.title) && b.status in TaskModel.Statuses && b.priority in TaskModel.Priorities
                 && (Text.Blank(cell) || dateOf(Text.Trim(cell)).Some?)
  {
    var cell := Pick(row, "截止日期", "dueDate", "");
    if cell == "" {
      assert Text.Blank(cell);
    }
    CreateImportedIff(store, me, ImportedTask(row, dateOf), newId, now);
  }

  /** A row whose date cell no reader understands is posted with the raw
      text, which the server's `Date` cast refuses: the request fails. */
  lemma ImportUnreadDateFails(store: TaskModel.Store, me: UserId, row: Record,
                              dateOf: string -> Option<Day>, newId: Id, now: TaskModel.Time)
    requires var cell := Pick(row, "截止日期", "dueDate", "");
             !Text.Blank(cell) && dateOf(Text.Trim(cell)).None?
    ensures var b := ImportedTask(row, dateOf);
            && b.dueDate == TaskRoutes.Unparsed(Text.Trim(Pick(row, "截止日期", "dueDate", "")))
            && TaskRoutes.CreateTask(store, me, ImportRequest(b), newId, now) == TaskRoutes.Reply(TaskRoutes.ServerError, store)
  {
  }

  /** `api.post('/api/tasks', newTask)` for one body, under the id the server assigns. */
  function PostBody(store: TaskModel.Store, me: UserId, b: ImportBody, id: Id, now: TaskModel.Time): (r: TaskRoutes.Reply)
    ensures r.code != TaskRoutes.OK ==> r.store == store
    ensures r.code == TaskRoutes.OK ==> r.store.Keys == store.Keys + {id} && Acceptable(b)
    ensures id !in store ==> (r.code == TaskRoutes.OK <==> Acceptable(b))
  {
    var r := TaskRoutes.CreateTask(store, me, ImportRequest(b), id, now);
    if id in store then r
    else
      CreateImportedIff(store, me, b, id, now);
      r
  }

  /** What the import loop leaves behind: the server store, the ids created
      in row order, and whether a request failed. */
  datatype ImportResult = ImportResult(store: TaskModel.Store, created: seq<Id>, failed: bool)

  /** The loop over the mapped rows (`ImportedTask` of each): the bodies are
      posted one after the other; the first rejected request throws out of
      the loop, so later rows are not sent and the tasks already created stay
      on the server without being added to the list. `ids` are the ids the
      server assigns. */
  function ImportAll(store: TaskModel.Store, me: UserId, bodies: seq<ImportBody>, ids: seq<Id>, now: TaskModel.Time): (r: ImportResult)
    requires |ids| == |bodies|
    ensures |r.created| <= |bodies| && r.created == ids[..|r.created|]
    ensures !r.failed ==> |r.created| == |bodies|
    ensures r.failed ==> |r.created| < |bodies|
    decreases |bodies|
  {
    if |bodies| == 0 then ImportResult(store, [], false)
    else
      var reply := PostBody(store, me, bodies[0], ids[0], now);
      if reply.code != TaskRoutes.OK then ImportResult(store, [], true)
      else
        var rest := ImportAll(reply.store, me, bodies[1..], ids[1..], now);
        PrefixCons(ids, |rest.created|);
        ImportResult(rest.store, [ids[0]] + rest.created, rest.failed)
  }

  lemma PrefixCons<T>(s: seq<T>, n: nat)
    requires n < |s|
    ensures [s[0]] + s[1..][..n] == s[..n + 1]
  {
  }

  /** Every body the loop created was acceptable. */
  lemma {:induction false} ImportCreatedAcceptable(store: TaskModel.Store, me: UserId, bodies: seq<ImportBody>,
                                                   ids: seq<Id>, now: TaskModel.Time)
    requires |ids| == |bodies|
    ensures var r := ImportAll(store, me, bodies, ids, now);
            forall i :: 0 <= i < |r.created| ==> Acceptable(bodies[i])
    decreases |bodies|
  {
    if |bodies| > 0 {
      var reply := PostBody(store, me, bodies[0], ids[0], now);
      if reply.code == TaskRoutes.OK {
        ImportCreatedAcceptable(reply.store, me, bodies[1..], ids[1..], now);
        var rest := ImportAll(reply.store, me, bodies[1..], ids[1..], now);
        forall i | 0 < i < 1 + |rest.created|
          ensures Acceptable(bodies[i])
        {
          assert bodies[1..][i - 1] == bodies[i];
        }
      }
    }
  }

  /** After the first id is used, the remaining ids are still fresh and distinct. */
  lemma RestFresh(store: TaskModel.Store, after: TaskModel.Store, ids: seq<Id>)
    requires |ids| > 0 && Seqs.Distinct(ids)
    requires forall i :: 0 <= i < |ids| ==> ids[i] !in store
    requires after.Keys == store.Keys + {ids[0]}
    ensures Seqs.Distinct(ids[1..])
    ensures forall i :: 0 <= i < |ids[1..]| ==> ids[1..][i] !in after
  {
    forall i | 0 <= i < |ids[1..]|
      ensures ids[1..][i] !in after
    {
      assert ids[1..][i] == ids[i + 1] != ids[0];
    }
  }

  /** With fresh distinct ids, the loop stops only at a body that is not acceptable. */
  lemma {:induction false} ImportStopsAtInvalid(store: TaskModel.Store, me: UserId, bodies: seq<ImportBody>,
                                                ids: seq<Id>, now: TaskModel.Time)
    requires |ids| == |bodies| && Seqs.Distinct(ids)
    requires forall i :: 0 <= i < |ids| ==> ids[i] !in store
    ensures var r := ImportAll(store, me, bodies, ids, now);
            r.failed ==> !Acceptable(bodies[|r.created|])
    decreases |bodies|
  {
    if |bodies| > 0 {
      var reply := PostBody(store, me, bodies[0], ids[0], now);
      if reply.code == TaskRoutes.OK {
        RestFresh(store, reply.store, ids);
        ImportStopsAtInvalid(reply.store, me, bodies[1..], ids[1..], now);
        var rest := ImportAll(reply.store, me, bodies[1..], ids[1..], now);
        var r := ImportAll(store, me, bodies, ids, now);
        assert r.failed == rest.failed && |r.created| == 1 + |rest.created|;
        if rest.failed {
          assert bodies[1..][|rest.created|] == bodies[|r.created|];
        }
      }
    }
  }

  /** With fresh distinct ids, the import fails exactly when some body is not
      acceptable: it stops at the first such body, every body before it is
      created, and no later one is sent. */
  lemma ImportFailsIff(store: TaskModel.Store, me: UserId, bodies: seq<ImportBody>, ids: seq<Id>, now: TaskModel.Time)
    requires |ids| == |bodies| && Seqs.Distinct(ids)
    requires forall i :: 0 <= i < |ids| ==> ids[i] !in store
    ensures var r := ImportAll(store, me, bodies, ids, now);
            && (r.failed <==> exists i :: 0 <= i < |bodies| && !Acceptable(bodies[i]))
            && (r.failed ==> |r.created| < |bodies| && !Acceptable(bodies[|r.created|]))
            && (forall i :: 0 <= i < |r.created| ==> Acceptable(bodies[i]))
  {
    ImportCreatedAcceptable(store, me, bodies, ids, now);
    ImportStopsAtInvalid(store, me, bodies, ids, now);
  }

  /** Whatever happens, the server ends up holding the earlier tasks plus
      exactly the ones created before the loop stopped. */
  lemma {:induction false} ImportKeepsCreated(store: TaskModel.Store, me: UserId, bodies: seq<ImportBody>,
                                              ids: seq<Id>, now: TaskModel.Time)
    requires |ids| == |bodies|
    ensures var r := ImportAll(store, me, bodies, ids, now);
            r.store.Keys == store.Keys + Seqs.Elements(r.created)
    decreases |bodies|
  {
    if |bodies| > 0 {
      var reply := PostBody(store, me, bodies[0], ids[0], now);
      if reply.code == TaskRoutes.OK {
        ImportKeepsCreated(reply.store, me, bodies[1..], ids[1..], now);
        var rest := ImportAll(reply.store, me, bodies[1..], ids[1..], now);
        assert Seqs.Elements([ids[0]] + rest.created) == {ids[0]} + Seqs.Elements(rest.created);
      }
    }
  }

  // ---------------------------------------------------------------- priority label

  /** `formatPriority` as written: it recognises only English values. */
  function FormatPriorityAsWritten(p: Option<string>): (shown: string)
    ensures shown in {TaskModel.High, TaskModel.Medium, TaskModel.Low, "无"}
  {
    if p == Some("high") then TaskModel.High
    else if p == Some("medium") then TaskModel.Medium
    else if p == Some("low") then TaskModel.Low
    else "无"
  }

  /** Every priority the schema can store is shown as 无 ("none"). */
  lemma FormatPriorityHidesStoredValues(p: string)
    requires p in TaskModel.Priorities
    ensures FormatPriorityAsWritten(Some(p)) == "无"
  {
  }

  /** The label the sub-task card evidently means: the stored Chinese value
      itself, and the English spellings translated. */
  function FormatPriority(p: Option<string>): (shown: string)
    ensures p.Some? && p.value in TaskModel.Priorities ==> shown == p.value
    ensures p.Some? && p.value in {"high", "medium", "low"} ==> shown == FormatPriorityAsWritten(p)
    ensures shown in {TaskModel.High, TaskModel.Medium, TaskModel.Low, "无"}
  {
    if p.Some? && p.value in TaskModel.Priorities then p.value
    else FormatPriorityAsWritten(p)
  }

  /** The corrected label names a priority for every schema value and for the
      English spellings, and 无 only for anything else. */
  lemma FormatPriorityTotal(p: Option<string>)
    ensures FormatPriority(p) != "无" <==>
              p.Some? && (p.value in TaskModel.Priorities || p.value in {"high", "medium", "low"})
  {
  }
}

=== FILE: task_model.dfy ===
/** The task document of models/Task.js: schema enums and defaults, the
    `addSubTask` / `removeSubTask` instance methods, the pre-save hook that
    stamps `updatedAt`, and the body of the pre-remove hook (one-level cascade
    plus detaching from the parent). The database is a map from id to task. */
module TaskModel {
  import opened Wrappers
  import Seqs
  import Text

  type Id = string
  type UserId = string
  /** A calendar date, counted in whole days. */
  type Day = int
  /** A timestamp in milliseconds (`Date.now()`). */
  type Time = int

  const Todo: string := "待办"
  const InProgress: string := "进行中"
  const Done: string := "已完成"
  const High: string := "高"
  const Medium: string := "中"
  const Low: string := "低"
  const Daily: string := "daily"
  const Weekly: string := "weekly"
  const Monthly: string := "monthly"
  const Yearly: string := "yearly"

  const Statuses: set<string> := {Todo, InProgress, Done}
  const Priorities: set<string> := {High, Medium, Low}
  const Patterns: set<string> := {Daily, Weekly, Monthly, Yearly}

  /** A stored task. Enumerated fields are strings because writes through
      `findByIdAndUpdate` do not run the schema validators. */
  datatype Task = Task(
    id: Id,
    owner: UserId,
    parentTask: Option<Id>,
    subTasks: seq<Id>,
    title: string,
    description: Option<string>,
    tags: seq<string>,
    status: string,
    priority: string,
    dueDate: Option<Day>,
    isRecurring: bool,
    recurrencePattern: string,
    recurrenceInterval: int,
    recurrenceEnd: Option<Day>,
    recurrenceNeverEnd: bool,
    sharedWith: seq<UserId>,
    createdAt: Time,
    updatedAt: Time)

  type Store = map<Id, Task>

  /** What the schema validators accept when a document is saved:
      a nonempty title and the three enumerated fields inside their enums. */
  predicate PassesValidation(t: Task) {
    && t.title != ""
    && t.status in Statuses
    && t.priority in Priorities
    && t.recurrencePattern in Patterns
  }

  /** The schema's `trim: true` setters have run: title, description and
      every tag carry no surrounding whitespace. */
  predicate TextTrimmed(t: Task) {
    && Text.IsTrimmed(t.title)
    && (t.description.Some? ==> Text.IsTrimmed(t.description.value))
    && forall i :: 0 <= i < |t.tags| ==> Text.IsTrimmed(t.tags[i])
  }

  /** A document built from the schema defaults alone, created at `now`. The
      title goes through the `trim` setter, so an all-whitespace title is
      stored empty and fails `required`. */
  function NewTask(id: Id, owner: UserId, title: string, now: Time): (t: Task)
    ensures t.status == Todo && t.priority == Medium && t.recurrencePattern == Daily
    ensures t.parentTask == None && t.subTasks == [] && t.sharedWith == [] && t.tags == []
    ensures !t.isRecurring && t.recurrenceInterval == 1 && t.recurrenceNeverEnd
    ensures t.title == Text.Trim(title) && TextTrimmed(t)
    ensures PassesValidation(t) <==> !Text.Blank(title)
  {
    Task(id, owner, None, [], Text.Trim(title), None, [], Todo, Medium, None,
         false, Daily, 1, None, true, [], now, now)
  }

  /** The pre-save hook: every save stamps `updatedAt` with the current time
      and changes nothing else. */
  function Save(t: Task, now: Time): (r: Task)
    ensures r.updatedAt == now
    ensures r.(updatedAt := t.updatedAt) == t
  {
    t.(updatedAt := now)
  }

  /** `addSubTask`: appends the id (and saves) only when it is not listed yet. */
  function AddSubTask(t: Task, sub: Id, now: Time): (r: Task)
    ensures sub in r.subTasks
    ensures sub in t.subTasks ==> r == t
    ensures sub !in t.subTasks ==> r.subTasks == t.subTasks + [sub] && r.updatedAt == now
    ensures r.(subTasks := t.subTasks, updatedAt := t.updatedAt) == t
    ensures Seqs.Distinct(t.subTasks) ==> Seqs.Distinct(r.subTasks)
  {
    if sub in t.subTasks then t else Save(t.(subTasks := t.subTasks + [sub]), now)
  }

  /** `addSubTask` when its save runs the validators: `None` when the save is
      refused. The validators look at every field of the loaded document, so
      a parent holding an off-enum value (which an update can store) refuses
      every new sub-task it does not list yet. */
  function AddSubTaskChecked(t: Task, sub: Id, now: Time): (r: Option<Task>)
    ensures r.None? <==> sub !in t.subTasks && !PassesValidation(t)
    ensures r.Some? ==> r.value == AddSubTask(t, sub, now)
  {
    var u := AddSubTask(t, sub, now);
    if sub in t.subTasks || PassesValidation(u) then Some(u) else None
  }

  /** Adding the same sub-task twice is the same as adding it once. */
  lemma AddSubTaskIdempotent(t: Task, sub: Id, now: Time, later: Time)
    ensures AddSubTask(AddSubTask(t, sub, now), sub, later) == AddSubTask(t, sub, now)
  {
  }

  /** `addSubTask` never creates a duplicate entry. */
  lemma {:induction false} AddSubTaskNoDuplicate(t: Task, sub: Id, now: Time)
    ensures multiset(AddSubTask(t, sub, now).subTasks)[sub] == if sub in t.subTasks then multiset(t.subTasks)[sub] else 1
  {
    if sub !in t.subTasks {
      assert multiset(t.subTasks)[sub] == 0;
    }
  }

  /** `removeSubTask`: drops every occurrence of the id, keeps the order of the
      remaining entries, and always saves. */
  function RemoveSubTask(t: Task, sub: Id, now: Time): (r: Task)
    ensures sub !in r.subTasks
    ensures Seqs.IsSubsequence(r.subTasks, t.subTasks)
    ensures forall x :: x != sub ==> multiset(r.subTasks)[x] == multiset(t.subTasks)[x]
    ensures r.updatedAt == now
    ensures r.(subTasks := t.subTasks, updatedAt := t.updatedAt) == t
  {
    var kept := Seqs.Filter(t.subTasks, (x: Id) => x != sub);
    forall x | x != sub
      ensures multiset(kept)[x] == multiset(t.subTasks)[x]
    {
      Seqs.FilterMultiplicity(t.subTasks, (y: Id) => y != sub, x);
    }
    Save(t.(subTasks := kept), now)
  }

  /** Removing a sub-task undoes adding it. */
  lemma RemoveUndoesAdd(t: Task, sub: Id, now: Time, later: Time)
    requires sub !in t.subTasks
    ensures RemoveSubTask(AddSubTask(t, sub, now), sub, later).subTasks == t.subTasks
  {
    var f := (x: Id) => x != sub;
    Seqs.FilterAppend(t.subTasks, [sub], f);
    Seqs.FilterKeepsAll(t.subTasks, f);
  }

  /** The ids of the tasks whose `parentTask` is `id`. */
  function ChildrenOf(store: Store, id: Id): set<Id> {
    set k | k in store && store[k].parentTask == Some(id)
  }

  /** The body of the pre-remove hook for the task `id`: delete the tasks whose
      parent is `id` (one level only; `deleteMany` runs no hooks), then remove
      `id` from its parent's list when that parent still exists. */
  function RemoveHook(store: Store, id: Id, now: Time): (r: Store)
    requires id in store
    ensures forall k :: k in r <==> k in store && store[k].parentTask != Some(id)
    ensures forall k :: k in r && Some(k) != store[id].parentTask ==> r[k] == store[k]
    ensures store[id].parentTask.Some? && store[id].parentTask.value in r ==>
              var p := store[id].parentTask.value;
              r[p] == RemoveSubTask(store[p], id, now)
  {
    var self := store[id];
    var kept := map k | k in store && store[k].parentTask != Some(id) :: store[k];
    if self.parentTask.Some? && self.parentTask.value in kept then
      var p := self.parentTask.value;
      kept[p := RemoveSubTask(kept[p], id, now)]
    else kept
  }

  /** `subTask.remove()`: the hook body, then the document itself. */
  function RemoveDocument(store: Store, id: Id, now: Time): (r: Store)
    requires id in store
    ensures forall k :: k in r <==> k in store && k != id && store[k].parentTask != Some(id)
    ensures forall k :: k in r && Some(k) != store[id].parentTask ==> r[k] == store[k]
    ensures store[id].parentTask.Some? && store[id].parentTask.value in r ==>
              var p := store[id].parentTask.value;
              r[p] == RemoveSubTask(store[p], id, now)
  {
    RemoveHook(store, id, now) - {id}
  }

  /** The cascade is one level deep: a grandchild survives when its own parent is deleted. */
  lemma CascadeIsOneLevel(store: Store, id: Id, child: Id, grandchild: Id, now: Time)
    requires id in store && child in store && grandchild in store
    requires store[child].parentTask == Some(id)
    requires store[grandchild].parentTask == Some(child) && child != id
    ensures child !in RemoveDocument(store, id, now)
    ensures grandchild != id ==> grandchild in RemoveDocument(store, id, now)
  {
  }

  /** Every child whose parent exists is listed in that parent's `subTasks`. */
  predicate ChildrenListed(store: Store) {
    forall k :: k in store && store[k].parentTask.Some? && store[k].parentTask.value in store ==>
      k in store[store[k].parentTask.value].subTasks
  }

  /** Every listed sub-task exists and points back to the task listing it. */
  predicate ListedAreChildren(store: Store) {
    forall p, k :: p in store && k in store[p].subTasks ==>
      k in store && store[k].parentTask == Some(p)
  }

  /** Removing a document through its hook keeps every surviving child listed. */
  lemma RemoveDocumentKeepsChildrenListed(store: Store, id: Id, now: Time)
    requires id in store
    requires ChildrenListed(store)
    ensures ChildrenListed(RemoveDocument(store, id, now))
  {
    var r := RemoveDocument(store, id, now);
    var h := RemoveHook(store, id, now);
    forall k | k in r && r[k].parentTask.Some? && r[k].parentTask.value in r
      ensures k in r[r[k].parentTask.value].subTasks
    {
      var p := r[k].parentTask.value;
      assert r[k] == store[k] || Some(k) == store[id].parentTask;
      assert r[k].parentTask == store[k].parentTask;
      assert k in store[p].subTasks;
      assert k != id;
      if Some(p) == store[id].parentTask {
        assert r[p] == RemoveSubTask(store[p], id, now);
        assert multiset(r[p].subTasks)[k] == multiset(store[p].subTasks)[k];
      }
    }
  }

  /** Removing a document through its hook also detaches it from its parent,
      so no surviving list mentions it, provided the lists pointed back before. */
  lemma RemoveDocumentKeepsListsExact(store: Store, id: Id, now: Time)
    requires id in store
    requires ListedAreChildren(store)
    ensures forall p :: p in RemoveDocument(store, id, now) ==> id !in RemoveDocument(store, id, now)[p].subTasks
  {
    var r := RemoveDocument(store, id, now);
    forall p | p in r
      ensures id !in r[p].subTasks
    {
      if Some(p) != store[id].parentTask {
        assert r[p] == store[p];
      }
    }
  }
}

=== FILE: task_routes.dfy ===
/** The task REST routes of routes/taskRoutes.js as pure functions from
    (store, caller, request) to (status code, new store). Authentication has
    already produced the caller's id; database errors other than the ones the
    handlers decide on are not modelled. */
module TaskRoutes {
  import opened Wrappers
  import opened TaskModel
  import Seqs
  import Text

  const OK: int := 200
  const BadRequest: int := 400
  const Forbidden: int := 403
  const NotFound: int := 404
  const ServerError: int := 500

  /** A body field that tells `undefined` (Missing) apart from `null`. */
  datatype Field<T> = Missing | Null | Given(value: T)

  /** JavaScript truthiness of an optional string: present and nonempty. */
  predicate Truthy(s: Option<string>) {
    s.Some? && s.value != ""
  }

  /** A `dueDate` as a request body carries it: a falsy value (`undefined`,
      `null`, `''`), a date, or a string the schema's `Date` cast refuses. */
  datatype BodyDate = NoDate | DateOf(day: Day) | Unparsed(text: string) {
    /** The date a document gets from it when the cast succeeds. */
    function Cast(): (d: Option<Day>)
      ensures d.Some? <==> DateOf?
      ensures d.Some? ==> d.value == day
    {
      if DateOf? then Some(day) else None
    }
  }

  /** The body date of a picked date or of none: never an unparsable string. */
  function Dated(d: Option<Day>): (r: BodyDate)
    ensures r.Cast() == d && !r.Unparsed?
  {
    if d.Some? then DateOf(d.value) else NoDate
  }

  /** The JSON body of `POST /api/tasks` and `PUT /api/tasks/:id`. */
  datatype TaskBody = TaskBody(
    title: Option<string>,
    description: Option<string>,
    status: Option<string>,
    priority: Option<string>,
    dueDate: BodyDate,
    sharedWith: Option<seq<UserId>>,
    parentTask: Field<Id>,
    tags: Field<seq<string>>,
    isRecurring: Option<bool>,
    recurrencePattern: Option<string>,
    recurrenceInterval: Option<int>,
    recurrenceEnd: Field<Day>,
    recurrenceNeverEnd: Option<bool>)

  /** A body that supplies nothing. */
  const EmptyBody: TaskBody :=
    TaskBody(None, None, None, None, NoDate, None, Missing, Missing, None, None, None, Missing, None)

  datatype Reply = Reply(code: int, store: Store)

  /** The `validateStatus` middleware: a status is refused only when it is
      supplied, nonempty, and not one of the three schema values. */
  function ValidateStatus(status: Option<string>): (ok: bool)
    ensures ok <==> status == None || status == Some("") || status.value in Statuses
  {
    !(Truthy(status) && status.value !in Statuses)
  }

  /** The `validateBatchOperation` middleware: a nonempty array of ids is
      required. `None` stands for a missing or non-array `taskIds`. */
  function ValidateBatchOperation(ids: Option<seq<Id>>): (ok: bool)
    ensures ok <==> ids.Some? && ids.value != []
  {
    ids.Some? && |ids.value| > 0
  }

  /** The owner-or-shared check used by every single-task route except delete. */
  predicate CanAccess(t: Task, caller: UserId) {
    t.owner == caller || caller in t.sharedWith
  }

  // ---------------------------------------------------------------- GET /:id

  datatype GetReply = GetReply(code: int, task: Option<Task>)

  /** `GET /api/tasks/:id`. */
  function GetTask(store: Store, caller: UserId, id: Id): (r: GetReply)
    ensures r.code == OK <==> id in store && CanAccess(store[id], caller)
    ensures r.code == OK ==> r.task == Some(store[id])
    ensures r.code != OK ==> r.task == None
    ensures r.code == NotFound <==> id !in store
    ensures r.code == Forbidden <==> id in store && !CanAccess(store[id], caller)
  {
    if id !in store then GetReply(NotFound, None)
    else if !CanAccess(store[id], caller) then GetReply(Forbidden, None)
    else GetReply(OK, Some(store[id]))
  }

  /** `GET /api/tasks/:id` as written: the task is loaded with `user` and
      `sharedWith` populated before the access check. The populated owner's
      `toString()` is the printed document, never an id, and
      `sharedWith.includes(id)` compares an id string with user documents, so
      neither test ever passes and every caller is refused. When the owner's
      account no longer exists, `user` populates as null and `toString()`
      throws: 500. `users` is the set of existing accounts. */
  function GetTaskAsWritten(store: Store, users: set<UserId>, caller: UserId, id: Id): (r: GetReply)
    ensures r.code != OK && r.task == None
    ensures r.code == NotFound <==> id !in store
    ensures r.code == ServerError <==> id in store && store[id].owner !in users
    ensures r.code == Forbidden <==> id in store && store[id].owner in users
  {
    if id !in store then GetReply(NotFound, None)
    else if store[id].owner !in users then GetReply(ServerError, None)
    else GetReply(Forbidden, None)
  }

  /** The handler as written refuses the owner of an existing task, whom the
      access check is meant to let through. */
  lemma GetTaskRefusesOwner(store: Store, users: set<UserId>, caller: UserId, id: Id)
    requires id in store && store[id].owner == caller && caller in users
    ensures GetTaskAsWritten(store, users, caller, id).code == Forbidden
    ensures GetTask(store, caller, id).code == OK
  {
  }

  /** The corrected handler makes the same access decision as the other
      single-task routes, which test the unpopulated document: listing the
      sub-tasks and (for a valid status and a date that casts) updating. */
  lemma GetTaskSameAccessAsOtherRoutes(store: Store, caller: UserId, id: Id, b: TaskBody)
    ensures GetTask(store, caller, id).code == ListSubtasks(store, caller, id).code
    ensures ValidateStatus(b.status) && !b.dueDate.Unparsed? ==>
              GetTask(store, caller, id).code == UpdateTask(store, caller, id, b).code
  {
  }

  // ---------------------------------------------------------------- POST /

  /** The parent id a create request names: `parentTask || null`. */
  function RequestedParent(f: Field<Id>): (p: Option<Id>)
    ensures p.Some? <==> f.Given? && f.value != ""
  {
    if f.Given? && f.value != "" then Some(f.value) else None
  }

  /** A description through the schema's `trim` setter. */
  function TrimDescription(d: Option<string>): Option<string> {
    if d.Some? then Some(Text.Trim(d.value)) else None
  }

  /** The document `POST /api/tasks` builds before saving it. Title,
      description and tags pass through the schema's `trim` setters. */
  function NewTaskFrom(caller: UserId, b: TaskBody, newId: Id, now: Time): (t: Task)
    ensures t.id == newId && t.owner == caller && t.subTasks == []
    ensures t.createdAt == now && t.updatedAt == now
    ensures TextTrimmed(t)
    ensures t.title == Text.Trim(b.title.GetOr(""))
    ensures b.description.Some? <==> t.description.Some?
    ensures b.tags.Given? ==> t.tags == Text.TrimAll(b.tags.value)
    ensures !b.tags.Given? ==> t.tags == []
    ensures t.parentTask == RequestedParent(b.parentTask)
    ensures t.priority == (if Truthy(b.priority) then b.priority.value else Medium)
    ensures t.status == b.status.GetOr(Todo)
    ensures t.recurrenceNeverEnd <==> b.recurrenceNeverEnd != Some(false)
    ensures t.isRecurring <==> b.isRecurring == Some(true)
    ensures t.recurrenceInterval != 0
    ensures t.dueDate == b.dueDate.Cast()
  {
    Task(
      newId,
      caller,
      RequestedParent(b.parentTask),
      [],
      Text.Trim(b.title.GetOr("")),
      TrimDescription(b.description),
      if b.tags.Given? then Text.TrimAll(b.tags.value) else [],
      b.status.GetOr(Todo),
      if Truthy(b.priority) then b.priority.value else Medium,
      b.dueDate.Cast(),
      b.isRecurring == Some(true),
      if Truthy(b.recurrencePattern) then b.recurrencePattern.value else Daily,
      if b.recurrenceInterval.Some? && b.recurrenceInterval.value != 0 then b.recurrenceInterval.value else 1,
      if b.recurrenceEnd.Given? then Some(b.recurrenceEnd.value) else None,
      b.recurrenceNeverEnd != Some(false),
      b.sharedWith.GetOr([]),
      now,
      now)
  }

  /** Whether the parent named by a create accepts the new id: there is no
      such parent, it lists the id already (no save), or its save passes. */
  predicate ParentAccepts(saved: Store, p: Option<Id>, sub: Id) {
    p.None? || p.value !in saved || sub in saved[p.value].subTasks || PassesValidation(saved[p.value])
  }

  /** Whether the first save of `POST /api/tasks` goes through: the id is
      new, the due date casts and the document passes the validators. */
  predicate CreateSaves(store: Store, caller: UserId, b: TaskBody, newId: Id, now: Time) {
    newId !in store && !b.dueDate.Unparsed? && PassesValidation(NewTaskFrom(caller, b, newId, now))
  }

  /** `POST /api/tasks`. Saving runs the schema validators (a failure, like a
      clash with an existing id or a due date the `Date` cast refuses, is
      caught and answered with 500); then the new
      id is added to the parent's `subTasks` only if that parent exists. That
      second save validates the parent; when it is refused the handler answers
      500, but the new task is already stored and its parent does not list it. */
  function CreateTask(store: Store, caller: UserId, b: TaskBody, newId: Id, now: Time): (r: Reply)
    ensures r.code == OK || r.code == ServerError
    ensures r.code == OK <==>
              && CreateSaves(store, caller, b, newId, now)
              && ParentAccepts(store[newId := NewTaskFrom(caller, b, newId, now)], RequestedParent(b.parentTask), newId)
    ensures !CreateSaves(store, caller, b, newId, now) ==> r.store == store
    ensures r.code != OK && CreateSaves(store, caller, b, newId, now) ==>
              r.store == store[newId := NewTaskFrom(caller, b, newId, now)]
    ensures r.code == OK ==> r.store.Keys == store.Keys + {newId}
    ensures r.code == OK ==> r.store[newId].owner == caller
    ensures r.code == OK && RequestedParent(b.parentTask) != Some(newId) ==>
              r.store[newId] == NewTaskFrom(caller, b, newId, now)
    ensures r.code == OK ==>
              forall k :: k in store ==>
                r.store[k] == (if Some(k) == RequestedParent(b.parentTask)
                               then AddSubTask(store[k], newId, now) else store[k])
  {
    var t := NewTaskFrom(caller, b, newId, now);
    if newId in store || b.dueDate.Unparsed? || !PassesValidation(t) then Reply(ServerError, store)
    else
      var saved := store[newId := t];
      var p := RequestedParent(b.parentTask);
      if p.Some? && p.value in saved then
        match AddSubTaskChecked(saved[p.value], newId, now)
        case Some(parent) => Reply(OK, saved[p.value := parent])
        case None => Reply(ServerError, saved)
      else Reply(OK, saved)
  }

  /** What `POST /api/tasks` stores for a body that names only a title: the
      schema defaults, unless the trimmed title is empty, which `required`
      refuses with 500. */
  lemma CreateDefaults(store: Store, caller: UserId, title: string, newId: Id, now: Time)
    requires newId !in store
    ensures var r := CreateTask(store, caller, EmptyBody.(title := Some(title)), newId, now);
            && (r.code == OK <==> !Text.Blank(title))
            && (r.code == OK ==> r.store[newId] == NewTask(newId, caller, title, now))
            && (r.code != OK ==> r.code == ServerError && r.store == store)
  {
  }

  /** A title of spaces alone is truthy in the handler but trimmed to nothing
      by the schema, so the create fails with 500. */
  lemma CreateBlankTitleFails(store: Store, caller: UserId, b: TaskBody, newId: Id, now: Time)
    requires b.title == Some("   ")
    ensures CreateTask(store, caller, b, newId, now) == Reply(ServerError, store)
  {
    assert Text.IsWhitespace(' ');
    assert Text.Trim("   ") == "";
  }

  /** A create under an existing valid parent lists the new task there; one
      naming a missing parent still succeeds and leaves a dangling
      `parentTask`; one under a parent that fails validation answers 500 and
      leaves the new task stored under that parent, unlisted. */
  lemma CreateUnderParent(store: Store, caller: UserId, b: TaskBody, newId: Id, now: Time)
    requires CreateSaves(store, caller, b, newId, now)
    requires b.parentTask.Given? && b.parentTask.value != ""
    ensures var r := CreateTask(store, caller, b, newId, now);
            var p := b.parentTask.value;
            && newId in r.store
            && r.store[newId].parentTask == Some(p)
            && (p !in store ==> r.code == OK && (p !in r.store || p == newId))
            && (p in store ==> (r.code == OK <==> newId in store[p].subTasks || PassesValidation(store[p])))
            && (p in store && r.code == OK ==> newId in r.store[p].subTasks)
            && (p in store && r.code != OK ==> r.store[p] == store[p] && newId !in r.store[p].subTasks)
  {
  }

  /** A newly generated id: no stored task has it or names it as parent. */
  predicate FreshId(store: Store, id: Id) {
    id !in store && ChildrenOf(store, id) == {}
  }

  /** Creating a task under a fresh id keeps every child listed in its parent,
      except when the parent's save is refused after the child's: then the new
      task is an unlisted child. */
  lemma CreateKeepsChildrenListed(store: Store, caller: UserId, b: TaskBody, newId: Id, now: Time)
    requires ChildrenListed(store) && FreshId(store, newId)
    ensures var r := CreateTask(store, caller, b, newId, now);
            ChildrenListed(r.store) <==> r.code == OK || r.store == store
  {
    var r := CreateTask(store, caller, b, newId, now);
    if r.code != OK && r.store != store {
      var p := RequestedParent(b.parentTask).value;
      assert r.store[newId].parentTask == Some(p) && p in r.store;
      assert newId !in r.store[p].subTasks;
    }
    if r.code == OK {
      forall k | k in r.store && r.store[k].parentTask.Some? && r.store[k].parentTask.value in r.store
        ensures k in r.store[r.store[k].parentTask.value].subTasks
      {
        var p := r.store[k].parentTask.value;
        if k == newId {
          assert Some(p) == RequestedParent(b.parentTask);
        } else {
          assert r.store[k].parentTask == store[k].parentTask;
          assert k !in ChildrenOf(store, newId);
          assert k in store[p].subTasks;
        }
      }
    }
  }

  // ---------------------------------------------------------------- PUT /:id

  /** A nullable field of the `$set` document: kept when `undefined`, cleared
      by `null`, replaced otherwise. */
  function MergeField<T>(f: Field<T>, current: Option<T>): (r: Option<T>)
    ensures f.Missing? ==> r == current
    ensures f.Null? ==> r == None
    ensures f.Given? ==> r == Some(f.value)
  {
    match f
    case Missing => current
    case Null => None
    case Given(v) => Some(v)
  }

  /** `if (x) taskFields.x = x` for a field without a setter. */
  function SetIfTruthy(f: Option<string>, current: string): (r: string)
    ensures Truthy(f) ==> r == f.value
    ensures !Truthy(f) ==> r == current
  {
    if Truthy(f) then f.value else current
  }

  /** `if (title) taskFields.title = title`, cast through the `trim` setter. */
  function SetText(f: Option<string>, current: string): (r: string)
    ensures Truthy(f) ==> r == Text.Trim(f.value)
    ensures !Truthy(f) ==> r == current
  {
    if Truthy(f) then Text.Trim(f.value) else current
  }

  /** `if (tags !== undefined) taskFields.tags = tags || []`, each tag trimmed. */
  function SetTags(f: Field<seq<string>>, current: seq<string>): (r: seq<string>)
    ensures f.Missing? ==> r == current
    ensures f.Null? ==> r == []
    ensures f.Given? ==> r == Text.TrimAll(f.value)
  {
    match f
    case Missing => current
    case Null => []
    case Given(tags) => Text.TrimAll(tags)
  }

  /** The `$set` document the update handler builds, applied to a task: title,
      description, status, priority and due date are copied only when truthy;
      every other field whenever it is not `undefined`. Casting the update
      runs the schema's `trim` setters on title, description and tags. */
  function ApplyUpdate(t: Task, b: TaskBody): (r: Task)
    ensures r.id == t.id && r.owner == t.owner && r.subTasks == t.subTasks
    ensures r.createdAt == t.createdAt && r.updatedAt == t.updatedAt
    ensures Truthy(b.title) ==> r.title == Text.Trim(b.title.value)
    ensures !Truthy(b.title) ==> r.title == t.title
    ensures Truthy(b.description) ==> r.description == Some(Text.Trim(b.description.value))
    ensures !Truthy(b.description) ==> r.description == t.description
    ensures Truthy(b.status) ==> r.status == b.status.value
    ensures !Truthy(b.status) ==> r.status == t.status
    ensures Truthy(b.priority) ==> r.priority == b.priority.value
    ensures !Truthy(b.priority) ==> r.priority == t.priority
    ensures b.dueDate.DateOf? ==> r.dueDate == Some(b.dueDate.day)
    ensures !b.dueDate.DateOf? ==> r.dueDate == t.dueDate
    ensures b.sharedWith.Some? ==> r.sharedWith == b.sharedWith.value
    ensures b.sharedWith.None? ==> r.sharedWith == t.sharedWith
    ensures r.parentTask == MergeField(b.parentTask, t.parentTask)
    ensures b.tags.Given? ==> r.tags == Text.TrimAll(b.tags.value)
    ensures b.tags.Null? ==> r.tags == []
    ensures b.tags.Missing? ==> r.tags == t.tags
    ensures b.isRecurring.Some? ==> r.isRecurring == b.isRecurring.value
    ensures b.isRecurring.None? ==> r.isRecurring == t.isRecurring
    ensures b.recurrencePattern.Some? ==> r.recurrencePattern == b.recurrencePattern.value
    ensures b.recurrencePattern.None? ==> r.recurrencePattern == t.recurrencePattern
    ensures b.recurrenceInterval.Some? ==> r.recurrenceInterval == b.recurrenceInterval.value
    ensures b.recurrenceInterval.None? ==> r.recurrenceInterval == t.recurrenceInterval
    ensures r.recurrenceEnd == MergeField(b.recurrenceEnd, t.recurrenceEnd)
    ensures b.recurrenceNeverEnd.Some? ==> r.recurrenceNeverEnd == b.recurrenceNeverEnd.value
    ensures b.recurrenceNeverEnd.None? ==> r.recurrenceNeverEnd == t.recurrenceNeverEnd
  {
    Task(
      t.id,
      t.owner,
      MergeField(b.parentTask, t.parentTask),
      t.subTasks,
      SetText(b.title, t.title),
      if Truthy(b.description) then TrimDescription(b.description) else t.description,
      SetTags(b.tags, t.tags),
      SetIfTruthy(b.status, t.status),
      SetIfTruthy(b.priority, t.priority),
      if b.dueDate.DateOf? then b.dueDate.Cast() else t.dueDate,
      b.isRecurring.GetOr(t.isRecurring),
      b.recurrencePattern.GetOr(t.recurrencePattern),
      b.recurrenceInterval.GetOr(t.recurrenceInterval),
      MergeField(b.recurrenceEnd, t.recurrenceEnd),
      b.recurrenceNeverEnd.GetOr(t.recurrenceNeverEnd),
      b.sharedWith.GetOr(t.sharedWith),
      t.createdAt,
      t.updatedAt)
  }

  /** An update keeps the stored text fields trimmed. */
  lemma UpdateKeepsTextTrimmed(t: Task, b: TaskBody)
    requires TextTrimmed(t)
    ensures TextTrimmed(ApplyUpdate(t, b))
  {
  }

  /** `PUT /api/tasks/:id`. `validateStatus` runs first; the handler then
      answers 404, 403, or writes the merged fields with `findByIdAndUpdate`,
      which runs neither the save hook nor the validators and touches no other
      document: in particular no `subTasks` list, even when `parentTask` moves.
      A due date the `Date` cast refuses makes the update throw: 500. */
  function UpdateTask(store: Store, caller: UserId, id: Id, b: TaskBody): (r: Reply)
    ensures r.code == OK <==>
              ValidateStatus(b.status) && id in store && CanAccess(store[id], caller) && !b.dueDate.Unparsed?
    ensures r.code == ServerError <==>
              ValidateStatus(b.status) && id in store && CanAccess(store[id], caller) && b.dueDate.Unparsed?
    ensures r.code == BadRequest <==> !ValidateStatus(b.status)
    ensures r.code == NotFound <==> ValidateStatus(b.status) && id !in store
    ensures r.code == Forbidden <==> ValidateStatus(b.status) && id in store && !CanAccess(store[id], caller)
    ensures r.code != OK ==> r.store == store
    ensures r.store.Keys == store.Keys
    ensures r.code == OK ==> id in store && r.store[id] == ApplyUpdate(store[id], b)
    ensures forall k :: k in store && k != id ==> r.store[k] == store[k]
    ensures forall k :: k in store ==> r.store[k].subTasks == store[k].subTasks
    ensures forall k :: k in store ==> r.store[k].owner == store[k].owner
  {
    if !ValidateStatus(b.status) then Reply(BadRequest, store)
    else if id !in store then Reply(NotFound, store)
    else if !CanAccess(store[id], caller) then Reply(Forbidden, store)
    else if b.dueDate.Unparsed? then Reply(ServerError, store)
    else Reply(OK, store[id := ApplyUpdate(store[id], b)])
  }

  /** Repeating an update leaves the store as the first one left it; the owner
      gets the same reply twice. (A caller with shared access may lose it
      through the first update's `sharedWith` and then get 403.) */
  lemma UpdateIdempotent(store: Store, caller: UserId, id: Id, b: TaskBody)
    ensures var once := UpdateTask(store, caller, id, b);
            UpdateTask(once.store, caller, id, b).store == once.store
    ensures id in store && store[id].owner == caller ==>
              var once := UpdateTask(store, caller, id, b);
              UpdateTask(once.store, caller, id, b) == once
  {
    var once := UpdateTask(store, caller, id, b);
    if once.code == OK {
      var t := ApplyUpdate(store[id], b);
      assert ApplyUpdate(t, b) == t;
      assert once.store[id := t] == once.store;
    }
  }

  /** Shared access can be revoked by the update it allowed: the second
      identical update is then refused. */
  lemma UpdateCanRevokeOwnAccess(store: Store, caller: UserId, id: Id)
    requires id in store && store[id].owner != caller && caller in store[id].sharedWith
    ensures var b := EmptyBody.(sharedWith := Some([]));
            var once := UpdateTask(store, caller, id, b);
            once.code == OK && UpdateTask(once.store, caller, id, b).code == Forbidden
  {
  }

  /** An update whose body supplies nothing (or only falsy title, description,
      status, priority and due date) leaves the task as it was. */
  lemma UpdateWithFalsyFieldsIsNoOp(store: Store, caller: UserId, id: Id, title: Option<string>, status: Option<string>)
    requires title == None || title == Some("")
    requires status == None || status == Some("")
    requires id in store && CanAccess(store[id], caller)
    ensures var r := UpdateTask(store, caller, id, EmptyBody.(title := title, status := status));
            r.code == OK && r.store == store
  {
    assert ApplyUpdate(store[id], EmptyBody.(title := title, status := status)) == store[id];
  }

  /** A successful update keeps the status inside the schema enum. */
  lemma UpdateKeepsStatusValid(store: Store, caller: UserId, id: Id, b: TaskBody)
    requires id in store && store[id].status in Statuses
    ensures var r := UpdateTask(store, caller, id, b);
            r.store[id].status in Statuses
  {
  }

  /** The handler tests the raw title for truthiness but the cast trims it: a
      title of spaces alone stores an empty title, which no validator sees. */
  lemma UpdateCanBlankTitle(store: Store, caller: UserId, id: Id)
    requires id in store && store[id].owner == caller
    ensures var r := UpdateTask(store, caller, id, EmptyBody.(title := Some("   ")));
            r.code == OK && r.store[id].title == "" && !PassesValidation(r.store[id])
  {
    assert Text.IsWhitespace(' ');
    assert Text.Trim("   ") == "";
  }

  /** The update does not run the schema validators: an off-enum priority is stored. */
  lemma UpdateStoresUnvalidatedPriority(store: Store, caller: UserId, id: Id)
    requires id in store && store[id].owner == caller
    ensures var r := UpdateTask(store, caller, id, EmptyBody.(priority := Some("urgent")));
            r.code == OK && r.store[id].priority == "urgent" && r.store[id].priority !in Priorities
  {
  }

  /** Moving a task to another parent through an update leaves both parents'
      lists as they were, so the moved child is no longer listed by its parent. */
  lemma UpdateMovesParentWithoutLists(store: Store, caller: UserId, id: Id, newParent: Id)
    requires id in store && store[id].owner == caller
    requires newParent in store && newParent != id && id !in store[newParent].subTasks
    ensures var r := UpdateTask(store, caller, id, EmptyBody.(parentTask := Given(newParent)));
            && r.code == OK
            && r.store[id].parentTask == Some(newParent)
            && id !in r.store[newParent].subTasks
            && !ChildrenListed(r.store)
  {
  }

  // ---------------------------------------------------------------- subtasks

  /** The JSON body of `POST /api/tasks/:id/subtasks`. */
  datatype SubtaskBody = SubtaskBody(
    title: Option<string>,
    description: Option<string>,
    status: Option<string>,
    priority: Option<string>,
    dueDate: BodyDate)

  /** The sub-task document the route builds: owned by the caller, under the
      given parent, status and priority defaulting when falsy, title and
      description through the `trim` setters. */
  function NewSubtaskFrom(caller: UserId, parentId: Id, b: SubtaskBody, newId: Id, now: Time): (t: Task)
    ensures t.owner == caller && t.parentTask == Some(parentId) && t.id == newId
    ensures t.status == (if Truthy(b.status) then b.status.value else Todo)
    ensures t.priority == (if Truthy(b.priority) then b.priority.value else Medium)
    ensures TextTrimmed(t) && t.title == Text.Trim(b.title.GetOr(""))
    ensures b.description.Some? <==> t.description.Some?
    ensures t.subTasks == [] && t.tags == []
    ensures t.dueDate == b.dueDate.Cast()
  {
    NewTask(newId, caller, b.title.GetOr(""), now).(
      parentTask := Some(parentId),
      description := TrimDescription(b.description),
      status := if Truthy(b.status) then b.status.value else Todo,
      priority := if Truthy(b.priority) then b.priority.value else Medium,
      dueDate := b.dueDate.Cast())
  }

  /** Whether the sub-task's own save goes through: the id is new, the due
      date casts and the document passes the validators. */
  predicate SubtaskSaves(store: Store, caller: UserId, parentId: Id, b: SubtaskBody, newId: Id, now: Time) {
    newId !in store && !b.dueDate.Unparsed? && PassesValidation(NewSubtaskFrom(caller, parentId, b, newId, now))
  }

  /** `POST /api/tasks/:id/subtasks`. The sub-task is saved first; the
      parent's save inside `addSubTask` runs the validators too, and when it
      is refused the handler answers 500 with the sub-task stored but not
      listed by its parent. */
  function AddSubtaskRoute(store: Store, caller: UserId, parentId: Id, b: SubtaskBody, newId: Id, now: Time): (r: Reply)
    ensures r.code == NotFound <==> parentId !in store
    ensures r.code == Forbidden <==> parentId in store && !CanAccess(store[parentId], caller)
    ensures r.code == OK <==>
              && parentId in store && CanAccess(store[parentId], caller)
              && SubtaskSaves(store, caller, parentId, b, newId, now)
              && (newId in store[parentId].subTasks || PassesValidation(store[parentId]))
    ensures r.code == ServerError && SubtaskSaves(store, caller, parentId, b, newId, now) ==>
              r.store == store[newId := NewSubtaskFrom(caller, parentId, b, newId, now)]
    ensures r.code != OK && !(r.code == ServerError && SubtaskSaves(store, caller, parentId, b, newId, now)) ==>
              r.store == store
    ensures r.code == OK ==>
              && r.store.Keys == store.Keys + {newId}
              && r.store[newId].parentTask == Some(parentId)
              && r.store[newId].owner == caller
              && r.store[parentId] == AddSubTask(store[parentId], newId, now)
              && (forall k :: k in store && k != parentId ==> r.store[k] == store[k])
  {
    if parentId !in store then Reply(NotFound, store)
    else if !CanAccess(store[parentId], caller) then Reply(Forbidden, store)
    else
      var t := NewSubtaskFrom(caller, parentId, b, newId, now);
      if newId in store || b.dueDate.Unparsed? || !PassesValidation(t) then Reply(ServerError, store)
      else
        var saved := store[newId := t];
        match AddSubTaskChecked(store[parentId], newId, now)
        case Some(parent) => Reply(OK, saved[parentId := parent])
        case None => Reply(ServerError, saved)
  }

  /** Adding a sub-task under a fresh id through the route keeps every child
      listed, except when the parent's save is refused after the sub-task's. */
  lemma AddSubtaskKeepsChildrenListed(store: Store, caller: UserId, parentId: Id, b: SubtaskBody, newId: Id, now: Time)
    requires ChildrenListed(store) && FreshId(store, newId)
    ensures var r := AddSubtaskRoute(store, caller, parentId, b, newId, now);
            ChildrenListed(r.store) <==> r.code == OK || r.store == store
  {
    var r := AddSubtaskRoute(store, caller, parentId, b, newId, now);
    if r.code != OK && r.store != store {
      assert r.store[newId].parentTask == Some(parentId) && parentId in r.store;
      assert newId !in r.store[parentId].subTasks;
    }
    if r.code == OK {
      forall k | k in r.store && r.store[k].parentTask.Some? && r.store[k].parentTask.value in r.store
        ensures k in r.store[r.store[k].parentTask.value].subTasks
      {
        var p := r.store[k].parentTask.value;
        if k != newId {
          assert r.store[k].parentTask == store[k].parentTask;
          assert k !in ChildrenOf(store, newId);
          assert k in store[p].subTasks;
        }
      }
    }
  }

  datatype ListReply = ListReply(code: int, children: set<Id>)

  /** `GET /api/tasks/:id/subtasks`: the tasks whose `parentTask` is the id,
      found by query and not through the `subTasks` list. */
  function ListSubtasks(store: Store, caller: UserId, id: Id): (r: ListReply)
    ensures r.code == OK <==> id in store && CanAccess(store[id], caller)
    ensures r.code == NotFound <==> id !in store
    ensures r.code == Forbidden <==> id in store && !CanAccess(store[id], caller)
    ensures r.code == OK ==> forall k :: k in r.children <==> k in store && store[k].parentTask == Some(id)
    ensures r.code != OK ==> r.children == {}
  {
    if id !in store then ListReply(NotFound, {})
    else if !CanAccess(store[id], caller) then ListReply(Forbidden, {})
    else ListReply(OK, ChildrenOf(store, id))
  }

  /** `DELETE /api/tasks/:id/subtasks/:subTaskId`. A sub-task without a parent
      makes `subTask.parentTask.toString()` throw, which the handler answers
      with 500; a sub-task of another parent gets 400; otherwise the sub-task
      goes through the document remove path (one-level cascade, detach). */
  function RemoveSubtaskRoute(store: Store, caller: UserId, parentId: Id, subId: Id, now: Time): (r: Reply)
    ensures r.code == OK <==>
              && parentId in store && CanAccess(store[parentId], caller)
              && subId in store && store[subId].parentTask == Some(parentId)
    ensures r.code == BadRequest <==>
              && parentId in store && CanAccess(store[parentId], caller)
              && subId in store && store[subId].parentTask.Some? && store[subId].parentTask != Some(parentId)
    ensures r.code == ServerError <==>
              parentId in store && CanAccess(store[parentId], caller) && subId in store && store[subId].parentTask == None
    ensures r.code == NotFound <==>
              parentId !in store || (CanAccess(store[parentId], caller) && subId !in store)
    ensures r.code == Forbidden <==> parentId in store && !CanAccess(store[parentId], caller)
    ensures r.code != OK ==> r.store == store
    ensures r.code == OK ==> r.store == RemoveDocument(store, subId, now)
  {
    if parentId !in store then Reply(NotFound, store)
    else if !CanAccess(store[parentId], caller) then Reply(Forbidden, store)
    else if subId !in store then Reply(NotFound, store)
    else if store[subId].parentTask.None? then Reply(ServerError, store)
    else if store[subId].parentTask != Some(parentId) then Reply(BadRequest, store)
    else Reply(OK, RemoveDocument(store, subId, now))
  }

  /** After a successful sub-task removal the parent no longer lists it. */
  lemma RemoveSubtaskDetaches(store: Store, caller: UserId, parentId: Id, subId: Id, now: Time)
    requires RemoveSubtaskRoute(store, caller, parentId, subId, now).code == OK
    requires store[parentId].parentTask != Some(subId)
    ensures var r := RemoveSubtaskRoute(store, caller, parentId, subId, now);
            && subId !in r.store
            && parentId in r.store
            && subId !in r.store[parentId].subTasks
  {
  }

  // ---------------------------------------------------------------- batch delete

  datatype BatchDeleteReply = BatchDeleteReply(
    code: int,
    store: Store,
    nonExisting: seq<Id>,
    unauthorized: seq<Id>,
    deletedCount: nat)

  /** The ids the batch-delete handler reports as non-existing. */
  function Absent(store: Store): Id -> bool {
    (id: Id) => id !in store
  }

  /** The ids the batch-delete handler reports as unauthorized. */
  function NotOwnedBy(store: Store, caller: UserId): Id -> bool {
    (id: Id) => id in store && store[id].owner != caller
  }

  /** `DELETE /api/tasks/batch` (the first of the two identical handlers):
      all ids must exist (else 404 listing the absent ones), then all must be
      owned by the caller (else 403 listing the others); only then is anything
      deleted, and `deletedCount` is the length of the request's array. */
  function BatchDelete(store: Store, caller: UserId, ids: Option<seq<Id>>): (r: BatchDeleteReply)
    ensures r.code in {OK, BadRequest, NotFound, Forbidden}
    ensures r.code == BadRequest <==> !ValidateBatchOperation(ids)
    ensures r.code == NotFound <==> ValidateBatchOperation(ids) && exists id :: id in ids.value && id !in store
    ensures r.code == Forbidden <==>
              && ValidateBatchOperation(ids)
              && (forall id :: id in ids.value ==> id in store)
              && exists id :: id in ids.value && id in store && store[id].owner != caller
    ensures r.code != OK ==> r.store == store && r.deletedCount == 0
    ensures r.code == NotFound ==>
              && r.nonExisting != []
              && r.nonExisting == Seqs.Filter(ids.value, Absent(store))
    ensures r.code == Forbidden ==>
              && (forall id :: id in ids.value ==> id in store)
              && r.unauthorized != []
              && r.unauthorized == Seqs.Filter(ids.value, NotOwnedBy(store, caller))
    ensures r.code == OK <==>
              ValidateBatchOperation(ids) && forall id :: id in ids.value ==> id in store && store[id].owner == caller
    ensures r.code == OK ==> r.store == store - Seqs.Elements(ids.value) && r.deletedCount == |ids.value|
  {
    if !ValidateBatchOperation(ids) then BatchDeleteReply(BadRequest, store, [], [], 0)
    else
      var taskIds := ids.value;
      var absent := Seqs.Filter(taskIds, Absent(store));
      Seqs.FilterEmpty(taskIds, Absent(store));
      if absent != [] then BatchDeleteReply(NotFound, store, absent, [], 0)
      else
        var foreign := Seqs.Filter(taskIds, NotOwnedBy(store, caller));
        Seqs.FilterEmpty(taskIds, NotOwnedBy(store, caller));
        if foreign != [] then BatchDeleteReply(Forbidden, store, [], foreign, 0)
        else BatchDeleteReply(OK, store - Seqs.Elements(taskIds), [], [], |taskIds|)
  }

  /** Duplicate ids are counted in `deletedCount` although each task is deleted once. */
  lemma BatchDeleteCountsDuplicates(store: Store, caller: UserId, a: Id)
    requires a in store && store[a].owner == caller
    ensures var r := BatchDelete(store, caller, Some([a, a]));
            && r.code == OK
            && r.deletedCount == 2
            && |store.Keys - r.store.Keys| == 1
  {
    var r := BatchDelete(store, caller, Some([a, a]));
    assert Seqs.Elements([a, a]) == {a};
    assert store.Keys - r.store.Keys == {a};
  }

  /** An absent id aborts the whole batch and is reported, even when the rest exist. */
  lemma BatchDeleteAbsentAborts(store: Store, caller: UserId, a: Id, missing: Id)
    requires a in store && missing !in store
    ensures var r := BatchDelete(store, caller, Some([a, missing]));
            r.code == NotFound && r.store == store && r.nonExisting == [missing]
  {
  }

  // ---------------------------------------------------------------- single delete

  /** `DELETE /api/tasks/:id`: only the owner may delete; a missing task and a
      foreign one get the same 404. The record is removed by
      `findByIdAndDelete`: no child is deleted and no parent list is touched. */
  function DeleteTask(store: Store, caller: UserId, id: Id): (r: Reply)
    ensures r.code == OK || r.code == NotFound
    ensures r.code == NotFound <==> id !in store || store[id].owner != caller
    ensures r.code == NotFound ==> r.store == store
    ensures r.code == OK ==> r.store.Keys == store.Keys - {id}
    ensures r.code == OK ==> forall k :: k in r.store ==> r.store[k] == store[k]
  {
    if id !in store || store[id].owner != caller then Reply(NotFound, store)
    else Reply(OK, store - {id})
  }

  /** A missing task and a task owned by someone else get identical replies. */
  lemma DeleteHidesExistence(store: Store, caller: UserId, missing: Id, foreign: Id)
    requires missing !in store
    requires foreign in store && store[foreign].owner != caller
    ensures DeleteTask(store, caller, missing) == DeleteTask(store, caller, foreign)
  {
  }

  /** Single delete leaves the parent listing the deleted id and the children
      pointing at it. */
  lemma DeleteLeavesDanglingReferences(store: Store, caller: UserId, id: Id, parent: Id, child: Id)
    requires id in store && store[id].owner == caller
    requires parent in store && parent != id && id in store[parent].subTasks
    requires child in store && child != id && store[child].parentTask == Some(id)
    ensures var r := DeleteTask(store, caller, id);
            && id in r.store[parent].subTasks
            && child in r.store && r.store[child].parentTask == Some(id)
            && !ListedAreChildren(r.store)
  {
  }

  // ---------------------------------------------------------------- batch status

  datatype BatchStatusReply = BatchStatusReply(code: int, store: Store, updatedCount: nat)

  /** The distinct tasks named in `ids` that exist and belong to the caller. */
  function OwnedMatches(store: Store, caller: UserId, ids: seq<Id>): (m: set<Id>)
    ensures m <= Seqs.Elements(ids)
  {
    set id | id in ids && id in store && store[id].owner == caller
  }

  /** The tasks among `m` whose status actually changes (Mongo's `nModified`). */
  function ChangedCount(store: Store, m: set<Id>, status: string): nat
    requires m <= store.Keys
  {
    |set id | id in m && store[id].status != status|
  }

  /** `PUT /api/tasks/batch/status`. The number of owned documents found must
      equal the length of the request's array, so any duplicate id is refused. */
  function BatchStatus(store: Store, caller: UserId, ids: Option<seq<Id>>, status: Option<string>): (r: BatchStatusReply)
    ensures r.code == BadRequest <==>
              !ValidateBatchOperation(ids) || !(Truthy(status) && status.value in Statuses)
    ensures r.code != OK ==> r.store == store && r.updatedCount == 0
    ensures r.code in {OK, BadRequest, Forbidden}
    ensures r.code == Forbidden <==>
              && ValidateBatchOperation(ids) && Truthy(status) && status.value in Statuses
              && |OwnedMatches(store, caller, ids.value)| != |ids.value|
    ensures r.code == OK ==>
              && r.store.Keys == store.Keys
              && forall k :: k in store ==>
                   r.store[k] == (if k in ids.value then store[k].(status := status.value) else store[k])
  {
    if !ValidateBatchOperation(ids) || !ValidateStatus(status) then BatchStatusReply(BadRequest, store, 0)
    else if !Truthy(status) || status.value !in Statuses then BatchStatusReply(BadRequest, store, 0)
    else
      var m := OwnedMatches(store, caller, ids.value);
      if |m| != |ids.value| then BatchStatusReply(Forbidden, store, 0)
      else
        Seqs.ElementsCardinality(ids.value);
        assert m == Seqs.Elements(ids.value) by {
          SubsetSameSize(m, Seqs.Elements(ids.value));
        }
        var updated := map k | k in store :: if k in m then store[k].(status := status.value) else store[k];
        BatchStatusReply(OK, updated, ChangedCount(store, m, status.value))
  }

  /** A subset of a finite set with as many elements is the whole set. */
  lemma SubsetSameSize<T>(a: set<T>, b: set<T>)
    requires a <= b && |a| >= |b|
    ensures a == b
  {
    if a != b {
      assert !(b <= a);
      var x :| x in b && x !in a;
      SubsetCardinality(a, b - {x});
    }
  }

  /** A subset has at most as many elements. */
  lemma {:induction false} SubsetCardinality<T>(a: set<T>, b: set<T>)
    requires a <= b
    ensures |a| <= |b|
    decreases |a|
  {
    if a != {} {
      var x :| x in a;
      SubsetCardinality(a - {x}, b - {x});
    }
  }

  /** Batch status succeeds exactly when the status is valid and the ids are a
      nonempty list, without repetition, of tasks the caller owns. */
  lemma BatchStatusAcceptsExactly(store: Store, caller: UserId, ids: seq<Id>, status: string)
    ensures BatchStatus(store, caller, Some(ids), Some(status)).code == OK <==>
              && ids != []
              && status in Statuses
              && Seqs.Distinct(ids)
              && (forall id :: id in ids ==> id in store && store[id].owner == caller)
  {
    var m := OwnedMatches(store, caller, ids);
    Seqs.ElementsCardinality(ids);
    if ids != [] && status in Statuses && Seqs.Distinct(ids) && (forall id :: id in ids ==> id in store && store[id].owner == caller) {
      assert m == Seqs.Elements(ids);
    }
    if BatchStatus(store, caller, Some(ids), Some(status)).code == OK {
      assert |m| == |ids|;
      SubsetSameSize(m, Seqs.Elements(ids));
      forall id | id in ids
        ensures id in store && store[id].owner == caller
      {
        assert id in Seqs.Elements(ids);
      }
    }
  }

  /** Repeating an id makes the whole batch fail with 403 and change nothing. */
  lemma BatchStatusRejectsDuplicates(store: Store, caller: UserId, a: Id)
    requires a in store && store[a].owner == caller
    ensures var r := BatchStatus(store, caller, Some([a, a]), Some(Done));
            r.code == Forbidden && r.store == store
  {
    assert OwnedMatches(store, caller, [a, a]) == {a};
  }
}

=== FILE: task_stats.dfy ===
/** The statistics page (client/src/components/TaskStats.js): status and
    priority counts, the completion rate and the histogram of due dates,
    recomputed whenever the task list changes. */
module TaskStats {
  import opened Wrappers
  import Seqs
  import opened ClientTask
  import TaskModel

  /** `tasks.filter(f).length`. */
  function Count(ts: seq<CTask>, f: CTask -> bool): nat {
    |Seqs.Filter(ts, f)|
  }

  function HasStatus(s: string): CTask -> bool {
    (t: CTask) => t.status == Some(s)
  }

  function HasPriority(p: string): CTask -> bool {
    (t: CTask) => t.priority == Some(p)
  }

  // ---------------------------------------------------------------- completion rate

  /** `Math.round((completed / total) * 100)`, or 0 for no tasks, in exact
      arithmetic: the nearest integer to the percentage, a half rounded up. */
  function CompletionRate(completed: nat, total: nat): (rate: nat)
    ensures total == 0 ==> rate == 0
    ensures total > 0 ==> 2 * rate * total - total <= 200 * completed < 2 * rate * total + total
    ensures completed <= total ==> rate <= 100
    ensures completed == 0 ==> rate == 0
    ensures 0 < total == completed ==> rate == 100
  {
    if total == 0 then 0
    else
      var rate := (200 * completed + total) / (2 * total);
      RateBounds(completed, total, rate);
      rate
  }

  /** The quotient `(200c + t) / 2t` brackets the percentage within half a point. */
  lemma RateBounds(completed: nat, total: nat, rate: nat)
    requires total > 0 && rate == (200 * completed + total) / (2 * total)
    ensures 2 * rate * total - total <= 200 * completed < 2 * rate * total + total
    ensures completed <= total ==> rate <= 100
    ensures completed == 0 ==> rate == 0
    ensures completed == total ==> rate == 100
  {
    var n := 200 * completed + total;
    var m := 2 * total;
    assert rate * m <= n < rate * m + m;
    if completed <= total {
      if rate > 100 {
        assert false;
      }
    }
    if completed == 0 {
      if rate > 0 {
        assert false;
      }
    }
    if completed == total {
      assert n == 201 * total;
      if rate < 100 {
        assert false;
      }
    }
  }

  /** The rate is the only integer within half a point of the percentage. */
  lemma RateIsNearest(completed: nat, total: nat, r: int)
    requires total > 0
    requires 2 * r * total - total <= 200 * completed < 2 * r * total + total
    ensures r == CompletionRate(completed, total)
  {
    var m := 2 * total;
    var x := 200 * completed + total;
    assert r * m <= x < r * m + m;
    DivUnique(x, m, r);
  }

  /** The only `r` with `r·m <= x < r·m + m` is `x / m`. */
  lemma DivUnique(x: int, m: int, r: int)
    requires m > 0 && r * m <= x < r * m + m
    ensures r == x / m
  {
    var q := x / m;
    assert q * m <= x < q * m + m;
    if r < q {
      MulMono(r + 1, q, m);
      assert false;
    } else if r > q {
      MulMono(q + 1, r, m);
      assert false;
    }
  }

  lemma MulMono(a: int, b: int, m: int)
    requires a <= b && m > 0
    ensures a * m <= b * m
  {
    assert (b - a) * m >= 0;
  }

  // ---------------------------------------------------------------- due-date histogram

  /** One bar of the due-date chart. */
  datatype DayCount = DayCount(day: Day, count: nat)

  function Days(h: seq<DayCount>): set<Day> {
    set i | 0 <= i < |h| :: h[i].day
  }

  /** Strictly ascending days: the chart's order, and one bar per day. */
  predicate SortedDays(h: seq<DayCount>) {
    forall i, j :: 0 <= i < j < |h| ==> h[i].day < h[j].day
  }

  predicate PositiveCounts(h: seq<DayCount>) {
    forall i :: 0 <= i < |h| ==> h[i].count >= 1
  }

  /** The count shown for a day: `dateCounts[date]`, 0 when it has no bar. */
  function Lookup(h: seq<DayCount>, d: Day): nat
    decreases |h|
  {
    if |h| == 0 then 0 else if h[0].day == d then h[0].count else Lookup(h[1..], d)
  }

  /** The sum of the bars. */
  function Total(h: seq<DayCount>): nat
    decreases |h|
  {
    if |h| == 0 then 0 else h[0].count + Total(h[1..])
  }

  /** `dateCounts[date] = (dateCounts[date] || 0) + 1`, kept in day order. */
  function Insert(h: seq<DayCount>, d: Day): (r: seq<DayCount>)
    decreases |h|
  {
    if |h| == 0 then [DayCount(d, 1)]
    else if h[0].day == d then [DayCount(d, h[0].count + 1)] + h[1..]
    else if d < h[0].day then [DayCount(d, 1)] + h
    else [h[0]] + Insert(h[1..], d)
  }

  lemma {:induction false} InsertDays(h: seq<DayCount>, d: Day)
    ensures Days(Insert(h, d)) == Days(h) + {d}
    decreases |h|
  {
    if |h| > 0 {
      assert h == [h[0]] + h[1..];
      DaysCons(h[0], h[1..]);
      if h[0].day == d {
        DaysCons(DayCount(d, h[0].count + 1), h[1..]);
      } else if d < h[0].day {
        DaysCons(DayCount(d, 1), h);
      } else {
        InsertDays(h[1..], d);
        DaysCons(h[0], Insert(h[1..], d));
      }
    } else {
      assert Days([DayCount(d, 1)]) == {d} by {
        assert [DayCount(d, 1)][0].day == d;
      }
    }
  }

  lemma DaysCons(x: DayCount, h: seq<DayCount>)
    ensures Days([x] + h) == {x.day} + Days(h)
  {
    var r := [x] + h;
    forall e | e in Days(r) ensures e in {x.day} + Days(h) {
      var k :| 0 <= k < |r| && r[k].day == e;
      if k > 0 { assert h[k - 1].day == e; }
    }
    forall e | e in {x.day} + Days(h) ensures e in Days(r) {
      if e == x.day { assert r[0].day == e; }
      else {
        var k :| 0 <= k < |h| && h[k].day == e;
        assert r[k + 1].day == e;
      }
    }
  }

  lemma {:induction false} InsertSorted(h: seq<DayCount>, d: Day)
    requires SortedDays(h) && PositiveCounts(h)
    ensures SortedDays(Insert(h, d)) && PositiveCounts(Insert(h, d))
    decreases |h|
  {
    if |h| > 0 && h[0].day != d && d >= h[0].day {
      InsertSorted(h[1..], d);
      HeadBelowInserted(h, d);
      SortedCons(h[0], Insert(h[1..], d));
    }
  }

  /** Inserting a later day behind the head keeps every day after the head. */
  lemma HeadBelowInserted(h: seq<DayCount>, d: Day)
    requires SortedDays(h) && |h| > 0 && d > h[0].day
    ensures forall j :: 0 <= j < |Insert(h[1..], d)| ==> h[0].day < Insert(h[1..], d)[j].day
  {
    var rest := Insert(h[1..], d);
    InsertDays(h[1..], d);
    forall j | 0 <= j < |rest|
      ensures h[0].day < rest[j].day
    {
      assert rest[j].day in Days(rest);
      if rest[j].day != d {
        var k :| 0 <= k < |h[1..]| && h[1..][k].day == rest[j].day;
        assert h[0].day < h[k + 1].day;
      }
    }
  }

  /** A day before every day of a sorted histogram can go in front. */
  lemma SortedCons(x: DayCount, rest: seq<DayCount>)
    requires SortedDays(rest)
    requires forall j :: 0 <= j < |rest| ==> x.day < rest[j].day
    ensures SortedDays([x] + rest)
  {
    var r := [x] + rest;
    forall i, j | 0 <= i < j < |r|
      ensures r[i].day < r[j].day
    {
      assert r[j] == rest[j - 1];
      if i > 0 {
        assert r[i] == rest[i - 1];
      }
    }
  }

  /** A day without a bar shows count 0. */
  lemma {:induction false} LookupAbsent(h: seq<DayCount>, d: Day)
    requires d !in Days(h)
    ensures Lookup(h, d) == 0
    decreases |h|
  {
    if |h| > 0 {
      assert h[0].day in Days(h);
      assert Days(h[1..]) <= Days(h) by {
        forall e | e in Days(h[1..]) ensures e in Days(h) {
          var k :| 0 <= k < |h[1..]| && h[1..][k].day == e;
          assert h[k + 1].day == e;
        }
      }
      LookupAbsent(h[1..], d);
    }
  }

  lemma {:induction false} InsertLookup(h: seq<DayCount>, d: Day, e: Day)
    requires SortedDays(h)
    ensures Lookup(Insert(h, d), e) == Lookup(h, e) + (if e == d then 1 else 0)
    decreases |h|
  {
    if |h| > 0 {
      if h[0].day == d {
      } else if d < h[0].day {
        if e == d {
          assert d !in Days(h) by {
            forall k | 0 <= k < |h| ensures h[k].day != d {
              if k > 0 { assert h[0].day < h[k].day; }
            }
          }
          LookupAbsent(h, d);
        }
      } else {
        assert SortedDays(h[1..]);
        InsertLookup(h[1..], d, e);
      }
    }
  }

  lemma {:induction false} InsertTotal(h: seq<DayCount>, d: Day)
    ensures Total(Insert(h, d)) == Total(h) + 1
    decreases |h|
  {
    if |h| > 0 {
      if h[0].day == d {
        assert ([DayCount(d, h[0].count + 1)] + h[1..])[1..] == h[1..];
      } else if d < h[0].day {
        assert ([DayCount(d, 1)] + h)[1..] == h;
      } else {
        InsertTotal(h[1..], d);
        assert ([h[0]] + Insert(h[1..], d))[1..] == Insert(h[1..], d);
      }
    }
  }

  function HasDue(t: CTask): bool {
    t.dueDate.DueAt?
  }

  function DueOn(d: Day): CTask -> bool {
    (t: CTask) => t.dueDate == DueAt(d)
  }

  /** `tasksByDueDate`: the count of every due day of the tasks that have one,
      sorted by day. */
  function DueHistogram(ts: seq<CTask>): (h: seq<DayCount>)
    ensures SortedDays(h) && PositiveCounts(h)
    decreases |ts|
  {
    if |ts| == 0 then []
    else
      var h := DueHistogram(ts[..|ts| - 1]);
      var t := ts[|ts| - 1];
      if t.dueDate.DueAt? then
        InsertSorted(h, t.dueDate.day);
        Insert(h, t.dueDate.day)
      else h
  }

  /** Each day's bar counts exactly the tasks due that day. */
  lemma {:induction false} HistogramCounts(ts: seq<CTask>, d: Day)
    ensures Lookup(DueHistogram(ts), d) == Count(ts, DueOn(d))
    decreases |ts|
  {
    if |ts| > 0 {
      var front := ts[..|ts| - 1];
      var t := ts[|ts| - 1];
      HistogramCounts(front, d);
      assert ts == front + [t];
      Seqs.FilterSnoc(front, t, DueOn(d));
      if t.dueDate.DueAt? {
        InsertLookup(DueHistogram(front), t.dueDate.day, d);
      }
    }
  }

  /** The bars add up to the number of tasks with a due date. */
  lemma {:induction false} HistogramTotal(ts: seq<CTask>)
    ensures Total(DueHistogram(ts)) == Count(ts, HasDue)
    decreases |ts|
  {
    if |ts| > 0 {
      var front := ts[..|ts| - 1];
      var t := ts[|ts| - 1];
      HistogramTotal(front);
      assert ts == front + [t];
      Seqs.FilterSnoc(front, t, HasDue);
      if t.dueDate.DueAt? {
        InsertTotal(DueHistogram(front), t.dueDate.day);
      }
    }
  }

  /** A day has a bar exactly when some task is due that day. */
  lemma HistogramDays(ts: seq<CTask>, d: Day)
    ensures d in Days(DueHistogram(ts)) <==> exists t :: t in ts && t.dueDate == DueAt(d)
  {
    var h := DueHistogram(ts);
    HistogramCounts(ts, d);
    if d in Days(h) {
      LookupPresent(h, d);
      var r := Seqs.Filter(ts, DueOn(d));
      assert r[0] in ts;
    } else {
      LookupAbsent(h, d);
    }
  }

  /** A day with a bar shows a positive count. */
  lemma {:induction false} LookupPresent(h: seq<DayCount>, d: Day)
    requires PositiveCounts(h) && d in Days(h)
    ensures Lookup(h, d) >= 1
    decreases |h|
  {
    if h[0].day != d {
      var k :| 0 <= k < |h| && h[k].day == d;
      assert h[1..][k - 1].day == d;
      LookupPresent(h[1..], d);
    }
  }

  // ---------------------------------------------------------------- the effect

  datatype Stats = Stats(
    total: nat,
    completed: nat,
    inProgress: nat,
    pending: nat,
    completionRate: nat,
    high: nat,
    medium: nat,
    low: nat,
    byDueDate: seq<DayCount>)

  /** The state before the first computation. */
  const InitialStats: Stats := Stats(0, 0, 0, 0, 0, 0, 0, 0, [])

  /** The effect on `[tasks]`: a missing or empty list leaves the previous
      figures in place; otherwise they are recomputed from the list. */
  function Recompute(prev: Stats, tasks: Option<seq<CTask>>): (s: Stats)
    ensures tasks.None? || tasks.value == [] ==> s == prev
    ensures tasks.Some? && tasks.value != [] ==>
              && s.total == |tasks.value|
              && s.completed + s.inProgress + s.pending <= s.total
              && s.high + s.medium + s.low <= s.total
              && s.completionRate <= 100
              && SortedDays(s.byDueDate)
    ensures tasks.Some? && tasks.value != [] ==>
              && s.completed == Count(tasks.value, HasStatus(TaskModel.Done))
              && s.inProgress == Count(tasks.value, HasStatus(TaskModel.InProgress))
              && s.pending == Count(tasks.value, HasStatus(TaskModel.Todo))
              && s.high == Count(tasks.value, HasPriority(TaskModel.High))
              && s.medium == Count(tasks.value, HasPriority(TaskModel.Medium))
              && s.low == Count(tasks.value, HasPriority(TaskModel.Low))
              && s.completionRate == CompletionRate(s.completed, s.total)
              && s.byDueDate == DueHistogram(tasks.value)
  {
    if tasks.None? || tasks.value == [] then prev
    else
      var ts := tasks.value;
      var done := Count(ts, HasStatus(TaskModel.Done));
      var doing := Count(ts, HasStatus(TaskModel.InProgress));
      var todo := Count(ts, HasStatus(TaskModel.Todo));
      var high := Count(ts, HasPriority(TaskModel.High));
      var medium := Count(ts, HasPriority(TaskModel.Medium));
      var low := Count(ts, HasPriority(TaskModel.Low));
      StatusCountsBounded(ts);
      PriorityCountsBounded(ts);
      Stats(|ts|, done, doing, todo, CompletionRate(done, |ts|), high, medium, low, DueHistogram(ts))
  }

  /** The three status counts never exceed the number of tasks; they reach it
      exactly when every task has one of the three statuses. */
  lemma StatusCountsBounded(ts: seq<CTask>)
    ensures Count(ts, HasStatus(TaskModel.Done)) + Count(ts, HasStatus(TaskModel.InProgress))
            + Count(ts, HasStatus(TaskModel.Todo)) == Count(ts, (t: CTask) => t.status.Some? && t.status.value in TaskModel.Statuses)
    ensures Count(ts, HasStatus(TaskModel.Done)) <= |ts|
    ensures Count(ts, HasStatus(TaskModel.Done)) + Count(ts, HasStatus(TaskModel.InProgress))
            + Count(ts, HasStatus(TaskModel.Todo)) <= |ts|
  {
    Seqs.FilterSizes3(ts, HasStatus(TaskModel.Done), HasStatus(TaskModel.InProgress), HasStatus(TaskModel.Todo),
                      (t: CTask) => t.status.Some? && t.status.value in TaskModel.Statuses);
  }

  /** The priority counts are exact matches: they add up to the number of
      tasks whose priority is one of the three, never more than all tasks. */
  lemma PriorityCountsBounded(ts: seq<CTask>)
    ensures Count(ts, HasPriority(TaskModel.High)) + Count(ts, HasPriority(TaskModel.Medium))
            + Count(ts, HasPriority(TaskModel.Low)) == Count(ts, (t: CTask) => t.priority.Some? && t.priority.value in TaskModel.Priorities)
    ensures Count(ts, HasPriority(TaskModel.High)) + Count(ts, HasPriority(TaskModel.Medium))
            + Count(ts, HasPriority(TaskModel.Low)) <= |ts|
  {
    Seqs.FilterSizes3(ts, HasPriority(TaskModel.High), HasPriority(TaskModel.Medium), HasPriority(TaskModel.Low),
                      (t: CTask) => t.priority.Some? && t.priority.value in TaskModel.Priorities);
  }

  /** A task without a priority adds to none of the three priority counts. */
  lemma MissingPriorityUncounted(ts: seq<CTask>, t: CTask)
    requires t.priority.None?
    ensures Count(ts + [t], HasPriority(TaskModel.Medium)) == Count(ts, HasPriority(TaskModel.Medium))
    ensures Count(ts + [t], HasPriority(TaskModel.High)) == Count(ts, HasPriority(TaskModel.High))
    ensures Count(ts + [t], HasPriority(TaskModel.Low)) == Count(ts, HasPriority(TaskModel.Low))
  {
    Seqs.FilterSnoc(ts, t, HasPriority(TaskModel.Medium));
    Seqs.FilterSnoc(ts, t, HasPriority(TaskModel.High));
    Seqs.FilterSnoc(ts, t, HasPriority(TaskModel.Low));
  }
}

=== FILE: text.dfy ===
/** String operations the components rely on, with JavaScript's semantics:
    `trim`, `split` on a one-character separator or character class,
    `join`, `includes`, `startsWith`, ASCII `toLowerCase`, `replace(/\D/g, '')`,
    decimal number formatting and `parseInt`. Strings are `seq<char>`. */
module Text {
  import opened Wrappers
  import Seqs

  /** The characters `String.prototype.trim` removes (ECMAScript WhiteSpace and LineTerminator). */
  predicate IsWhitespace(c: char) {
    || c == ' ' || c == '\t' || c == '\n' || c == '\r'
    || c == '\U{000B}' || c == '\U{000C}' || c == '\U{00A0}' || c == '\U{1680}'
    || ('\U{2000}' <= c <= '\U{200A}')
    || c == '\U{2028}' || c == '\U{2029}' || c == '\U{202F}' || c == '\U{205F}'
    || c == '\U{3000}' || c == '\U{FEFF}'
  }

  /** Leading whitespace removed: the longest suffix of `s` not starting with whitespace. */
  function TrimStart(s: string): (r: string)
    ensures |r| <= |s|
    ensures forall i :: 0 <= i < |s| - |r| ==> IsWhitespace(s[i])
    ensures r != [] ==> !IsWhitespace(r[0])
    decreases |s|
  {
    if |s| > 0 && IsWhitespace(s[0]) then TrimStart(s[1..]) else s
  }

  /** Trailing whitespace removed: the longest prefix of `s` not ending with whitespace. */
  function TrimEnd(s: string): (r: string)
    ensures |r| <= |s|
    ensures forall i :: |r| <= i < |s| ==> IsWhitespace(s[i])
    ensures r != [] ==> !IsWhitespace(r[|r| - 1])
    decreases |s|
  {
    if |s| > 0 && IsWhitespace(s[|s| - 1]) then TrimEnd(s[..|s| - 1]) else s
  }

  /** What `TrimStart` keeps is the matching suffix of `s`. */
  lemma {:induction false} TrimStartSuffix(s: string)
    ensures TrimStart(s) == s[|s| - |TrimStart(s)|..]
    decreases |s|
  {
    if |s| > 0 && IsWhitespace(s[0]) {
      TrimStartSuffix(s[1..]);
      assert s[1..][|s[1..]| - |TrimStart(s[1..])|..] == s[|s| - |TrimStart(s)|..];
    }
  }

  /** What `TrimEnd` keeps is the matching prefix of `s`. */
  lemma {:induction false} TrimEndPrefix(s: string)
    ensures TrimEnd(s) == s[..|TrimEnd(s)|]
    decreases |s|
  {
    if |s| > 0 && IsWhitespace(s[|s| - 1]) {
      TrimEndPrefix(s[..|s| - 1]);
      assert s[..|s| - 1][..|TrimEnd(s)|] == s[..|TrimEnd(s)|];
    }
  }

  /** Nothing but whitespace (or nothing at all). */
  predicate Blank(s: string) {
    forall i :: 0 <= i < |s| ==> IsWhitespace(s[i])
  }

  /** `String.prototype.trim`. The result is empty exactly when `s` is all whitespace. */
  function Trim(s: string): (r: string)
    ensures |r| <= |s|
    ensures r != [] ==> !IsWhitespace(r[0]) && !IsWhitespace(r[|r| - 1])
    ensures r == [] <==> Blank(s)
  {
    var t := TrimStart(s);
    TrimStartSuffix(s);
    TrimEndPrefix(t);
    assert t != [] ==> t[0] == s[|s| - |t|];
    TrimEnd(t)
  }

  /** Trimming only removes characters: a string free of `seps` stays free of them. */
  lemma TrimAvoids(s: string, seps: set<char>)
    requires forall j :: 0 <= j < |s| ==> s[j] !in seps
    ensures forall j :: 0 <= j < |Trim(s)| ==> Trim(s)[j] !in seps
  {
    var t := TrimStart(s);
    TrimStartSuffix(s);
    assert forall j :: 0 <= j < |t| ==> t[j] == s[|s| - |t| + j];
    var r := TrimEnd(t);
    TrimEndPrefix(t);
    assert forall j :: 0 <= j < |r| ==> r[j] == t[j];
  }

  /** A string without surrounding whitespace is its own trim. */
  predicate IsTrimmed(s: string) {
    s == [] || (!IsWhitespace(s[0]) && !IsWhitespace(s[|s| - 1]))
  }

  lemma TrimOfTrimmed(s: string)
    requires IsTrimmed(s)
    ensures Trim(s) == s
  {
  }

  /** Whitespace in front of a trimmed string is removed by `trim`. */
  lemma {:induction false} TrimLeadingWhitespace(w: string, s: string)
    requires forall i :: 0 <= i < |w| ==> IsWhitespace(w[i])
    requires IsTrimmed(s) && s != []
    ensures Trim(w + s) == s
    decreases |w|
  {
    if |w| == 0 {
      assert w + s == s;
    } else {
      assert (w + s)[1..] == w[1..] + s;
      TrimLeadingWhitespace(w[1..], s);
    }
  }

  /** `String.prototype.split` with a separator class: the pieces between separators.
      `split(',')` is `Split(s, {','})`; `split(/[,;]/)` is `Split(s, {',', ';'})`. */
  function Split(s: string, seps: set<char>): (r: seq<string>)
    ensures |r| >= 1
    ensures forall i :: 0 <= i < |r| ==> forall j :: 0 <= j < |r[i]| ==> r[i][j] !in seps
    decreases |s|
  {
    if |s| == 0 then [""]
    else
      var rest := Split(s[1..], seps);
      if s[0] in seps then [""] + rest else [[s[0]] + rest[0]] + rest[1..]
  }

  /** `Array.prototype.join`. */
  function Join(parts: seq<string>, sep: string): string
    decreases |parts|
  {
    if |parts| == 0 then ""
    else if |parts| == 1 then parts[0]
    else parts[0] + sep + Join(parts[1..], sep)
  }

  /** Splitting on a character and joining with it gives the original string back. */
  lemma {:induction false} JoinSplit(s: string, c: char)
    ensures Join(Split(s, {c}), [c]) == s
    decreases |s|
  {
    if |s| > 0 {
      var rest := Split(s[1..], {c});
      JoinSplit(s[1..], c);
      if s[0] == c {
        assert Split(s, {c}) == [""] + rest;
        assert ([""] + rest)[1..] == rest;
        assert s == [c] + s[1..];
      } else {
        var parts := [[s[0]] + rest[0]] + rest[1..];
        assert Split(s, {c}) == parts;
        if |rest| == 1 {
          assert s == [s[0]] + s[1..];
        } else {
          assert parts[1..] == rest[1..];
          assert Join(rest, [c]) == rest[0] + [c] + Join(rest[1..], [c]);
          assert s == [s[0]] + s[1..];
        }
      }
    }
  }

  /** A piece without separators is not split. */
  lemma {:induction false} SplitNoSeparator(p: string, seps: set<char>)
    requires forall j :: 0 <= j < |p| ==> p[j] !in seps
    ensures Split(p, seps) == [p]
    decreases |p|
  {
    if |p| > 0 {
      SplitNoSeparator(p[1..], seps);
      assert [p[0]] + p[1..] == p;
    }
  }

  /** A separator ends the first piece. */
  lemma {:induction false} SplitAtSeparator(p: string, c: char, t: string, seps: set<char>)
    requires forall j :: 0 <= j < |p| ==> p[j] !in seps
    requires c in seps
    ensures Split(p + [c] + t, seps) == [p] + Split(t, seps)
    decreases |p|
  {
    if |p| == 0 {
      assert p + [c] + t == [c] + t;
      assert ([c] + t)[1..] == t;
    } else {
      var s := p + [c] + t;
      assert s[1..] == p[1..] + [c] + t;
      SplitAtSeparator(p[1..], c, t, seps);
      assert [p[0]] + p[1..] == p;
    }
  }

  /** A trailing separator adds one empty piece. */
  lemma {:induction false} SplitTrailingSeparator(s: string, c: char, seps: set<char>)
    requires c in seps
    ensures Split(s + [c], seps) == Split(s, seps) + [""]
    decreases |s|
  {
    if |s| == 0 {
      assert s + [c] == [c];
      assert [c][1..] == "";
    } else {
      assert (s + [c])[1..] == s[1..] + [c];
      SplitTrailingSeparator(s[1..], c, seps);
      var rest := Split(s[1..], seps);
      if s[0] !in seps {
        assert (rest + [""])[0] == rest[0];
        assert (rest + [""])[1..] == rest[1..] + [""];
      }
    }
  }

  /** Separator-free text in front of a string joins its first piece. */
  lemma {:induction false} SplitPrefix(w: string, t: string, seps: set<char>)
    requires forall j :: 0 <= j < |w| ==> w[j] !in seps
    ensures Split(w + t, seps) == [w + Split(t, seps)[0]] + Split(t, seps)[1..]
    decreases |w|
  {
    if |w| > 0 {
      assert (w + t)[1..] == w[1..] + t;
      SplitPrefix(w[1..], t, seps);
      assert [w[0]] + (w[1..] + Split(t, seps)[0]) == w + Split(t, seps)[0];
    } else {
      var r := Split(t, seps);
      assert w + t == t && w + r[0] == r[0];
      assert [r[0]] + r[1..] == r;
    }
  }

  /** The pieces a padded join splits back into: the first piece as it was,
      every later one behind the padding `w`. */
  function Padded(parts: seq<string>, w: string): (r: seq<string>)
    requires |parts| >= 1
    ensures |r| == |parts| && r[0] == parts[0]
    ensures forall i :: 1 <= i < |parts| ==> r[i] == w + parts[i]
  {
    [parts[0]] + seq(|parts| - 1, i requires 0 <= i < |parts| - 1 => w + parts[i + 1])
  }

  /** Joining separator-free pieces with a separator `c` followed by padding
      `w`, and splitting again, gives the pieces back behind the padding. */
  lemma {:induction false} SplitJoin(parts: seq<string>, c: char, w: string, seps: set<char>)
    requires |parts| >= 1
    requires c in seps
    requires forall j :: 0 <= j < |w| ==> w[j] !in seps
    requires forall i :: 0 <= i < |parts| ==> forall j :: 0 <= j < |parts[i]| ==> parts[i][j] !in seps
    ensures Split(Join(parts, [c] + w), seps) == Padded(parts, w)
    decreases |parts|
  {
    if |parts| == 1 {
      SplitNoSeparator(parts[0], seps);
    } else {
      var rest := Join(parts[1..], [c] + w);
      assert Join(parts, [c] + w) == parts[0] + [c] + (w + rest) by {
        assert parts[0] + ([c] + w) + rest == parts[0] + [c] + (w + rest);
      }
      SplitJoin(parts[1..], c, w, seps);
      SplitAtSeparator(parts[0], c, w + rest, seps);
      SplitPrefix(w, rest, seps);
      PaddedCons(parts, w);
    }
  }

  /** The padded pieces of a list of two or more: the head, then the padded
      second piece, then the rest of the tail's padded pieces. */
  lemma PaddedCons(parts: seq<string>, w: string)
    requires |parts| >= 2
    ensures Padded(parts, w) == [parts[0]] + ([w + parts[1]] + Padded(parts[1..], w)[1..])
  {
  }

  /** With no padding the pieces come back unchanged. */
  lemma PaddedEmpty(parts: seq<string>)
    requires |parts| >= 1
    ensures Padded(parts, "") == parts
  {
    assert forall i :: 1 <= i < |parts| ==> "" + parts[i] == parts[i];
  }

  /** `parts.map(p => p.trim())`. */
  function TrimAll(parts: seq<string>): (r: seq<string>)
    ensures |r| == |parts|
    ensures forall i :: 0 <= i < |parts| ==> r[i] == Trim(parts[i])
  {
    seq(|parts|, i requires 0 <= i < |parts| => Trim(parts[i]))
  }

  /** `s.split(seps).map(t => t.trim()).filter(t => t)`: the nonempty trimmed
      pieces between separators. */
  function SplitTrimmed(s: string, seps: set<char>): (r: seq<string>)
    ensures forall i :: 0 <= i < |r| ==> r[i] != "" && IsTrimmed(r[i])
    ensures forall i :: 0 <= i < |r| ==> forall j :: 0 <= j < |r[i]| ==> r[i][j] !in seps
  {
    var pieces := Split(s, seps);
    forall i | 0 <= i < |pieces| ensures forall j :: 0 <= j < |Trim(pieces[i])| ==> Trim(pieces[i])[j] !in seps {
      TrimAvoids(pieces[i], seps);
    }
    Seqs.Filter(TrimAll(pieces), (t: string) => t != "")
  }

  /** Nothing to split gives no pieces. */
  lemma SplitTrimmedEmpty(seps: set<char>)
    ensures SplitTrimmed("", seps) == []
  {
    assert Split("", seps) == [""];
    assert TrimAll([""]) == [""];
  }

  /** Joining nonempty trimmed separator-free pieces with `c` and whitespace
      padding, then splitting and trimming, gives the pieces back. */
  lemma SplitTrimmedJoin(parts: seq<string>, c: char, w: string, seps: set<char>)
    requires c in seps
    requires forall j :: 0 <= j < |w| ==> w[j] !in seps && IsWhitespace(w[j])
    requires forall i :: 0 <= i < |parts| ==> parts[i] != "" && IsTrimmed(parts[i])
    requires forall i :: 0 <= i < |parts| ==> forall j :: 0 <= j < |parts[i]| ==> parts[i][j] !in seps
    ensures SplitTrimmed(Join(parts, [c] + w), seps) == parts
  {
    if |parts| == 0 {
      SplitTrimmedEmpty(seps);
    } else {
      SplitJoin(parts, c, w, seps);
      TrimAllPadded(parts, w);
      Seqs.FilterKeepsAll(parts, (t: string) => t != "");
    }
  }

  /** Trimming the padded pieces removes the padding again. */
  lemma TrimAllPadded(parts: seq<string>, w: string)
    requires |parts| >= 1
    requires forall j :: 0 <= j < |w| ==> IsWhitespace(w[j])
    requires forall i :: 0 <= i < |parts| ==> parts[i] != "" && IsTrimmed(parts[i])
    ensures TrimAll(Padded(parts, w)) == parts
  {
    var padded := Padded(parts, w);
    forall i | 0 <= i < |parts|
      ensures Trim(padded[i]) == parts[i]
    {
      if i == 0 {
        TrimOfTrimmed(parts[0]);
      } else {
        TrimLeadingWhitespace(w, parts[i]);
      }
    }
  }

  /** `String.prototype.startsWith`. */
  predicate StartsWith(s: string, prefix: string) {
    |prefix| <= |s| && s[..|prefix|] == prefix
  }

  /** `String.prototype.includes`: `sub` occurs in `s`. */
  predicate Contains(s: string, sub: string)
    decreases |s|
  {
    StartsWith(s, sub) || (|s| > 0 && Contains(s[1..], sub))
  }

  /** `sub` occurs in `s` at position `i`. */
  predicate OccursAt(s: string, sub: string, i: int) {
    0 <= i <= |s| - |sub| && s[i..i + |sub|] == sub
  }

  /** `Contains` means: `sub` occurs at some position of `s`. */
  lemma {:induction false} ContainsAt(s: string, sub: string)
    ensures Contains(s, sub) <==> exists i :: OccursAt(s, sub, i)
    decreases |s|
  {
    if StartsWith(s, sub) {
      assert OccursAt(s, sub, 0);
    }
    if |s| > 0 {
      ContainsAt(s[1..], sub);
      if Contains(s[1..], sub) {
        var i :| OccursAt(s[1..], sub, i);
        assert s[i + 1..i + 1 + |sub|] == s[1..][i..i + |sub|];
        assert OccursAt(s, sub, i + 1);
      }
      if exists i :: OccursAt(s, sub, i) {
        var i :| OccursAt(s, sub, i);
        if i > 0 {
          assert s[1..][i - 1..i - 1 + |sub|] == s[i..i + |sub|];
          assert OccursAt(s[1..], sub, i - 1);
        }
      }
    } else {
      if exists i :: OccursAt(s, sub, i) {
        var i :| OccursAt(s, sub, i);
        assert StartsWith(s, sub);
      }
    }
  }

  /** `toLowerCase` on one character; only ASCII letters are mapped. */
  function LowerChar(c: char): char {
    if 'A' <= c <= 'Z' then (c as int + 32) as char else c
  }

  /** `String.prototype.toLowerCase`, restricted to ASCII letters. */
  function ToLower(s: string): (r: string)
    ensures |r| == |s|
  {
    seq(|s|, i requires 0 <= i < |s| => LowerChar(s[i]))
  }

  /** The characters `\d` matches. */
  predicate IsDigit(c: char) {
    '0' <= c <= '9'
  }

  predicate AllDigits(s: string) {
    forall i :: 0 <= i < |s| ==> IsDigit(s[i])
  }

  /** `s.replace(/\D/g, '')`: the digits of `s`, in order. */
  function DigitsOnly(s: string): (r: string)
    ensures AllDigits(r)
  {
    Seqs.Filter(s, IsDigit)
  }

  function DigitChar(d: nat): (c: char)
    requires d < 10
    ensures IsDigit(c)
  {
    ('0' as int + d) as char
  }

  /** The decimal value of a string of digits. */
  function DigitsValue(s: string): nat
    requires AllDigits(s)
    decreases |s|
  {
    if |s| == 0 then 0
    else DigitsValue(s[..|s| - 1]) * 10 + (s[|s| - 1] as int - '0' as int)
  }

  /** `String(n)` for a natural number. */
  function NatToString(n: nat): (r: string)
    ensures |r| >= 1 && AllDigits(r)
    decreases n
  {
    if n < 10 then [DigitChar(n)] else NatToString(n / 10) + [DigitChar(n % 10)]
  }

  /** Reading back the decimal text of `n` gives `n`. */
  lemma {:induction false} NatToStringValue(n: nat)
    ensures DigitsValue(NatToString(n)) == n
    decreases n
  {
    if n >= 10 {
      NatToStringValue(n / 10);
      var s := NatToString(n);
      assert s[..|s| - 1] == NatToString(n / 10);
    }
  }

  /** The longest prefix of `s` made of digits. */
  function LeadingDigits(s: string): (r: string)
    ensures |r| <= |s| && r == s[..|r|] && AllDigits(r)
    ensures |r| < |s| ==> !IsDigit(s[|r|])
    decreases |s|
  {
    if |s| > 0 && IsDigit(s[0]) then [s[0]] + LeadingDigits(s[1..]) else ""
  }

  /** `parseInt(s)` (radix 10): leading whitespace and an optional sign, then the
      longest run of digits; `None` stands for `NaN`. */
  function ParseInt(s: string): (r: Option<int>)
    ensures r.None? <==> LeadingDigits(SignFree(TrimStart(s))) == ""
  {
    var t := TrimStart(s);
    var body := SignFree(t);
    var d := LeadingDigits(body);
    if d == "" then None
    else
      var v: int := DigitsValue(d);
      if |t| > 0 && t[0] == '-' then Some(-v) else Some(v)
  }

  /** `t` without one leading sign character. */
  function SignFree(t: string): string {
    if |t| > 0 && (t[0] == '-' || t[0] == '+') then t[1..] else t
  }

  /** `parseInt` reads back the decimal text of any natural number. */
  lemma ParseIntOfNat(n: nat)
    ensures ParseInt(NatToString(n)) == Some(n)
  {
    var s := NatToString(n);
    assert !IsWhitespace(s[0]);
    assert TrimStart(s) == s;
    assert SignFree(s) == s;
    LeadingDigitsOfDigits(s);
    NatToStringValue(n);
  }

  lemma {:induction false} LeadingDigitsOfDigits(s: string)
    requires AllDigits(s)
    ensures LeadingDigits(s) == s
    decreases |s|
  {
    if |s| > 0 {
      LeadingDigitsOfDigits(s[1..]);
    }
  }
}

=== FILE: user_list.dfy ===
/** The user directory (client/src/components/UserList.js): the search box
    narrows the fetched users by username, e-mail or phone. */
module UserList {
  import opened Wrappers
  import Seqs
  import Text

  /** One row of `GET /api/users`; the phone is optional. */
  datatype UserRow = UserRow(username: string, email: string, phone: Option<string>)

  /** The search predicate: the term, lower-cased, inside the lower-cased
      username or e-mail, or the term as typed inside a non-empty phone. */
  predicate Matches(term: string, u: UserRow) {
    || Text.Contains(Text.ToLower(u.username), Text.ToLower(term))
    || Text.Contains(Text.ToLower(u.email), Text.ToLower(term))
    || (u.phone.Some? && u.phone.value != "" && Text.Contains(u.phone.value, term))
  }

  /** `filteredUsers` after the search effect: every user for an empty term,
      otherwise the matching users in their fetched order. */
  function Search(users: seq<UserRow>, term: string): (r: seq<UserRow>)
    ensures term == "" ==> r == users
    ensures Seqs.IsSubsequence(r, users)
    ensures term != "" ==> forall u :: u in r <==> u in users && Matches(term, u)
  {
    if term == "" then
      Seqs.SubsequenceRefl(users);
      users
    else Seqs.Filter(users, (u: UserRow) => Matches(term, u))
  }

  /** A user whose username contains the term, in whatever letter case, is found. */
  lemma UsernameFoundInAnyCase(users: seq<UserRow>, term: string, u: UserRow)
    requires u in users && Text.Contains(Text.ToLower(u.username), Text.ToLower(term))
    ensures u in Search(users, term)
  {
  }

  /** A substring of `s` at `i` stays a substring after lower-casing both. */
  lemma LowerOccurs(s: string, sub: string, i: int)
    requires Text.OccursAt(s, sub, i)
    ensures Text.OccursAt(Text.ToLower(s), Text.ToLower(sub), i)
  {
    assert Text.ToLower(s)[i..i + |sub|] == Text.ToLower(s[i..i + |sub|]);
  }

  /** Lower-casing keeps containment. */
  lemma LowerContains(s: string, sub: string)
    requires Text.Contains(s, sub)
    ensures Text.Contains(Text.ToLower(s), Text.ToLower(sub))
  {
    Text.ContainsAt(s, sub);
    var i :| Text.OccursAt(s, sub, i);
    LowerOccurs(s, sub, i);
    Text.ContainsAt(Text.ToLower(s), Text.ToLower(sub));
  }

  /** Containment is transitive. */
  lemma ContainsTrans(s: string, mid: string, sub: string)
    requires Text.Contains(s, mid) && Text.Contains(mid, sub)
    ensures Text.Contains(s, sub)
  {
    Text.ContainsAt(s, mid);
    Text.ContainsAt(mid, sub);
    var i :| Text.OccursAt(s, mid, i);
    var j :| Text.OccursAt(mid, sub, j);
    forall k | 0 <= k < |sub|
      ensures s[i + j + k] == sub[k]
    {
      assert sub[k] == mid[j + k];
      assert mid[j + k] == s[i..i + |mid|][j + k];
    }
    assert s[i + j..i + j + |sub|] == sub;
    assert Text.OccursAt(s, sub, i + j);
    Text.ContainsAt(s, sub);
  }

  /** A user matching a longer term also matches any part of it. */
  lemma MatchesNarrow(longer: string, shorter: string, u: UserRow)
    requires Text.Contains(longer, shorter) && Matches(longer, u)
    ensures Matches(shorter, u)
  {
    LowerContains(longer, shorter);
    if Text.Contains(Text.ToLower(u.username), Text.ToLower(longer)) {
      ContainsTrans(Text.ToLower(u.username), Text.ToLower(longer), Text.ToLower(shorter));
    } else if Text.Contains(Text.ToLower(u.email), Text.ToLower(longer)) {
      ContainsTrans(Text.ToLower(u.email), Text.ToLower(longer), Text.ToLower(shorter));
    } else {
      ContainsTrans(u.phone.value, longer, shorter);
    }
  }

  /** Typing more only narrows the list: every user found for a term is found
      for any part of it. */
  lemma SearchNarrows(users: seq<UserRow>, longer: string, shorter: string, u: UserRow)
    requires Text.Contains(longer, shorter)
    requires u in Search(users, longer)
    ensures u in Search(users, shorter)
  {
    if longer != "" && shorter != "" {
      MatchesNarrow(longer, shorter, u);
    }
  }
}

=== FILE: wrappers.dfy ===
/** Optional values: the model's stand-in for JavaScript's `undefined`/`null`. */
module Wrappers {

  datatype Option<+T> = None | Some(value: T) {

    /** Returns the value held in Some, or `default` when None. */
    function GetOr(default: T): T {
      match this
      case Some(v) => v
      case None => default
    }
  }
}
